=== FILE: README.md ===
# Weekly timetable generator and hours audit — a Dafny model

This project models the core of `TT_gen.py`, a generator of weekly class timetables for
department/semester sections, and the audit that reads the written timetables back.

**Calendar.** A day runs from 09:00 to 18:30 in 19 half-hour slots. The slots starting
10:30, 13:00 and 13:30 are breaks. The week has five days.

**Room assignment.** Each (department, semester) section gets one lecture room, handed out
round-robin from the lecture-room list, and one pair of lab rooms.

**Allocation.** For every course row with some L, T or P hours, the allocator places its
sessions. The number of sessions is computed from the hours. Labs are placed first, then
lectures, then tutorials. A lab lasts 4 slots, a lecture 3 and a tutorial 2.

A session goes at a randomly drawn (day, start) that meets all of these:
- every slot is free for the faculty member, for the room(s) and in the section's grid;
- no slot is a break (for a tutorial, only the first slot is checked);
- the faculty member's three-hour gap rule admits it.

Each session gets up to 1000 attempts. Lectures and labs prefer days on which the course has
no component yet, for the first 500 attempts.

**Audit.** The audit parses the anchor cell of every session (`CODE KIND\n room no. :ROOM`)
and credits 1.5 h per LEC, 1 h per TUT and 2 h per LAB to the code it reads. It merges the
credited hours by primary code through an alias map built from the course codes (a
slash-separated code maps all its parts to its first part). It then reports every course row
whose L, T, P or S requirement is not covered, with the reasons the source gives.

**Representation.**
- Times are slot indices.
- Hours are whole half-hours, so 1.5 h is 3.
- The source's mutable dictionaries are values that methods take and return:
  - the professor and classroom schedules (`Ledger`: name → one set of busy slots per day);
  - the section's grid (`Grid`: day → slot → cell).
- A ghost log of committed sessions carries the allocator's invariants:
  - no two overlapping sessions share a faculty member, a room or a grid;
  - every session is recorded in the ledger and shown in its grid;
  - within one section's grid, each pair of same-day sessions of a faculty member satisfies the gap rule
    (the source checks the rule against the grid being filled only, so sessions in different sections
    may sit back to back);
  - the ledger and each grid are exactly what committing the logged sessions in order makes of them.
- The random-number generator is a parameter: a stream `draws: nat -> nat` and a cursor.

## Model

| member | source | states |
|---|---|---|
| Calendar.GenerateTimeSlots | TT_gen.py:62-75 | the day is cut into exactly 19 consecutive half-hour slots from 09:00, all inside 09:00–18:30 |
| Calendar.BreakSlotsAreThreeEightNine | TT_gen.py:84-93 | the break test on a slot's start time selects exactly slots 3, 8 and 9 (10:30, 13:00, 13:30) |
| Sessions.Duration | TT_gen.py:13-15 | every session kind lasts between 2 and 4 slots (TUT 2, LEC 3, LAB 4) |
| Sessions.OnlyLabsLastFourSlots | TT_gen.py:170-177 | a duration of LAB_DURATION identifies a lab, the fact the gap rule's lab exception relies on |
| Sessions.CreditHalfHours | TT_gen.py:754-762 | the hours the audit credits per session equal that session's length in slots |
| Sessions.LectureSessions | TT_gen.py:306-310 | lecture count is the least n with 1.5 h × n ≥ L hours (ceiling of L / 1.5) |
| Sessions.TutorialSessions | TT_gen.py:312-313 | one one-hour tutorial per T hour: the sessions cover T exactly |
| Sessions.LabSessions | TT_gen.py:315-318 | lab count is the least n with 2 h × n ≥ P hours (ceiling of P / 2) |
| Sessions.SessionCountsCoverRequirements | TT_gen.py:306-318 | if every computed session is placed, the credited L, T and P hours reach the requirement |
| Sessions.ScenarioThreeOneTwo | TT_gen.py:306-318 | a 3-1-2 course needs two 3-slot lectures, one 2-slot tutorial and one 4-slot lab |
| Timetable.EmptyGrid | TT_gen.py:262-263 | a fresh section grid has 5 × 19 cells, all without a type |
| Timetable.EmptyWeek | TT_gen.py:303-304 | a new faculty member's week has 5 empty days |
| Timetable.InitialLedger | TT_gen.py:200-202 | the classroom schedule starts with exactly the given room keys, all days empty, and no professors |
| Timetable.SpanSet | TT_gen.py:372-373 | the slots a session marks are exactly start .. start + n − 1 |
| Gap.RunEnd | TT_gen.py:155-160 | the scan from an occupied typed slot stops at the first slot that is not both held by the faculty member and typed in the grid |
| Gap.GapAdmits | TT_gen.py:127-190 | the gap rule itself: a faculty member free all day admits any start; otherwise every occupied slot of the day must admit the new session (lab-after-non-lab exception, else at least 3 h from each typed run) |
| Gap.CheckProfessorConstraint | TT_gen.py:127-190 | the loop's verdict equals the gap rule (GapAdmits) over every slot of the faculty member's day |
| Gap.SymmetricExceptionNeverFires | TT_gen.py:175-177 | the second exception tests the new session's own start cell, which is still empty, so it never applies |
| Gap.RunCoversBlock | TT_gen.py:155-160 | the end of a run covers every contiguous held-and-typed block that starts there |
| Gap.AdmittedSessionKeepsGap | TT_gen.py:170-188 | an admitted session starts at least 3 h from each earlier session of that faculty member, unless it is a lab directly after a lecture or tutorial |
| Gap.CloseStartRejected | TT_gen.py:183-188 | a non-lab session starting within 3 h of an occupied typed slot is rejected |
| Gap.FreeDayAdmits | TT_gen.py:129-131 | a faculty member with no classes that day is always admitted |
| Rooms.Rotated | TT_gen.py:216-224 | popping the head of the room list and re-appending it keeps the list's length |
| Rooms.RotatedAt | TT_gen.py:216-224 | after m pops and re-appends the list is a permutation of the pool that starts at room m and wraps around to room 0 |
| Rooms.RotateStep | TT_gen.py:219-224 | after m pops the head is room m, and one more pop gives the rotation by m + 1 (mod length) |
| Rooms.LectureRoomFor | TT_gen.py:216-227 | the k-th section gets lecture room k mod the number of lecture rooms, the room the pop-and-append rotation hands out; with no lecture rooms it gets "No Lecture Room" |
| Rooms.LabPair | TT_gen.py:229-242 | two or more lab rooms give the first two; one gives it twice; none gives the "No Lab Room" pair |
| Rooms.AssignRooms | TT_gen.py:210-242 | every section gets a lecture room and a lab pair; a section's lecture room is the round-robin room of its last occurrence |
| Rooms.KeepLaterAssignments | TT_gen.py:216-224 | each reassignment keeps the round-robin room of every section's last occurrence so far |
| Rooms.RoundRobinPeriod | TT_gen.py:219-224 | the round-robin lecture room repeats with period equal to the number of lecture rooms |
| Rooms.InitialRoomKeys | TT_gen.py:200-202 | the classroom schedule's keys are exactly the lecture, lab and large rooms |
| Rooms.LectureSentinelIsNoKey | TT_gen.py:225-227 | with no lecture rooms, the "No Lecture Room" sentinel is not a schedule key (the source's KeyError path) |
| Courses.Unique | TT_gen.py:211-212 | unique() keeps exactly the values present, each once, in the order of their first appearance |
| Courses.Departments | TT_gen.py:212 | the Department column in row order, repeats included, before `unique()` is applied |
| Courses.SemestersOf | TT_gen.py:213 | the Semester column of the rows of one department, in row order, before `unique()` is applied |
| Courses.DeptSemCombinations | TT_gen.py:210-214 | each distinct department in first-appearance order paired with each of its distinct semesters in first-appearance order |
| Courses.SectionsFor | TT_gen.py:211-213 | a department's sections pair it with each of its semesters, in order |
| Courses.CoursesOf | TT_gen.py:253 | a section's course rows are exactly the rows of that department and semester, each as often as the table has it |
| Courses.CoursesOfConcat | TT_gen.py:253 | the selection keeps table order: selecting from two runs of rows one after the other gives the two selections one after the other |
| Courses.DepartmentsMembers | TT_gen.py:212 | a department is listed iff some row has it |
| Courses.SemestersMembers | TT_gen.py:213 | a semester is listed for a department iff some row of that department has it |
| Courses.CombinationsFromMembers | TT_gen.py:210-214 | the combinations built from a department list are exactly its (department, semester) pairs present in the rows |
| Courses.CombinationsCoverRows | TT_gen.py:210-214 | a (department, semester) pair is a combination iff some row has it |
| Courses.CombinationsFromDistinct | TT_gen.py:210-214 | distinct departments give combinations without repeats |
| Courses.CombinationsDistinct | TT_gen.py:210-214 | no section is listed twice, so each gets one sheet |
| Courses.SectionsHaveCourses | TT_gen.py:253-256 | every listed section has at least one course row, so the empty-section skip never fires |
| Placement.ProbeSlot | TT_gen.py:355-364 | a slot probes Free iff the faculty member, every room and the grid are free there and, except for a tutorial, it is not a break; an unknown room is reported |
| Placement.ProbeSpan | TT_gen.py:345-364 | a span probe that fails on an unknown room names a room of the request that is not a schedule key |
| Placement.ProbeSpanFreeIffClear | TT_gen.py:345-364 | the span probe is Free iff every slot of the rest of the span is clear |
| Placement.SlotsFree | TT_gen.py:414-422 | the slot-by-slot loop with early exit returns the span probe; Free iff every slot of the session is clear |
| Placement.MarkIn | TT_gen.py:372-379 | adding a slot to one key's day changes only that day of that key |
| Placement.Commit | TT_gen.py:428-437 | committing stamps every slot of the session into the professor's and rooms' schedules and the grid (anchor cell first, continuation cells after) and changes nothing else |
| Placement.CellAt | TT_gen.py:372-387 | the cell a session writes at a slot: its type, code, name, faculty and room at the start slot, only its type after it |
| Placement.StampLedger | TT_gen.py:372-381 | committing a session adds its span on its day to its faculty member's entry and to each of its rooms' entries, and leaves every other entry as it was |
| Placement.StampGrid | TT_gen.py:383-387 | committing a session writes CellAt over its span on its day and leaves every other cell and the grid's shape unchanged |
| Placement.MarkSlot | TT_gen.py:372-387 | one iteration of the marking loop extends the stamped prefix by one slot |
| Placement.ClearSpanAvoidsBreaks | TT_gen.py:345-364 | a clear span avoids every break slot; a tutorial whose start passed the break test avoids it at its start |
| Placement.TutorialCoversBreak | TT_gen.py:452-455 | a tutorial that passes the start-slot break test covers a break slot exactly when it starts at slot 2 or 7 |
| Placement.ClearSpanNoClash | TT_gen.py:355-362 | a session on a clear span overlaps no recorded session of the same faculty member, room or grid |
| Placement.AdmittedGapKept | TT_gen.py:366-368 | a session the gap check admits keeps the gap rule with every recorded session of that faculty member |
| Placement.CommitKeepsLedgerInv | TT_gen.py:366-389 | committing an admitted session keeps every session recorded, clash-free and gap-respecting |
| Placement.CommitKeepsGridInv | TT_gen.py:383-387 | committing into empty cells keeps every earlier session of the section shown in its grid |
| Placement.CommitKeepsInvariants | TT_gen.py:345-389 | the ledger and grid invariants both survive each commit |
| Placement.ReplayOneMore | TT_gen.py:366-389 | committing one more session stamps it onto the replayed ledger and, in its own section, onto the replayed grid |
| Placement.ProfessorHoldsIffLogged | TT_gen.py:372-373 | a faculty member holds a slot iff a logged session of theirs covers it |
| Placement.RoomHeldIffLogged | TT_gen.py:375-381 | a room is held in a slot iff a logged session in that room covers it |
| Placement.CellWrittenIffLogged | TT_gen.py:383-387 | a grid cell is written iff a logged session of that section covers it, and then it holds that session's cell |
| Placement.LedgerInvAppend | TT_gen.py:366-389 | a session recorded in the ledger and clashing with no logged session extends the ledger invariant to the longer log |
| Placement.StampKeepsShown | TT_gen.py:383-387 | writing a session over empty cells keeps every shown session shown |
| Placement.GridInvAppend | TT_gen.py:383-387 | a shown session of the section extends the grid invariant to the longer log |
| Placement.CrossSectionBackToBack | TT_gen.py:127-190 | the gap rule is per section grid: a lecture at slot 3 of section 1 is admitted right after the same faculty member's lecture at slots 0–2 of section 0 |
| Placement.Choose | TT_gen.py:337-343 | random.choice / randint pick an index below the range size |
| Placement.Reduce | TT_gen.py:337-343 | a draw is reduced into the range 0 .. n − 1 |
| Placement.ChooseAnyInRange | TT_gen.py:337-343 | every index in range is chosen by some stream of draws, so no choice is excluded |
| Placement.Candidate | TT_gen.py:335-343 | an attempt's day is a day of the week and its start leaves room for the whole session; in the first 500 attempts of a lab or lecture the day is a preferred one |
| Placement.Verdict | TT_gen.py:345-368 | an attempt that places its session places it at the drawn (day, start); a missing room key names a room of the request that is not a schedule key |
| Placement.VerdictPlacedIff | TT_gen.py:345-368 | an attempt places its session iff it is not a tutorial drawn onto a break, every slot of the span is clear, and the gap rule admits it |
| Placement.FirstOf | TT_gen.py:335 | the attempt loop stops after at least one and at most 1000 attempts |
| Placement.FirstOfIsFirst | TT_gen.py:335-390 | the loop stops at the first attempt that is not rejected: every earlier one was rejected, its outcome is that attempt's, and it ends rejected only after all 1000 attempts |
| Placement.FirstAdmitted | TT_gen.py:335-390 | the same bounds for the attempts of one instance |
| Placement.FirstAdmittedIsFirst | TT_gen.py:335-390 | the instance's outcome is that of its first attempt not rejected; every earlier attempt was rejected; it is rejected only after 1000 attempts |
| Placement.Attempt | TT_gen.py:335-368 | one pass draws the candidate of that attempt from the stream and returns its verdict |
| Placement.Search | TT_gen.py:335-390 | the attempt loop returns the first attempt not rejected and its candidate, having used two draws per attempt; a lab or lecture placed within 500 attempts is on a preferred day |
| Placement.Place | TT_gen.py:366-389 | committing an admitted candidate appends its session to the log, stamps it, and keeps both invariants |
| Placement.PlacedIsClear | TT_gen.py:345-368 | an admitted candidate lies inside the day, avoids breaks, and its span is clear and admitted by the gap rule |
| Placement.PlaceInstance | TT_gen.py:335-390 | the number of attempts and the outcome are exactly those of the first attempt not rejected, two draws each; a placed session passed the probe, the gap check and the break check, joins the log and is stamped exactly; within the first 500 attempts a lecture or lab lands on a preferred day; otherwise nothing changes; a KeyError names a missing room |
| Placement.TryAt | TT_gen.py:404-439 | one attempt's outcome is exactly Verdict: placed iff clear and admitted, a missing room reported, otherwise rejected with nothing written |
| Allocator.FreeDaysFrom | TT_gen.py:329 | the days from d on that carry no component of the course, ascending |
| Allocator.PreferredDays | TT_gen.py:329-333 | the free days if any, otherwise all five days; never empty |
| Allocator.HasHours | TT_gen.py:286-288 | a row is scheduled only when one of L, T or P is non-zero; S alone schedules nothing |
| Allocator.LabRequest | TT_gen.py:372-387 | a lab asks for both of the section's lab rooms and shows them as "lab1 & lab2" |
| Allocator.RoomRequest | TT_gen.py:430-437 | a lecture or tutorial asks for the section's lecture room alone and shows that room (TT_gen.py:475-479 for tutorials) |
| Allocator.PlaceSessions | TT_gen.py:324-390 | places at most count sessions of one request, each an instance of it, appended to the log; the ledger and grid are exactly the replay of the longer log and keep both invariants; the day set grows by the placed days; a KeyError names a missing room |
| Allocator.PlaceOne | TT_gen.py:325-390 | one outer iteration: the first attempt not rejected decides; a placed candidate is appended as that instance and its day is used; a rejected instance or a missing room changes nothing; two draws per attempt |
| Allocator.PlaceLogged | TT_gen.py:335-390 | one instance as seen by the loops: outcome and draws of the first attempt not rejected; a placed session is the one appended; otherwise nothing changes |
| Allocator.InstancesPlacedAppend | TT_gen.py:325-390 | logging one more instance keeps the instance loop's bookkeeping |
| Allocator.DaysAppend | TT_gen.py:389 | one more placed session adds exactly its day to the scheduled days |
| Allocator.EnsureFaculty | TT_gen.py:303-304 | a faculty member not yet in the schedule gets an empty week; nothing else changes |
| Allocator.NewFacultyKeepsLedgerInv | TT_gen.py:303-304 | adding an empty week for a faculty member with no sessions keeps the ledger invariant |
| Allocator.ReplayNewFaculty | TT_gen.py:303-304 | a faculty member with no logged session keeps their starting entry through the replay |
| Allocator.StampOtherFaculty | TT_gen.py:366-389 | committing another faculty member's session leaves this one's entry as it was |
| Allocator.ScheduleCourse | TT_gen.py:275-482 | labs, then lectures, then tutorials, each at most its session count and only when its hours are positive; the faculty member is added only for a course with hours |
| Allocator.PlaceComponents | TT_gen.py:323-482 | the three component loops run in the source's order (labs, lectures, tutorials), each within its session count; the log grows by exactly those instances; a KeyError names a missing lab or lecture room |
| Allocator.PlaceRoomComponents | TT_gen.py:392-482 | lectures, then tutorials, in the lecture room, each within its session count; skipped after a KeyError; a KeyError here names the lecture room |
| Allocator.PlaceComponent | TT_gen.py:324-325 | a component with no hours, or after a KeyError, places nothing |
| Allocator.Teaching | TT_gen.py:286-304 | the faculty members added are exactly those of rows with some L, T or P hours |
| Allocator.ScheduleSection | TT_gen.py:251-482 | one section: the added sessions all come from its rows; on success every teaching faculty member is in the schedule |
| Allocator.ScheduleRow | TT_gen.py:275-482 | one course row keeps the section's invariants (exact replay, clash-free, gap-respecting) and adds sessions of that row only |
| Allocator.EmptyGridShowsNothing | TT_gen.py:262-263 | a fresh grid satisfies the grid invariant for a new section |
| Allocator.GenerateAllTimetables | TT_gen.py:192-482 | one grid per section; the ledger and every grid are exactly the replay of the log; all sessions clash-free, and gap-respecting within one section's grid; every session comes from a course row with the section's rooms; on success exactly the teaching faculty members are scheduled; a KeyError names a room that is not a schedule key |
| Allocator.ScheduleNthSection | TT_gen.py:251-275 | section k is scheduled with its round-robin lecture room and the lab pair, its grid appended; earlier grids stay valid and unchanged; the faculty members of its rows with hours join the schedule |
| Allocator.ScheduleSections | TT_gen.py:251-482 | the section loop leaves both invariants over every grid; on success one grid per section and exactly the faculty members of the sections' rows with hours |
| Allocator.TeachingInStep | TT_gen.py:251-304 | scheduling one more section adds exactly the faculty members of its rows with hours |
| Allocator.ComponentsFromCourse | TT_gen.py:323-482 | the components a row adds are sessions of that row in its section's rooms |
| Allocator.GridAfterOthers | TT_gen.py:262-263 | sessions of other sections leave a section's replayed grid as it was |
| Allocator.TeachingInAll | TT_gen.py:251-304 | scheduling every section covers the faculty members of every row with hours |
| Allocator.GridInvUnaffected | TT_gen.py:262-263 | sessions of a new section leave the earlier sections' grids valid |
| CellText.KindName | TT_gen.py:754-762 | the type names LEC, TUT and LAB are three letters without spaces |
| CellText.KindOfName | TT_gen.py:754-762 | a word is recognised as a kind exactly when it is that kind's name |
| CellText.RenderedCell | TT_gen.py:516-546 | break slots show BREAK; an anchor cell shows "CODE KIND\n room no. :ROOM"; every other cell is empty |
| CellText.Render | TT_gen.py:546 | an anchor cell's text is "CODE KIND", a newline, then " room no. :ROOM" |
| CellText.IndexOf | TT_gen.py:735-737 | the first occurrence of the marker, or None iff it does not occur |
| CellText.StripLeft | TT_gen.py:738 | strip() removes exactly the leading whitespace |
| CellText.StripRight | TT_gen.py:738 | strip() removes exactly the trailing whitespace |
| CellText.Strip | TT_gen.py:738 | `str.strip()`: the leading and then the trailing whitespace removed |
| CellText.Words | TT_gen.py:742 | split() yields non-empty words without whitespace |
| CellText.ParseCell | TT_gen.py:735-745 | a parsed cell gives two non-empty space-free words; no marker means no parse |
| CellText.ParseRender | TT_gen.py:546 | reading back a rendered anchor with a space-free code gives its code and kind |
| CellText.SpacedCodeMisread | TT_gen.py:737-745 | the anchor of "HS204 / HS153" reads back as code HS204 with type "/", which is no kind |
| CellText.BreakAndEmptyParseToNothing | TT_gen.py:730-735 | BREAK and empty cells yield no course |
| Aliases.SplitOn | TT_gen.py:774 | split('/') gives at least one piece, none containing '/', exactly one iff there is no '/' |
| Aliases.JoinSplit | TT_gen.py:774 | joining the pieces with '/' restores the code |
| Aliases.Pieces | TT_gen.py:774 | the variants are the stripped pieces, one per piece |
| Aliases.RowKeys | TT_gen.py:773-807 | a row files at least its own code; a code without '/' files only itself |
| Aliases.PrimaryIsKey | TT_gen.py:775-779 | the primary (first variant) is one of the row's keys |
| Aliases.GroupOf | TT_gen.py:773-807 | each row's group holds its own code and its primary |
| Aliases.Groups | TT_gen.py:769-770 | one group per course row, for its stripped code |
| Aliases.MapTo | TT_gen.py:778-782 | every key of the row maps to the primary and nothing else is added |
| Aliases.GroupMap | TT_gen.py:778-782 | a row's entries are exactly its keys, each mapped to its primary |
| Aliases.Primary | TT_gen.py:775-782 | a code with a '/' is filed under its first stripped piece; any other code under itself |
| Aliases.ParenVariantsUnreachable | TT_gen.py:789-800 | a code reaching the parenthesis branch has no '/' inside its parentheses, so the inner-variant mapping never runs |
| Aliases.BuildAliasMap | TT_gen.py:769-807 | the loop over the rows builds exactly the model's alias map |
| Aliases.AliasMap | TT_gen.py:769-807 | course_primary_codes after every row: the rows' groups filed in table order, a later row overwriting an earlier one |
| Aliases.PrimaryOf | TT_gen.py:818 | `course_primary_codes.get(code, code)`: the filed primary, or the code itself when it was never filed (also TT_gen.py:841) |
| Aliases.FileRow | TT_gen.py:770-807 | filing one row overwrites the map with that row's entries |
| Aliases.FilePieces | TT_gen.py:778-779 | the variant loop maps every variant to the primary |
| Aliases.FiledKeys | TT_gen.py:769-807 | a code is in the alias map iff some row files it |
| Aliases.LastGroupWins | TT_gen.py:769-807 | a filed code maps to the primary of the last row that files it |
| Aliases.PrimaryFixedPoint | TT_gen.py:775-782 | when rows agree on primaries, a primary maps to itself |
| Aliases.AliasMapIdempotent | TT_gen.py:818 | under that agreement, looking up the primary of any code again changes nothing |
| Aliases.FileGroupsPrimariesFixed | TT_gen.py:769-807 | when every row files its primary and rows agree on primaries, every primary in the map is a key mapped to itself |
| Aliases.AliasMapPrimariesFixed | TT_gen.py:769-807 | the same for the alias map built from the course codes |
| Aliases.TwoPartCode | TT_gen.py:773-782 | "A/B" splits into A and B; its primary is A stripped; both stripped parts are keys |
| Audit.Credit | TT_gen.py:754-762 | a LEC credits only L, a TUT only T, a LAB only P, each by the session's length, never S |
| Audit.Keys | TT_gen.py:703 | the tally's codes in insertion order |
| Audit.Bump | TT_gen.py:825-828 | adding to a present code keeps the codes and their order |
| Audit.AddTo | TT_gen.py:755-762 | a present code keeps the key order; a new code is appended last, as a defaultdict inserts it |
| Audit.LookupAbsent | TT_gen.py:703 | a code never credited reads as zero hours |
| Audit.LookupBump | TT_gen.py:825-828 | a bump adds to its own code's hours only |
| Audit.LookupAddTo | TT_gen.py:755-762 | adding h to a code increases its hours by h and leaves every other code's hours unchanged |
| Audit.TotalBump | TT_gen.py:825-828 | a bump adds h to the tally's total |
| Audit.TotalAddTo | TT_gen.py:755-762 | adding h increases the tally's total by h |
| Audit.AddToKeepsKeysDistinct | TT_gen.py:703 | the tally never holds a code twice |
| Audit.LookupNoS | TT_gen.py:703 | a tally with no S credit reads zero S for every code |
| Audit.AddToNoS | TT_gen.py:755-762 | crediting a session never introduces S hours |
| Audit.RenderedCellCredit | TT_gen.py:730-762 | a rendered cell with a space-free code is credited exactly when it is a non-break anchor cell, to that code and kind |
| Audit.SpacedCodeNeverCredited | TT_gen.py:741-762 | sessions of the code "HS204 / HS153" are never credited |
| Audit.CellCredit | TT_gen.py:730-762 | an empty or BREAK cell, a cell without the marker and a cell whose class type is not LEC, TUT or LAB credits nothing; any other credits its code with its kind |
| Audit.Scheduled | TT_gen.py:730-762 | scheduled_hours after the cells in order: each credited cell adds its kind's hours to its code |
| Audit.Found | TT_gen.py:730-765 | all_found_courses: every code read from a non-empty, non-break cell with the marker and two words, whatever its class type |
| Audit.CollectScheduled | TT_gen.py:720-762 | the scan over the cells builds exactly the model's credited tally and found-code set |
| Audit.ReadOneMore | TT_gen.py:735-762 | reading one more cell adds its credit to its code, or nothing, and adds its code to the found set when it parses |
| Audit.ScheduledPerCode | TT_gen.py:720-762 | scheduled_hours[c] is the sum of the credits of the cells read as code c |
| Audit.CodeCreditAppend | TT_gen.py:720-762 | reading two runs of cells credits each code the sum of both runs |
| Audit.PlusAssoc | TT_gen.py:755-762 | adding hours is associative and the order of additions does not matter |
| Audit.ScheduledAccounts | TT_gen.py:703-762 | the tally's total is the credit of all recognised cells; codes are distinct; no S hours |
| Audit.MergeByPrimary | TT_gen.py:814-828 | the merge loop builds exactly the model's merged tally |
| Audit.Merged | TT_gen.py:814-828 | merged_hours: each tally entry's hours added under its primary code, in tally order |
| Audit.MergePreservesTotal | TT_gen.py:816-828 | merging by primary neither loses nor invents hours |
| Audit.MergedNoS | TT_gen.py:828 | merged hours have no S component |
| Audit.Shortfall | TT_gen.py:865-868 | the missing amount is zero iff covered, and otherwise is required − scheduled |
| Audit.Required | TT_gen.py:844-847 | a row's required L, T, P and S, counted in half-hours |
| Audit.Missing | TT_gen.py:865-868 | the shortfall of each of L, T, P and S separately |
| Audit.Flagged | TT_gen.py:870-871 | a row is reported when any of the four components falls short |
| Audit.NotFlaggedIffCovered | TT_gen.py:865-871 | a row is not flagged iff each of L, T, P and S is covered |
| Audit.FullyPlacedCoversLTP | TT_gen.py:865-867 | if all computed sessions of a course were credited, its L, T and P are not missing |
| Audit.SelfStudyAlwaysReported | TT_gen.py:868-871 | S hours are never credited, so any course with S > 0 is flagged |
| Audit.FoundAs | TT_gen.py:877-890 | when the primary is a value of the alias map, a code is listed iff it was found and is filed under that primary; otherwise the primary alone is listed, iff it was found |
| Audit.FoundAsSamePrimary | TT_gen.py:877-890 | with primaries that map to themselves, a row is seen under exactly the found codes that share its primary code |
| Audit.RowFor | TT_gen.py:833-930 | a report row's missing hours are requirement minus merged hours of its primary code; variant found iff some variant is listed |
| Audit.RowsOfFaculty | TT_gen.py:898-899 | the number of table rows taught by the faculty member, as the `len(faculty_courses) > 1` test counts them |
| Audit.RowsOfSection | TT_gen.py:910-911 | the number of table rows of the (department, semester) section, as the `shape[0] > 6` test counts them |
| Audit.ReportedRowsFlagged | TT_gen.py:870-930 | the report has no more rows than there are courses, and every reported row is flagged |
| Audit.FlaggedRowsReported | TT_gen.py:870-930 | every flagged course's row is in the report |
| Audit.ReportRows | TT_gen.py:833-930 | the loop over the course rows builds exactly the model's report |
| Audit.Report | TT_gen.py:831-930 | unscheduled_courses: the audit row of each flagged course row, in table order |
| Audit.CheckUnscheduledCourses | TT_gen.py:693-930 | scan, alias map, merge and report compose to the model's report for those cells |
| Audit.CodesOf | TT_gen.py:769-770 | the codes in row order, one per row |
| Audit.SelfStudyRowsReported | TT_gen.py:838-930 | every course row with S > 0 appears in the audit's report |
| Audit.SheetCells | TT_gen.py:710-727 | the cells read are 5 × 19 per sheet |
| Audit.GridCellsHold | TT_gen.py:720-727 | every rendered cell of a sheet's remaining days is read |
| Audit.SheetCellsHold | TT_gen.py:710-727 | every rendered cell of every sheet is read |
| Readback.RowCreditsRead | TT_gen.py:516-546 | the rendered text of a day credits each code exactly its slot credits |
| Readback.GridTotalRead | TT_gen.py:720-727 | reading a grid's days credits each code the sum of its day totals |
| Readback.SheetTotalRead | TT_gen.py:710-727 | reading every sheet credits each code the sum of the grid totals |
| Readback.StampRowCredits | TT_gen.py:383-387 | writing a session over empty cells adds its hours, for its code, to its day's credits |
| Readback.StampGridCredits | TT_gen.py:383-387 | writing a session over empty cells adds its hours, for its code, to the grid's credits |
| Readback.UntypedGridCredits | TT_gen.py:262-263 | a grid with no typed cell credits nothing |
| Readback.EmptySheetCredits | TT_gen.py:262-263 | empty grids credit nothing |
| Readback.Sheets | TT_gen.py:251-263 | the replayed sheets are one grid per section, each the replay of its sessions onto an empty grid |
| Readback.ReplayedGridOneWord | TT_gen.py:383-387 | a replayed grid holds only the sessions' codes, so single-word codes stay single words |
| Readback.SpanEmptyBeforeCommit | TT_gen.py:355-362 | the cells of a session's span are still empty when it is committed |
| Readback.LastOntoEmpty | TT_gen.py:355-362 | the last session of a clash-free log was committed onto empty cells |
| Readback.NothingLogged | TT_gen.py:262-263 | with no session logged, the sheets credit nothing |
| Readback.SheetCreditsAfterLast | TT_gen.py:383-387 | committing the last session adds its hours for its code to the sheets' credits |
| Readback.SheetsCreditLoggedHours | TT_gen.py:251-546 | the replayed sheets credit each code exactly the hours of its logged sessions |
| Readback.AuditReadsLoggedHours | TT_gen.py:703-762 | the audit's scheduled hours for a code, read from the generated grids, are exactly the hours of the sessions logged under it, when codes are single words |
| HourSums.SumOneChanged | TT_gen.py:755-762 | changing one entry by some hours changes the sum by those hours |
| HourSums.SumLast | TT_gen.py:755-762 | appending hours adds them to the sum |
| HourSums.SumOfNothing | TT_gen.py:703 | zero hours sum to zero |

## Left out

- Reading `combined.xlsx` and `Rooms.csv`, and writing `timetables.xlsx`, are not modelled. The
  room lists and course rows are parameters; the audit takes the rendered cell texts as a sequence.
- Worksheet formatting is not modelled: header, fills, borders, merged ranges, the room-information rows and the legend.
- The course colours and `generate_course_color` are not modelled.
- The `course_colors` bookkeeping and the debug output are not modelled.
- `random` is replaced by the `draws` stream, so any random sequence is covered, but nothing about its distribution is stated.
- `check_professor_availability` is not modelled. Nothing calls it.
- `generate_faculty_timetables` is not modelled. It writes a second workbook from the same cells.
- Hours are not floats. The audit works in half-hours, so the 0.01-hour tolerance becomes "more than zero
  half-hours missing". The rounded values and the report's string formatting are not modelled.
- The reason strings of a report row are booleans, one per reason. `"; ".join` and the found-as text are not modelled.
- Exceptions: a lookup of a room that is not a schedule key raises KeyError in the source and ends the run. The model
  returns it as `Status.KeyError(room)` or `Outcome.MissingRoom(room)` and stops scheduling.
- Aliases.ParenVariantsUnreachable: the parenthesis branch's inner-variant mapping is not modelled
  separately. A code with "/" always takes the first branch, so that mapping never runs. The model files only the code itself there.
- Audit.FoundAs: `found_variants` is a set rather than a list in dictionary order. The report's order of names is not modelled.
- Audit.RowsOfSection: the source compares `str(semester)` with the raw Semester column. For a numeric column that
  never matches, so the "high number of courses" reason cannot fire. The model treats semesters as strings, where the
  comparison matches.
- Aliases.TwoPartCode: states that both parts are keys of the row, not that they are its only keys.
  (Its third key is the whole code.)
- Tutorials only check that their first slot is not a break. The model keeps this as the source has it; a lemma states which tutorials then cover a break.
- The `'Day' in columns` and `day in DAYS` sheet and row filters are not modelled. Every cell read comes from a day row of a timetable sheet.
- `random.choice` and `random.randint` are modelled as the next draw of the stream reduced into range (Reduce).
  Every value in range arises from some stream (ChooseAnyInRange).
- Placement.CrossSectionBackToBack: the gap rule is kept only within one section's grid. The source tests it
  against the grid being filled, so one faculty member's sessions in two sections can sit back to back. The model
  keeps this as the source has it; the lemma shows such a pair.
- Allocator.PlaceSessions: which instances are placed is stated per instance (PlaceOne, PlaceInstance), each by its
  first attempt not rejected. It is not lifted into a closed form over the whole draw stream. The loop's contract states
  what joins the log and the exact ledger and grid for that log, not how many instances land.
- Allocator.PlaceComponent: as for PlaceSessions; the sessions it adds are bounded by the count, not fixed by the draws.
- Allocator.PlaceComponents: as for PlaceSessions, for each of the three components.
- Allocator.PlaceRoomComponents: as for PlaceComponents, for the lecture and tutorial components in the lecture room.
- Allocator.ScheduleCourse: as for PlaceSessions, for the components of one row.
- Allocator.ScheduleRow: as for PlaceSessions; the new state is given by the section invariant (exact replay of the log).
- Allocator.ScheduleSection: as for PlaceSessions; the grid and ledger are the exact replay of the log, whose new
  sessions come from the section's rows.
- Allocator.ScheduleNthSection: as for ScheduleSection, for section k.
- Allocator.GenerateAllTimetables: as for ScheduleSection. The grids and the ledger are the exact replay of the log, but
  which sessions the log holds depends on the draws and is not given in closed form. Nothing forces a session to be
  placed, as in the source, where an instance may be dropped after 1000 attempts. The gap rule holds within each
  section's grid only.
- Allocator.ScheduleSections: as for GenerateAllTimetables; which sessions each section's log holds depends on the
  draws and is not given in closed form.
- Audit.GridCellsHold: states that every rendered cell is read, not how often. The hours read are counted exactly by
  Readback.GridTotalRead and Readback.AuditReadsLoggedHours.
- Audit.SheetCellsHold: as for GridCellsHold; Readback.SheetTotalRead counts the hours read from all sheets.
- Course.l, t, p, s are taken as non-negative whole hours and department and semester cells as strings, never missing (NaN).
  The source converts the hour cells with `int()`, which accepts negatives. A blank Semester cell makes a
  (department, NaN) section that takes a round-robin lecture room and then has no rows, so the source skips it as empty.
  That skip, and the shift of later sections' lecture rooms it causes, are not modelled (Courses.SectionsHaveCourses
  shows the skip never fires on the model's inputs).

=== FILE: aliases.dfy ===
/** The audit's alias map from course-code variants to a primary code. A code with a '/' (for
    example "HS204 / HS153") maps each of its stripped pieces and the whole code to its first
    piece; any other code maps to itself. Rows are processed in table order and a later row
    overwrites what an earlier one set. */
module Aliases {
  import opened CellText
  import Courses

  /** `s.split(c)`: the pieces between the separators, at least one. */
  function SplitOn(s: string, c: char): (parts: seq<string>)
    ensures |parts| >= 1
    ensures forall i :: 0 <= i < |parts| ==> c !in parts[i]
    ensures c !in s <==> |parts| == 1
    ensures c !in s ==> parts == [s]
    decreases |s|
  {
    if c !in s then [s]
    else
      var i := Courses.FirstIndex(s, c);
      [s[..i]] + SplitOn(s[i + 1..], c)
  }

  /** Every piece is made of characters of s. */
  lemma {:induction false} SplitKeepsChars(s: string, c: char, x: char)
    requires x !in s
    ensures forall i :: 0 <= i < |SplitOn(s, c)| ==> x !in SplitOn(s, c)[i]
    decreases |s|
  {
    if c in s {
      var i := Courses.FirstIndex(s, c);
      assert x !in s[i + 1..] by {
        var rest := s[i + 1..];
        assert forall j :: 0 <= j < |rest| ==> rest[j] == s[i + 1 + j];
      }
      SplitKeepsChars(s[i + 1..], c, x);
      assert x !in s[..i];
    }
  }

  /** `c.join(parts)` */
  function Join(parts: seq<string>, c: char): string
    requires |parts| >= 1
  {
    if |parts| == 1 then parts[0] else parts[0] + [c] + Join(parts[1..], c)
  }

  /** Joining the pieces with the separator gives the string back. */
  lemma {:induction false} JoinSplit(s: string, c: char)
    ensures Join(SplitOn(s, c), c) == s
    decreases |s|
  {
    if c in s {
      var i := Courses.FirstIndex(s, c);
      var rest := SplitOn(s[i + 1..], c);
      var parts := [s[..i]] + rest;
      assert SplitOn(s, c) == parts;
      assert |parts| > 1 && parts[0] == s[..i] && parts[1..] == rest;
      assert Join(parts, c) == s[..i] + [c] + Join(rest, c);
      JoinSplit(s[i + 1..], c);
      Around(s, i);
    }
  }

  lemma Around<T>(s: seq<T>, i: nat)
    requires i < |s|
    ensures s == s[..i] + [s[i]] + s[i + 1..]
  {
  }

  /** `[c.strip() for c in code.split('/')]` */
  function Pieces(code: string): (vs: seq<string>)
    ensures |vs| == |SplitOn(code, '/')| >= 1
    ensures forall i :: 0 <= i < |vs| ==> vs[i] == Strip(SplitOn(code, '/')[i])
  {
    var parts := SplitOn(code, '/');
    seq(|parts|, i requires 0 <= i < |parts| => Strip(parts[i]))
  }

  /** The code every variant of `code` is filed under. */
  function Primary(code: string): string {
    if '/' in code then Pieces(code)[0] else code
  }

  /** The keys one row sets: its pieces and the whole code, or just the code. */
  function RowKeys(code: string): (keys: set<string>)
    ensures code in keys
    ensures '/' !in code ==> keys == {code}
  {
    if '/' in code then (set v | v in Pieces(code)) + {code} else {code}
  }

  /** Every row files its primary code under itself. */
  lemma PrimaryIsKey(code: string)
    ensures Primary(code) in RowKeys(code)
  {
    if '/' in code {
      assert Pieces(code)[0] in Pieces(code);
    }
  }

  /** What one row files: a set of keys, each under one primary code. */
  datatype Group = Group(keys: set<string>, primary: string)

  /** The group of the row whose stripped code is `code`. */
  function GroupOf(code: string): (g: Group)
    ensures g.primary in g.keys && code in g.keys
  {
    PrimaryIsKey(code);
    Group(RowKeys(code), Primary(code))
  }

  /** The groups of the rows with the given (unstripped) codes, in table order. */
  function Groups(codes: seq<string>): (gs: seq<Group>)
    ensures |gs| == |codes|
    ensures forall i :: 0 <= i < |codes| ==> gs[i] == GroupOf(Strip(codes[i]))
  {
    seq(|codes|, i requires 0 <= i < |codes| => GroupOf(Strip(codes[i])))
  }

  /** Every key of `keys` filed under p. */
  function MapTo(keys: set<string>, p: string): (m: map<string, string>)
    ensures m.Keys == keys
    ensures forall k :: k in m ==> m[k] == p
  {
    map k | k in keys :: p
  }

  /** The entries one group writes. */
  function GroupMap(g: Group): (m: map<string, string>)
    ensures m.Keys == g.keys
    ensures forall k :: k in m ==> m[k] == g.primary
  {
    MapTo(g.keys, g.primary)
  }

  /** The map after filing the groups in order; later groups win. */
  function FileGroups(gs: seq<Group>): map<string, string> {
    if gs == [] then map[] else FileGroups(gs[..|gs| - 1]) + GroupMap(gs[|gs| - 1])
  }

  /** course_primary_codes after all rows. */
  function AliasMap(codes: seq<string>): map<string, string> {
    FileGroups(Groups(codes))
  }

  /** `course_primary_codes.get(code, code)` */
  function PrimaryOf(aliases: map<string, string>, code: string): string {
    if code in aliases then aliases[code] else code
  }

  /** The part between the first '(' and the next ')', as the parenthesis branch computes it. */
  function ParenInner(code: string): string
    requires '(' in code
  {
    var afterOpen := SplitOn(code, '(')[1];
    SplitOn(afterOpen, ')')[0]
  }

  /** The parenthesis branch is reached only by codes without '/', so its inner part has no '/'
      and its variant mapping never runs: such a code just maps to itself. */
  lemma ParenVariantsUnreachable(code: string)
    requires '/' !in code && '(' in code
    ensures '/' !in ParenInner(code)
  {
    var afterOpen := SplitOn(code, '(')[1];
    SplitKeepsChars(code, '(', '/');
    SplitKeepsChars(afterOpen, ')', '/');
  }

  /** Builds the alias map row by row, as the audit does with assignments into a dict. */
  method BuildAliasMap(codes: seq<string>) returns (aliases: map<string, string>)
    ensures aliases == AliasMap(codes)
  {
    aliases := map[];
    ghost var gs := Groups(codes);
    for i := 0 to |codes|
      invariant aliases == FileGroups(gs[..i])
    {
      FileGroupsStep(gs, i);
      aliases := FileRow(aliases, Strip(codes[i]));
    }
    assert gs[..|codes|] == gs;
  }

  lemma FileGroupsStep(gs: seq<Group>, i: nat)
    requires i < |gs|
    ensures FileGroups(gs[..i + 1]) == FileGroups(gs[..i]) + GroupMap(gs[i])
  {
    PrefixOfPrefix(gs, i);
  }

  lemma PrefixOfPrefix<T>(s: seq<T>, i: nat)
    requires i < |s|
    ensures s[..i + 1][..i] == s[..i] && s[..i + 1][i] == s[i]
  {
  }

  /** One row of the alias-map loop. */
  method FileRow(aliases: map<string, string>, code: string) returns (aliases': map<string, string>)
    ensures aliases' == aliases + GroupMap(GroupOf(code))
  {
    if '/' in code {
      var variants := Pieces(code);
      var primary := variants[0];
      aliases' := FilePieces(aliases, variants, primary);
      UpdateMapTo(aliases, (set v | v in variants), code, primary);
      aliases' := aliases'[code := primary];
      assert (set v | v in variants) + {code} == RowKeys(code);
    } else if '(' in code && ')' in code {
      var inner := ParenInner(code);
      ParenVariantsUnreachable(code);
      if '/' in inner {
        assert false;
      }
      UpdateMapTo(aliases, {}, code, code);
      aliases' := aliases[code := code];
    } else {
      UpdateMapTo(aliases, {}, code, code);
      aliases' := aliases[code := code];
    }
  }

  /** The inner loop of a '/' row: every stripped piece is filed under the primary. */
  method FilePieces(aliases: map<string, string>, variants: seq<string>, primary: string)
    returns (aliases': map<string, string>)
    ensures aliases' == aliases + MapTo((set v | v in variants), primary)
  {
    aliases' := aliases;
    ghost var filed: set<string> := {};
    for j := 0 to |variants|
      invariant filed == set v | v in variants[..j]
      invariant aliases' == aliases + MapTo(filed, primary)
    {
      assert variants[..j + 1] == variants[..j] + [variants[j]];
      UpdateMapTo(aliases, filed, variants[j], primary);
      aliases' := aliases'[variants[j] := primary];
      filed := filed + {variants[j]};
    }
    assert variants[..|variants|] == variants;
  }

  /** Setting one more key to p extends the block of keys filed under p. */
  lemma UpdateMapTo(base: map<string, string>, keys: set<string>, k: string, p: string)
    ensures (base + MapTo(keys, p))[k := p] == base + MapTo(keys + {k}, p)
  {
  }

  /** A code is a key exactly when some group files it. */
  lemma {:induction false} FiledKeys(gs: seq<Group>, k: string)
    ensures k in FileGroups(gs) <==> exists i :: 0 <= i < |gs| && k in gs[i].keys
  {
    if gs != [] {
      var init := gs[..|gs| - 1];
      FiledKeys(init, k);
      assert forall i :: 0 <= i < |init| ==> init[i] == gs[i];
    }
  }

  /** Later groups overwrite: a key holds the primary of the last group that files it. */
  lemma {:induction false} LastGroupWins(gs: seq<Group>, k: string)
    requires k in FileGroups(gs)
    ensures exists i :: (0 <= i < |gs| && k in gs[i].keys && FileGroups(gs)[k] == gs[i].primary &&
                         forall j :: i < j < |gs| ==> k !in gs[j].keys)
  {
    var n := |gs| - 1;
    var init := gs[..n];
    assert FileGroups(gs) == FileGroups(init) + GroupMap(gs[n]);
    if k in gs[n].keys {
      assert FileGroups(gs)[k] == gs[n].primary;
    } else {
      LastGroupWins(init, k);
      var i :| 0 <= i < |init| && k in init[i].keys && FileGroups(init)[k] == init[i].primary &&
        forall j :: i < j < |init| ==> k !in init[j].keys;
      assert FileGroups(gs)[k] == FileGroups(init)[k];
      PrefixAgrees(gs, n);
      assert forall j :: i < j < |gs| ==> k !in gs[j].keys;
    }
  }

  lemma PrefixAgrees<T>(s: seq<T>, n: nat)
    requires n <= |s|
    ensures forall j :: 0 <= j < n ==> s[..n][j] == s[j]
  {
  }

  /** No key is filed by two groups that disagree on the primary. */
  predicate Consistent(gs: seq<Group>) {
    forall i, j, k :: (0 <= i < |gs| && 0 <= j < |gs| && k in gs[i].keys && k in gs[j].keys) ==>
      gs[i].primary == gs[j].primary
  }

  /** When every group files its primary under itself and no code belongs to two groups, every
      primary maps to itself, so looking a code up twice gives what looking it up once gives. */
  lemma PrimaryFixedPoint(gs: seq<Group>, k: string)
    requires forall i :: 0 <= i < |gs| ==> gs[i].primary in gs[i].keys
    requires Consistent(gs)
    requires k in FileGroups(gs)
    ensures FileGroups(gs)[k] in FileGroups(gs)
    ensures FileGroups(gs)[FileGroups(gs)[k]] == FileGroups(gs)[k]
  {
    var m := FileGroups(gs);
    LastGroupWins(gs, k);
    var i :| 0 <= i < |gs| && k in gs[i].keys && m[k] == gs[i].primary;
    var p := m[k];
    FiledKeys(gs, p);
    LastGroupWins(gs, p);
  }

  /** The table-level form: with consistent rows, primaries of the alias map are fixed points. */
  lemma AliasMapIdempotent(codes: seq<string>, k: string)
    requires Consistent(Groups(codes))
    ensures PrimaryOf(AliasMap(codes), PrimaryOf(AliasMap(codes), k)) == PrimaryOf(AliasMap(codes), k)
  {
    AliasMapPrimariesFixed(codes);
  }

  /** Every primary the map files a code under is itself a key filed under itself. */
  predicate PrimariesFixed(aliases: map<string, string>) {
    forall k :: k in aliases ==> aliases[k] in aliases && aliases[aliases[k]] == aliases[k]
  }

  lemma FileGroupsPrimariesFixed(gs: seq<Group>)
    requires forall i :: 0 <= i < |gs| ==> gs[i].primary in gs[i].keys
    requires Consistent(gs)
    ensures PrimariesFixed(FileGroups(gs))
  {
    forall k | k in FileGroups(gs)
      ensures FileGroups(gs)[k] in FileGroups(gs) && FileGroups(gs)[FileGroups(gs)[k]] == FileGroups(gs)[k]
    {
      PrimaryFixedPoint(gs, k);
    }
  }

  lemma AliasMapPrimariesFixed(codes: seq<string>)
    requires Consistent(Groups(codes))
    ensures PrimariesFixed(AliasMap(codes))
  {
    FileGroupsPrimariesFixed(Groups(codes));
  }

  /** A code with exactly one '/' (such as "HS204 / HS153") files its two stripped halves and
      itself under its stripped first half. */
  lemma TwoPartCode(a: string, b: string)
    requires '/' !in a && '/' !in b
    ensures SplitOn(a + "/" + b, '/') == [a, b]
    ensures Primary(a + "/" + b) == Strip(a)
    ensures Strip(a) in RowKeys(a + "/" + b) && Strip(b) in RowKeys(a + "/" + b)
  {
    var code := a + "/" + b;
    assert '/' in code && SplitOn(code, '/') == [a, b] by {
      assert code[|a|] == '/' && code[..|a|] == a && code[|a| + 1..] == b;
      Courses.FirstIndexIs(code, '/', |a|);
    }
    var vs := Pieces(code);
    assert |vs| == 2 && vs[0] == Strip(a) && vs[1] == Strip(b);
    assert vs[0] in vs && vs[1] in vs;
  }
}

=== FILE: allocator.dfy ===
/** The allocator's outer loops: every course row of a section is scheduled into that section's
    grid (labs, then lectures, then tutorials), every section in turn, with one faculty ledger and
    one room ledger shared across all sections. */
module Allocator {
  import opened Wrappers
  import opened Calendar
  import opened Sessions
  import opened Timetable
  import opened Gap
  import opened Rooms
  import opened Courses
  import opened Placement

  /** A run ends normally, or with the lookup of a room that is not a ledger key (KeyError). */
  datatype Status = Ok | KeyError(room: string)

  /** The days 0 .. NumDays - 1 from d on that are not in `used`, in ascending order. */
  function FreeDaysFrom(used: set<int>, d: nat): (days: seq<int>)
    ensures forall e :: e in days <==> d <= e < NumDays && e !in used
    ensures forall i, j :: 0 <= i < j < |days| ==> days[i] < days[j]
    ensures forall i :: 0 <= i < |days| ==> d <= days[i]
    decreases NumDays - d
  {
    if d >= NumDays then []
    else if d in used then FreeDaysFrom(used, d + 1)
    else [d] + FreeDaysFrom(used, d + 1)
  }

  /** Days on which the course has no lab or lecture yet, or every day when there is none. */
  function PreferredDays(used: set<int>): (days: seq<int>)
    ensures |days| > 0
    ensures forall i, j :: 0 <= i < j < |days| ==> days[i] < days[j]
    ensures forall d :: d in days ==> 0 <= d < NumDays
    ensures (exists d :: 0 <= d < NumDays && d !in used) ==>
      forall d :: d in days <==> 0 <= d < NumDays && d !in used
    ensures (forall d :: 0 <= d < NumDays ==> d in used) ==>
      forall d :: d in days <==> 0 <= d < NumDays
  {
    var free := FreeDaysFrom(used, 0);
    if |free| == 0 then FreeDaysFrom({}, 0) else free
  }

  /** The sessions `added` are instances of `req` in grid `section`. */
  ghost predicate InstancesOf(added: seq<Session>, req: Request, section: nat) {
    forall x :: x in added ==> x == SessionOf(req, section, x.day, x.start)
  }

  /** While placing instances of req: both invariants hold, and the log is the base followed by the
      instances added so far, whose days joined the used days. */
  ghost predicate InstancesPlaced(l: Ledger, g: Grid, log: seq<Session>, base: seq<Session>, added: seq<Session>,
                                  req: Request, section: nat, used0: set<int>, used: set<int>) {
    && LedgerInv(l, log) && GridInv(g, log, section)
    && req.faculty in l.professors && |req.rooms| == RoomCount(req.kind)
    && log == base + added && InstancesOf(added, req, section)
    && used == used0 + DaysOf(added)
  }

  /** `for _ in range(count)`: place `count` instances of one component, stopping the run at a
      missing room key. Labs and lectures prefer days the course does not use yet. */
  method PlaceSessions(l: Ledger, g: Grid, ghost log: seq<Session>, section: nat,
                       draws: nat -> nat, cursor: nat, req: Request, count: nat, used: set<int>)
    returns (l': Ledger, g': Grid, ghost log': seq<Session>, cursor': nat, used': set<int>, status: Status,
             ghost added: seq<Session>)
    requires LedgerInv(l, log) && GridInv(g, log, section)
    requires req.faculty in l.professors && |req.rooms| == RoomCount(req.kind)
    ensures LedgerInv(l', log') && GridInv(g', log', section)
    ensures l'.professors.Keys == l.professors.Keys && l'.rooms.Keys == l.rooms.Keys
    ensures log' == log + added && |added| <= count
    ensures InstancesOf(added, req, section)
    ensures used' == used + DaysOf(added)
    ensures status.KeyError? ==> status.room in req.rooms && status.room !in l.rooms
  {
    l', g', log', cursor', used' := l, g, log, cursor, used;
    status := Ok;
    added := [];
    var n := 0;
    assert log + [] == log;
    while n < count && status.Ok?
      invariant n <= count
      invariant InstancesPlaced(l', g', log', log, added, req, section, used, used')
      invariant l'.professors.Keys == l.professors.Keys && l'.rooms.Keys == l.rooms.Keys
      invariant |added| <= n
      invariant status.KeyError? ==> status.room in req.rooms && status.room !in l.rooms
    {
      l', g', log', cursor', used', status, added := PlaceOne(l', g', log', log, added, section, draws, cursor', req, used, used');
      n := n + 1;
    }
  }

  /** One instance of a component: on success the session joins the log and its day the used days;
      on exhaustion nothing changes; a missing room key ends the run. */
  method PlaceOne(l: Ledger, g: Grid, ghost log: seq<Session>, ghost base: seq<Session>, ghost added: seq<Session>,
                  section: nat, draws: nat -> nat, cursor: nat, req: Request, ghost used0: set<int>, used: set<int>)
    returns (l': Ledger, g': Grid, ghost log': seq<Session>, cursor': nat, used': set<int>, status: Status,
             ghost added': seq<Session>)
    requires InstancesPlaced(l, g, log, base, added, req, section, used0, used)
    ensures InstancesPlaced(l', g', log', base, added', req, section, used0, used')
    ensures l'.professors.Keys == l.professors.Keys && l'.rooms.Keys == l.rooms.Keys
    ensures |added'| <= |added| + 1
    ensures status.KeyError? ==> status.room in req.rooms && status.room !in l.rooms
    ensures var r := FirstAdmitted(l, g, req, draws, cursor, PreferredDays(used), 0);
      && cursor' == cursor + 2 * r.0
      && (r.1.Placed? ==>
            status.Ok? && added' == added + [SessionOf(req, section, r.1.day, r.1.start)] && used' == used + {r.1.day})
      && (r.1.Exhausted? ==> status.Ok? && l' == l && g' == g && added' == added && used' == used)
      && (r.1.MissingRoom? ==> status == KeyError(r.1.room) && l' == l && g' == g && added' == added)
  {
    var preferred := PreferredDays(used);
    var outcome;
    l', g', log', cursor', outcome := PlaceLogged(l, g, log, section, draws, cursor, req, preferred);
    used', added', status := used, added, Ok;
    if outcome.MissingRoom? {
      status := KeyError(outcome.room);
    } else if outcome.Placed? {
      var x := SessionOf(req, section, outcome.day, outcome.start);
      used' := used + {outcome.day};
      added' := added + [x];
      InstancesPlacedAppend(l, g, l', g', log, base, added, req, section, used0, used, x);
    }
  }

  /** Logging one more instance of req keeps the bookkeeping of the instance loop. */
  lemma InstancesPlacedAppend(l: Ledger, g: Grid, l': Ledger, g': Grid, log: seq<Session>, base: seq<Session>,
                              added: seq<Session>, req: Request, section: nat, used0: set<int>, used: set<int>,
                              x: Session)
    requires InstancesPlaced(l, g, log, base, added, req, section, used0, used)
    requires LedgerInv(l', log + [x]) && GridInv(g', log + [x], section)
    requires l'.professors.Keys == l.professors.Keys
    requires x == SessionOf(req, section, x.day, x.start)
    ensures InstancesPlaced(l', g', log + [x], base, added + [x], req, section, used0, used + {x.day})
  {
    DaysAppend(added, x);
    InstancesAppend(base, added, x, req, section);
  }

  /** One more instance of req, appended to the log, keeps the log the base followed by instances. */
  lemma InstancesAppend(base: seq<Session>, added: seq<Session>, x: Session, req: Request, section: nat)
    requires InstancesOf(added, req, section) && x == SessionOf(req, section, x.day, x.start)
    ensures (base + added) + [x] == base + (added + [x])
    ensures InstancesOf(added + [x], req, section)
  {
  }

  /** PlaceInstance, seen from the loops above it: the invariants, and what joins the log. */
  method PlaceLogged(l: Ledger, g: Grid, ghost log: seq<Session>, section: nat,
                     draws: nat -> nat, cursor: nat, req: Request, preferred: seq<int>)
    returns (l': Ledger, g': Grid, ghost log': seq<Session>, cursor': nat, outcome: Outcome)
    requires LedgerInv(l, log) && GridInv(g, log, section)
    requires req.faculty in l.professors && |req.rooms| == RoomCount(req.kind)
    requires |preferred| > 0 && forall d :: d in preferred ==> 0 <= d < NumDays
    ensures LedgerInv(l', log') && GridInv(g', log', section)
    ensures l'.professors.Keys == l.professors.Keys && l'.rooms.Keys == l.rooms.Keys
    ensures var r := FirstAdmitted(l, g, req, draws, cursor, preferred, 0); outcome == r.1 && cursor' == cursor + 2 * r.0
    ensures outcome.Placed? ==> log' == log + [SessionOf(req, section, outcome.day, outcome.start)]
    ensures !outcome.Placed? ==> l' == l && g' == g && log' == log
    ensures outcome.MissingRoom? ==> outcome.room in req.rooms && outcome.room !in l.rooms
  {
    var attempts;
    l', g', log', cursor', outcome, attempts := PlaceInstance(l, g, log, section, draws, cursor, req, preferred);
  }

  /** The days the sessions xs are on. */
  function DaysOf(xs: seq<Session>): set<int> {
    set x | x in xs :: x.day
  }

  lemma DaysAppend(xs: seq<Session>, x: Session)
    ensures DaysOf(xs + [x]) == DaysOf(xs) + {x.day}
  {
    assert forall y :: y in xs + [x] <==> y in xs || y == x;
  }

  /** `if faculty not in professor_schedule`: a faculty member's ledger entry is created, free
      all week, before their first component is scheduled. */
  method EnsureFaculty(l: Ledger, ghost log: seq<Session>, faculty: string) returns (l': Ledger)
    requires LedgerInv(l, log)
    ensures LedgerInv(l', log)
    ensures faculty in l'.professors && l'.rooms == l.rooms
    ensures l'.professors.Keys == l.professors.Keys + {faculty}
    ensures forall f :: f in l.professors ==> l'.professors[f] == l.professors[f]
    ensures faculty !in l.professors ==> forall d :: 0 <= d < NumDays ==> l'.professors[faculty][d] == {}
  {
    l' := l;
    if faculty !in l.professors {
      l' := l.(professors := l.professors[faculty := EmptyWeek()]);
      NewFacultyKeepsLedgerInv(l, log, faculty, l');
    }
  }

  lemma NewFacultyKeepsLedgerInv(l: Ledger, log: seq<Session>, faculty: string, l': Ledger)
    requires LedgerInv(l, log) && faculty !in l.professors
    requires l' == l.(professors := l.professors[faculty := EmptyWeek()])
    ensures LedgerInv(l', log)
  {
    forall k | 0 <= k < |log|
      ensures Recorded(l', log[k]) && log[k].faculty != faculty
    {
      assert Recorded(l, log[k]);
    }
    NewFacultyKeepsExact(l, log, faculty, l');
  }

  /** Replaying the log from the blank ledger with one more faculty member adds their empty week. */
  lemma NewFacultyKeepsExact(l: Ledger, log: seq<Session>, faculty: string, l': Ledger)
    requires l == LedgerAfter(Blank(l), log)
    requires forall k :: 0 <= k < |log| ==> log[k].faculty != faculty
    requires l' == l.(professors := l.professors[faculty := EmptyWeek()])
    ensures l' == LedgerAfter(Blank(l'), log)
  {
    ReplayNewFaculty(Blank(l), log, faculty, EmptyWeek());
    BlankWithFaculty(l, faculty, EmptyWeek());
  }

  lemma BlankWithFaculty(l: Ledger, faculty: string, w: Week)
    ensures Blank(l.(professors := l.professors[faculty := w])) ==
      Blank(l).(professors := Blank(l).professors[faculty := EmptyWeek()])
  {
    var lhs := Blank(l.(professors := l.professors[faculty := w])).professors;
    var rhs := Blank(l).professors[faculty := EmptyWeek()];
    assert lhs.Keys == rhs.Keys;
    assert forall f :: f in lhs ==> lhs[f] == rhs[f];
  }

  /** A faculty member none of the logged sessions has keeps, through the replay, the entry it
      started with. */
  lemma {:induction false} ReplayNewFaculty(l: Ledger, log: seq<Session>, faculty: string, w: Week)
    requires forall k :: 0 <= k < |log| ==> log[k].faculty != faculty
    ensures LedgerAfter(l.(professors := l.professors[faculty := w]), log) ==
      LedgerAfter(l, log).(professors := LedgerAfter(l, log).professors[faculty := w])
  {
    if log != [] {
      var init, x := log[..|log| - 1], log[|log| - 1];
      ReplayNewFaculty(l, init, faculty, w);
      StampOtherFaculty(LedgerAfter(l, init), x, faculty, w);
    }
  }

  /** Committing a session of another faculty member leaves faculty's entry as it was. */
  lemma StampOtherFaculty(r: Ledger, x: Session, faculty: string, w: Week)
    requires x.faculty != faculty
    ensures StampLedger(r.(professors := r.professors[faculty := w]), x) ==
      StampLedger(r, x).(professors := StampLedger(r, x).professors[faculty := w])
  {
    var span := SpanSet(x.start, Duration(x.kind));
    assert StampWeeks(r.professors[faculty := w], [x.faculty], x.day, span) ==
      StampWeeks(r.professors, [x.faculty], x.day, span)[faculty := w];
  }

  /** The lab component of a course: both lab rooms, shown as "lab1 & lab2". */
  function LabRequest(course: Course, labRooms: (string, string)): Request {
    Request(LAB, course.code, course.name, course.faculty, [labRooms.0, labRooms.1], labRooms.0 + " & " + labRooms.1)
  }

  /** The lecture and tutorial components of a course, in the section's lecture room. */
  function RoomRequest(kind: Kind, course: Course, lectureRoom: string): Request {
    Request(kind, course.code, course.name, course.faculty, [lectureRoom], lectureRoom)
  }

  /** Whether a course row has anything to schedule. */
  predicate HasHours(course: Course) {
    course.l > 0 || course.t > 0 || course.p > 0
  }

  /** One course row of a section: rows without L, T or P hours are skipped; otherwise labs
      (in the section's two lab rooms), then lectures and tutorials (in its lecture room). Each
      component gets at most its number of sessions; an instance that finds no free slot in 1000
      attempts is dropped. */
  method ScheduleCourse(l: Ledger, g: Grid, ghost log: seq<Session>, section: nat, course: Course,
                        lectureRoom: string, labRooms: (string, string), draws: nat -> nat, cursor: nat)
    returns (l': Ledger, g': Grid, ghost log': seq<Session>, cursor': nat, status: Status,
             ghost labs: seq<Session>, ghost lectures: seq<Session>, ghost tutorials: seq<Session>)
    requires LedgerInv(l, log) && GridInv(g, log, section)
    ensures LedgerInv(l', log') && GridInv(g', log', section)
    ensures l'.rooms.Keys == l.rooms.Keys
    ensures l'.professors.Keys == if HasHours(course) then l.professors.Keys + {course.faculty} else l.professors.Keys
    ensures log' == log + labs + lectures + tutorials
    ensures InstancesOf(labs, LabRequest(course, labRooms), section)
    ensures InstancesOf(lectures, RoomRequest(LEC, course, lectureRoom), section)
    ensures InstancesOf(tutorials, RoomRequest(TUT, course, lectureRoom), section)
    ensures |labs| <= if course.p > 0 then LabSessions(course.p) else 0
    ensures |lectures| <= if course.l > 0 then LectureSessions(course.l) else 0
    ensures |tutorials| <= if course.t > 0 then TutorialSessions(course.t) else 0
    ensures status.KeyError? ==>
      status.room !in l.rooms && (status.room == labRooms.0 || status.room == labRooms.1 || status.room == lectureRoom)
  {
    l', g', log', cursor', status := l, g, log, cursor, Ok;
    labs, lectures, tutorials := [], [], [];
    if HasHours(course) {
      l' := EnsureFaculty(l', log', course.faculty);
      l', g', log', cursor', status, labs, lectures, tutorials :=
        PlaceComponents(l', g', log', section, course, lectureRoom, labRooms, draws, cursor');
    }
  }

  /** Labs, then lectures, then tutorials of one course row whose faculty has a ledger entry. */
  method PlaceComponents(l: Ledger, g: Grid, ghost log: seq<Session>, section: nat, course: Course,
                         lectureRoom: string, labRooms: (string, string), draws: nat -> nat, cursor: nat)
    returns (l': Ledger, g': Grid, ghost log': seq<Session>, cursor': nat, status: Status,
             ghost labs: seq<Session>, ghost lectures: seq<Session>, ghost tutorials: seq<Session>)
    requires LedgerInv(l, log) && GridInv(g, log, section) && course.faculty in l.professors
    ensures LedgerInv(l', log') && GridInv(g', log', section)
    ensures l'.rooms.Keys == l.rooms.Keys && l'.professors.Keys == l.professors.Keys
    ensures log' == log + labs + lectures + tutorials
    ensures InstancesOf(labs, LabRequest(course, labRooms), section)
    ensures InstancesOf(lectures, RoomRequest(LEC, course, lectureRoom), section)
    ensures InstancesOf(tutorials, RoomRequest(TUT, course, lectureRoom), section)
    ensures |labs| <= if course.p > 0 then LabSessions(course.p) else 0
    ensures |lectures| <= if course.l > 0 then LectureSessions(course.l) else 0
    ensures |tutorials| <= if course.t > 0 then TutorialSessions(course.t) else 0
    ensures status.KeyError? ==>
      status.room !in l.rooms && (status.room == labRooms.0 || status.room == labRooms.1 || status.room == lectureRoom)
  {
    var used: set<int> := {};
    var labReq := LabRequest(course, labRooms);
    l', g', log', cursor', used, status, labs :=
      PlaceComponent(Ok, course.p > 0, l, g, log, section, draws, cursor, labReq, LabSessions(course.p), used);
    assert status.KeyError? ==> status.room == labRooms.0 || status.room == labRooms.1;
    // a missing room key ends the run, so later components are not attempted
    l', g', log', cursor', status, lectures, tutorials :=
      PlaceRoomComponents(status, l', g', log', section, course, lectureRoom, draws, cursor', used);
  }

  /** The lectures, then the tutorials, of a course row, both in the section's lecture room;
      skipped when the labs already ended the run. */
  method PlaceRoomComponents(status: Status, l: Ledger, g: Grid, ghost log: seq<Session>, section: nat,
                             course: Course, lectureRoom: string, draws: nat -> nat, cursor: nat, used: set<int>)
    returns (l': Ledger, g': Grid, ghost log': seq<Session>, cursor': nat, status': Status,
             ghost lectures: seq<Session>, ghost tutorials: seq<Session>)
    requires LedgerInv(l, log) && GridInv(g, log, section) && course.faculty in l.professors
    ensures LedgerInv(l', log') && GridInv(g', log', section)
    ensures l'.rooms.Keys == l.rooms.Keys && l'.professors.Keys == l.professors.Keys
    ensures log' == log + lectures + tutorials
    ensures InstancesOf(lectures, RoomRequest(LEC, course, lectureRoom), section)
    ensures InstancesOf(tutorials, RoomRequest(TUT, course, lectureRoom), section)
    ensures |lectures| <= if course.l > 0 then LectureSessions(course.l) else 0
    ensures |tutorials| <= if course.t > 0 then TutorialSessions(course.t) else 0
    ensures status.KeyError? ==> status' == status
    ensures status.Ok? && status'.KeyError? ==> status'.room == lectureRoom && status'.room !in l.rooms
  {
    var used' := used;
    l', g', log', cursor', used', status', lectures :=
      PlaceComponent(status, course.l > 0, l, g, log, section, draws, cursor, RoomRequest(LEC, course, lectureRoom), LectureSessions(course.l), used');
    l', g', log', cursor', used', status', tutorials :=
      PlaceComponent(status', course.t > 0, l', g', log', section, draws, cursor', RoomRequest(TUT, course, lectureRoom), TutorialSessions(course.t), used');
  }

  /** `if <hours> > 0:` one component of a course, unless an earlier one already ended the run
      at a missing room key, in which case nothing changes and that status is kept. */
  method PlaceComponent(status: Status, hasHours: bool, l: Ledger, g: Grid, ghost log: seq<Session>, section: nat,
                        draws: nat -> nat, cursor: nat, req: Request, count: nat, used: set<int>)
    returns (l': Ledger, g': Grid, ghost log': seq<Session>, cursor': nat, used': set<int>, status': Status,
             ghost added: seq<Session>)
    requires LedgerInv(l, log) && GridInv(g, log, section)
    requires req.faculty in l.professors && |req.rooms| == RoomCount(req.kind)
    ensures LedgerInv(l', log') && GridInv(g', log', section)
    ensures l'.professors.Keys == l.professors.Keys && l'.rooms.Keys == l.rooms.Keys
    ensures log' == log + added && |added| <= if hasHours then count else 0
    ensures InstancesOf(added, req, section)
    ensures status.KeyError? ==> status' == status && added == []
    ensures status.Ok? && status'.KeyError? ==> status'.room in req.rooms && status'.room !in l.rooms
  {
    l', g', log', cursor', used', status', added := l, g, log, cursor, used, status, [];
    if status.Ok? && hasHours {
      l', g', log', cursor', used', status', added := PlaceSessions(l, g, log, section, draws, cursor, req, count, used);
    }
  }

  /** Session x is an instance of one of course c's components in grid `section`. */
  ghost predicate FromCourse(x: Session, c: Course, section: nat, lectureRoom: string, labRooms: (string, string)) {
    x == SessionOf(if x.kind == LAB then LabRequest(c, labRooms) else RoomRequest(x.kind, c, lectureRoom),
                   section, x.day, x.start)
  }

  /** Every session of `added` is in grid `section` and comes from one of `courses`. */
  ghost predicate FromCourses(added: seq<Session>, courses: seq<Course>, section: nat,
                              lectureRoom: string, labRooms: (string, string)) {
    forall x :: x in added ==>
      (x.section == section && exists c :: c in courses && FromCourse(x, c, section, lectureRoom, labRooms))
  }

  /** The faculty members of the rows that have hours to schedule. */
  function Teaching(courses: seq<Course>): (fs: set<string>)
    ensures forall f :: f in fs <==> exists c :: c in courses && HasHours(c) && c.faculty == f
  {
    set c | c in courses && HasHours(c) :: c.faculty
  }

  /** After the first n course rows of a section: both invariants hold over the log, which is
      `base` followed by `added`, every added session comes from one of the rows, no room key was
      added, and the faculty keys are `known` plus those of the first n rows that have hours. */
  ghost predicate RowsScheduled(l: Ledger, g: Grid, log: seq<Session>, base: seq<Session>, added: seq<Session>,
                                roomKeys: set<string>, known: set<string>, section: nat, courses: seq<Course>, n: nat,
                                lectureRoom: string, labRooms: (string, string))
    requires n <= |courses|
  {
    && LedgerInv(l, log) && GridInv(g, log, section)
    && l.rooms.Keys == roomKeys
    && l.professors.Keys == known + Teaching(courses[..n])
    && log == base + added
    && FromCourses(added, courses, section, lectureRoom, labRooms)
  }

  /** One section: a fresh, empty grid, then its course rows in table order. */
  method ScheduleSection(l: Ledger, ghost log: seq<Session>, section: nat, courses: seq<Course>,
                         lectureRoom: string, labRooms: (string, string), draws: nat -> nat, cursor: nat)
    returns (l': Ledger, g: Grid, ghost log': seq<Session>, cursor': nat, status: Status, ghost added: seq<Session>)
    requires LedgerInv(l, log) && forall k :: 0 <= k < |log| ==> log[k].section < section
    ensures LedgerInv(l', log') && GridInv(g, log', section)
    ensures l'.rooms.Keys == l.rooms.Keys
    ensures status.Ok? ==> l'.professors.Keys == l.professors.Keys + Teaching(courses)
    ensures log' == log + added
    ensures FromCourses(added, courses, section, lectureRoom, labRooms)
    ensures status.KeyError? ==>
      status.room !in l.rooms && (status.room == labRooms.0 || status.room == labRooms.1 || status.room == lectureRoom)
  {
    l', log', cursor', status, added := l, log, cursor, Ok, [];
    g := EmptyGrid();
    EmptyGridShowsNothing(g, log, section);
    assert courses[..0] == [] && log + [] == log;
    var i := 0;
    // a missing room key ends the run, so later rows are not attempted
    while i < |courses| && status.Ok?
      invariant 0 <= i <= |courses|
      invariant RowsScheduled(l', g, log', log, added, l.rooms.Keys, l.professors.Keys, section, courses, i, lectureRoom, labRooms)
      invariant status.KeyError? ==>
        status.room !in l.rooms && (status.room == labRooms.0 || status.room == labRooms.1 || status.room == lectureRoom)
    {
      l', g, log', cursor', status, added :=
        ScheduleRow(l', g, log', log, added, l.rooms.Keys, l.professors.Keys, section, courses, i, lectureRoom, labRooms, draws, cursor');
      i := i + 1;
    }
    if status.Ok? {
      assert courses[..|courses|] == courses;
    }
  }

  /** The loop body of ScheduleSection: the i-th row, with the sessions it adds appended to `added`. */
  method ScheduleRow(l: Ledger, g: Grid, ghost log: seq<Session>, ghost base: seq<Session>, ghost added: seq<Session>,
                     ghost roomKeys: set<string>, ghost known: set<string>, section: nat, courses: seq<Course>, i: nat,
                     lectureRoom: string, labRooms: (string, string), draws: nat -> nat, cursor: nat)
    returns (l': Ledger, g': Grid, ghost log': seq<Session>, cursor': nat, status: Status, ghost added': seq<Session>)
    requires i < |courses|
    requires RowsScheduled(l, g, log, base, added, roomKeys, known, section, courses, i, lectureRoom, labRooms)
    ensures RowsScheduled(l', g', log', base, added', roomKeys, known, section, courses, i + 1, lectureRoom, labRooms)
    ensures status.KeyError? ==>
      status.room !in roomKeys && (status.room == labRooms.0 || status.room == labRooms.1 || status.room == lectureRoom)
  {
    ghost var labs, lectures, tutorials;
    l', g', log', cursor', status, labs, lectures, tutorials :=
      ScheduleCourse(l, g, log, section, courses[i], lectureRoom, labRooms, draws, cursor);
    ComponentsFromCourse(added, courses, i, section, lectureRoom, labRooms, labs, lectures, tutorials);
    TeachingStep(courses, i);
    AppendThree(base, added, labs, lectures, tutorials);
    added' := added + (labs + lectures + tutorials);
  }

  lemma AppendThree<T>(log: seq<T>, added: seq<T>, a: seq<T>, b: seq<T>, c: seq<T>)
    ensures log + added + a + b + c == log + (added + (a + b + c))
  {
    assert log + added + a + b + c == log + (added + (a + b + c)) by {
      var lhs, rhs := log + added + a + b + c, log + (added + (a + b + c));
      assert |lhs| == |rhs|;
      forall i | 0 <= i < |lhs|
        ensures lhs[i] == rhs[i]
      {
      }
    }
  }

  /** A fresh grid shows no session, and none of the earlier sections' sessions belongs to it. */
  lemma EmptyGridShowsNothing(g: Grid, log: seq<Session>, section: nat)
    requires g == EmptyGrid()
    requires forall k :: 0 <= k < |log| ==> log[k].section < section
    ensures GridInv(g, log, section)
  {
    GridAfterOthers(g, [], log, section);
    assert [] + log == log;
  }

  /** Sessions of other sections leave the replay of a section's grid as it was. */
  lemma {:induction false} GridAfterOthers(g: Grid, before: seq<Session>, added: seq<Session>, section: nat)
    requires forall k :: 0 <= k < |added| ==> added[k].section != section
    ensures GridAfter(g, before + added, section) == GridAfter(g, before, section)
  {
    if added == [] {
      assert before + added == before;
    } else {
      var init := added[..|added| - 1];
      GridAfterOthers(g, before, init, section);
      var log := before + added;
      assert log[..|log| - 1] == before + init;
      assert log[|log| - 1] == added[|added| - 1];
      assert GridAfter(g, log, section) == GridAfter(g, log[..|log| - 1], section);
    }
  }

  lemma TeachingStep(courses: seq<Course>, i: nat)
    requires i < |courses|
    ensures Teaching(courses[..i + 1]) == Teaching(courses[..i]) + (if HasHours(courses[i]) then {courses[i].faculty} else {})
  {
    assert courses[..i + 1] == courses[..i] + [courses[i]];
  }

  /** The components ScheduleCourse adds for the i-th course are instances of it in that grid. */
  lemma ComponentsFromCourse(added: seq<Session>, courses: seq<Course>, i: nat, section: nat,
                             lectureRoom: string, labRooms: (string, string),
                             labs: seq<Session>, lectures: seq<Session>, tutorials: seq<Session>)
    requires i < |courses|
    requires FromCourses(added, courses, section, lectureRoom, labRooms)
    requires InstancesOf(labs, LabRequest(courses[i], labRooms), section)
    requires InstancesOf(lectures, RoomRequest(LEC, courses[i], lectureRoom), section)
    requires InstancesOf(tutorials, RoomRequest(TUT, courses[i], lectureRoom), section)
    ensures FromCourses(added + (labs + lectures + tutorials), courses, section, lectureRoom, labRooms)
  {
    var c := courses[i];
    forall x | x in added + (labs + lectures + tutorials)
      ensures x.section == section && exists c :: c in courses && FromCourse(x, c, section, lectureRoom, labRooms)
    {
      if x !in added {
        assert FromCourse(x, c, section, lectureRoom, labRooms);
      }
    }
  }

  /** Session x comes from a row of section x.section of the table, in the rooms that section got. */
  ghost predicate FromTable(x: Session, rows: seq<Course>, sections: seq<Section>,
                            lectureRooms: seq<string>, labRooms: seq<string>) {
    x.section < |sections| &&
    exists c :: c in CoursesOf(rows, sections[x.section]) &&
      FromCourse(x, c, x.section, LectureRoomFor(lectureRooms, x.section), LabPair(labRooms))
  }

  /** generate_all_timetables: the room ledger holds every lecture, lab and large room; each
      section gets its rooms from AssignRooms and its grid from ScheduleSection, sections in the
      order the table first names them; the random stream is shared by the whole run. */
  method GenerateAllTimetables(rows: seq<Course>, lectureRooms: seq<string>, labRooms: seq<string>,
                               largeRooms: seq<string>, draws: nat -> nat)
    returns (grids: seq<Grid>, l: Ledger, ghost log: seq<Session>, status: Status)
    ensures LedgerInv(l, log)
    ensures forall k :: 0 <= k < |grids| ==> GridInv(grids[k], log, k)
    ensures l.rooms.Keys == InitialRoomKeys(lectureRooms, labRooms, largeRooms)
    ensures status.Ok? ==> |grids| == |DeptSemCombinations(rows)|
    ensures status.Ok? ==> l.professors.Keys == Teaching(rows)
    ensures forall x :: x in log ==> FromTable(x, rows, DeptSemCombinations(rows), lectureRooms, labRooms)
    ensures status.KeyError? ==> status.room !in InitialRoomKeys(lectureRooms, labRooms, largeRooms)
  {
    var roomKeys := InitialRoomKeys(lectureRooms, labRooms, largeRooms);
    l := InitialLedger(roomKeys);
    var sections := DeptSemCombinations(rows);
    CombinationsDistinct(rows);
    var lectureOf, labsOf := AssignRooms(sections, lectureRooms, labRooms);
    forall k | 0 <= k < |sections|
      ensures LastOccurrence(sections, k)
    {
    }
    SectionsFromNothing(l, roomKeys, rows, sections, lectureRooms, labRooms);
    grids, l, log, status := ScheduleSections(l, roomKeys, rows, sections, lectureOf, labsOf, lectureRooms, labRooms, draws);
    if status.Ok? {
      TeachingInAll(rows, sections);
      assert sections[..|sections|] == sections;
    }
  }

  /** The loop of GenerateAllTimetables: section after section, each in its assigned rooms, until
      all are done or a room key is missing. */
  method ScheduleSections(l0: Ledger, ghost roomKeys: set<string>, rows: seq<Course>, sections: seq<Section>,
                          lectureOf: map<Section, string>, labsOf: map<Section, (string, string)>,
                          lectureRooms: seq<string>, labRooms: seq<string>, draws: nat -> nat)
    returns (grids: seq<Grid>, l: Ledger, ghost log: seq<Session>, status: Status)
    requires forall k :: 0 <= k < |sections| ==>
      sections[k] in lectureOf && lectureOf[sections[k]] == LectureRoomFor(lectureRooms, k) &&
      sections[k] in labsOf && labsOf[sections[k]] == LabPair(labRooms)
    requires SectionsDone(l0, [], [], roomKeys, rows, sections, 0, lectureRooms, labRooms) && l0.professors.Keys == {}
    ensures SectionsDone(l, grids, log, roomKeys, rows, sections, |sections|, lectureRooms, labRooms)
    ensures status.Ok? ==> |grids| == |sections| && l.professors.Keys == TeachingIn(rows, sections[..|sections|])
    ensures status.KeyError? ==> status.room !in roomKeys
  {
    l, grids, log, status := l0, [], [], Ok;
    var cursor := 0;
    var k := 0;
    // a missing room key ends the run, so later sections are not attempted
    while k < |sections| && status.Ok?
      invariant 0 <= k <= |sections|
      invariant SectionsDone(l, grids, log, roomKeys, rows, sections, k, lectureRooms, labRooms)
      invariant status.Ok? ==> |grids| == k && l.professors.Keys == TeachingIn(rows, sections[..k])
      invariant status.KeyError? ==> status.room !in roomKeys
    {
      l, grids, log, cursor, status := ScheduleNthSection(l, grids, log, roomKeys, rows, sections, k, lectureOf[sections[k]],
                                                          labsOf[sections[k]], lectureRooms, labRooms, draws, cursor);
      TeachingInStep(rows, sections, k);
      k := k + 1;
    }
    SectionsDoneWeaken(l, grids, log, roomKeys, rows, sections, k, |sections|, lectureRooms, labRooms);
  }

  lemma SectionsFromNothing(l: Ledger, roomKeys: set<string>, rows: seq<Course>, sections: seq<Section>,
                            lectureRooms: seq<string>, labRooms: seq<string>)
    requires l == InitialLedger(roomKeys)
    ensures SectionsDone(l, [], [], roomKeys, rows, sections, 0, lectureRooms, labRooms)
  {
  }

  lemma SectionsDoneWeaken(l: Ledger, grids: seq<Grid>, log: seq<Session>, roomKeys: set<string>,
                           rows: seq<Course>, sections: seq<Section>, n: nat, m: nat,
                           lectureRooms: seq<string>, labRooms: seq<string>)
    requires n <= m && SectionsDone(l, grids, log, roomKeys, rows, sections, n, lectureRooms, labRooms)
    ensures SectionsDone(l, grids, log, roomKeys, rows, sections, m, lectureRooms, labRooms)
  {
  }

  /** After the first n sections: both invariants hold, each grid over its own section, no room
      key was added, and every logged session is of one of those sections and comes from a row of
      the table with its section's rooms. */
  ghost predicate SectionsDone(l: Ledger, grids: seq<Grid>, log: seq<Session>, roomKeys: set<string>,
                               rows: seq<Course>, sections: seq<Section>, n: nat,
                               lectureRooms: seq<string>, labRooms: seq<string>) {
    && LedgerInv(l, log)
    && (forall j :: 0 <= j < |grids| ==> GridInv(grids[j], log, j))
    && l.rooms.Keys == roomKeys
    && (forall x :: x in log ==> x.section < n && FromTable(x, rows, sections, lectureRooms, labRooms))
  }

  /** The loop body of GenerateAllTimetables: the k-th section, in its assigned rooms, appended
      to the grids made so far. */
  method ScheduleNthSection(l: Ledger, grids: seq<Grid>, ghost log: seq<Session>, ghost roomKeys: set<string>,
                            rows: seq<Course>, sections: seq<Section>, k: nat, lectureRoom: string,
                            labPair: (string, string), lectureRooms: seq<string>, labRooms: seq<string>,
                            draws: nat -> nat, cursor: nat)
    returns (l': Ledger, grids': seq<Grid>, ghost log': seq<Session>, cursor': nat, status: Status)
    requires k < |sections| && |grids| == k
    requires lectureRoom == LectureRoomFor(lectureRooms, k) && labPair == LabPair(labRooms)
    requires SectionsDone(l, grids, log, roomKeys, rows, sections, k, lectureRooms, labRooms)
    ensures SectionsDone(l', grids', log', roomKeys, rows, sections, k + 1, lectureRooms, labRooms)
    ensures status.Ok? ==>
      (|grids'| == k + 1 && grids'[..k] == grids &&
       l'.professors.Keys == l.professors.Keys + Teaching(CoursesOf(rows, sections[k])))
    ensures status.KeyError? ==> grids' == grids && status.room !in roomKeys
  {
    ghost var added;
    var g;
    l', g, log', cursor', status, added :=
      ScheduleSection(l, log, k, CoursesOf(rows, sections[k]), lectureRoom, labPair, draws, cursor);
    SectionFromTable(log, added, rows, sections, k, lectureRooms, labRooms, lectureRoom, labPair);
    GridInvUnaffected(grids, log, added, k);
    grids' := grids;
    if status.Ok? {
      grids' := grids + [g];
      AppendGrid(grids, g, log', k);
    }
  }

  lemma AppendGrid(grids: seq<Grid>, g: Grid, log: seq<Session>, k: nat)
    requires |grids| == k && forall j :: 0 <= j < k ==> GridInv(grids[j], log, j)
    requires GridInv(g, log, k)
    ensures (grids + [g])[..k] == grids
    ensures forall j :: 0 <= j < k + 1 ==> GridInv((grids + [g])[j], log, j)
  {
    assert (grids + [g])[..k] == grids;
  }

  /** The sessions of the k-th section come from its rows, in the rooms assigned to it. */
  lemma SectionFromTable(before: seq<Session>, added: seq<Session>, rows: seq<Course>, sections: seq<Section>,
                         k: nat, lectureRooms: seq<string>, labRooms: seq<string>,
                         lectureRoom: string, labPair: (string, string))
    requires k < |sections|
    requires forall x :: x in before ==> x.section < k && FromTable(x, rows, sections, lectureRooms, labRooms)
    requires FromCourses(added, CoursesOf(rows, sections[k]), k, lectureRoom, labPair)
    requires lectureRoom == LectureRoomFor(lectureRooms, k) && labPair == LabPair(labRooms)
    ensures forall x :: x in before + added ==> x.section < k + 1 && FromTable(x, rows, sections, lectureRooms, labRooms)
  {
    forall x | x in before + added
      ensures x.section < k + 1 && FromTable(x, rows, sections, lectureRooms, labRooms)
    {
      if x !in before {
        assert x in added;
      }
    }
  }

  /** Faculty members of the rows with hours whose section is among `secs`. */
  function TeachingIn(rows: seq<Course>, secs: seq<Section>): set<string> {
    set c | c in rows && HasHours(c) && SectionOf(c) in secs :: c.faculty
  }

  lemma TeachingInStep(rows: seq<Course>, sections: seq<Section>, k: nat)
    requires k < |sections|
    ensures TeachingIn(rows, sections[..k + 1]) == TeachingIn(rows, sections[..k]) + Teaching(CoursesOf(rows, sections[k]))
  {
    assert sections[..k + 1] == sections[..k] + [sections[k]];
  }

  lemma TeachingInAll(rows: seq<Course>, sections: seq<Section>)
    requires sections == DeptSemCombinations(rows)
    ensures TeachingIn(rows, sections[..|sections|]) == Teaching(rows)
  {
    assert sections[..|sections|] == sections;
    forall c | c in rows
      ensures SectionOf(c) in sections
    {
      CombinationsCoverRows(rows, SectionOf(c));
    }
  }

  /** Sessions of grid k leave the invariants of the grids before it intact. */
  lemma GridInvUnaffected(grids: seq<Grid>, before: seq<Session>, added: seq<Session>, k: nat)
    requires |grids| == k && forall j :: 0 <= j < k ==> GridInv(grids[j], before, j)
    requires forall x :: x in added ==> x.section == k
    ensures forall j :: 0 <= j < k ==> GridInv(grids[j], before + added, j)
  {
    var log := before + added;
    forall m | |before| <= m < |log|
      ensures log[m].section == k
    {
      assert log[m] == added[m - |before|];
    }
    forall m | 0 <= m < |before|
      ensures log[m] == before[m]
    {
    }
    forall j | 0 <= j < k
      ensures GridAfter(EmptyGrid(), log, j) == GridAfter(EmptyGrid(), before, j)
    {
      GridAfterOthers(EmptyGrid(), before, added, j);
    }
  }
}

=== FILE: audit.dfy ===
/** The hours audit (check_unscheduled_courses): it reads the anchor cells of the written
    timetables, credits each recognised session to the code it reads (LEC 1.5 h, TUT 1 h, LAB 2 h),
    merges the credited hours by primary code through the alias map, and reports every course
    row whose required L, T, P or S hours are not all covered. Hours are in half-hours, so the
    0.01-hour tolerance becomes "missing > 0". */
module Audit {
  import opened Wrappers
  import opened Calendar
  import opened Sessions
  import opened Timetable
  import opened Courses
  import opened CellText
  import opened Aliases

  /** L, T, P, S hours, in half-hours. */
  datatype Hours = Hours(l: int, t: int, p: int, s: int)

  const NoHours: Hours := Hours(0, 0, 0, 0)

  function Plus(a: Hours, b: Hours): Hours {
    Hours(a.l + b.l, a.t + b.t, a.p + b.p, a.s + b.s)
  }

  /** What one session is credited with; self-study (S) is never credited. */
  function Credit(k: Kind): (h: Hours)
    ensures h.l + h.t + h.p == CreditHalfHours(k) && h.s == 0
    ensures k == LEC <==> h.l > 0
    ensures k == TUT <==> h.t > 0
    ensures k == LAB <==> h.p > 0
  {
    match k
    case LEC => Hours(3, 0, 0, 0)
    case TUT => Hours(0, 2, 0, 0)
    case LAB => Hours(0, 0, 4, 0)
  }

  /** A dict from course code to hours, in insertion order. */
  type Tally = seq<(string, Hours)>

  predicate DistinctKeys(t: Tally) {
    forall i, j :: 0 <= i < j < |t| ==> t[i].0 != t[j].0
  }

  /** `tally[code]` of a defaultdict: the hours filed under code, or none. */
  function Lookup(t: Tally, code: string): Hours {
    if t == [] then NoHours
    else if t[|t| - 1].0 == code then t[|t| - 1].1
    else Lookup(t[..|t| - 1], code)
  }

  /** The codes of a tally, in insertion order. */
  function Keys(t: Tally): (ks: seq<string>)
    ensures |ks| == |t| && forall i :: 0 <= i < |t| ==> ks[i] == t[i].0
  {
    seq(|t|, i requires 0 <= i < |t| => t[i].0)
  }

  /** Adds h to the entry of an already filed code. */
  function Bump(t: Tally, code: string, h: Hours): (r: Tally)
    ensures Keys(r) == Keys(t)
  {
    if t == [] then []
    else if t[|t| - 1].0 == code then t[..|t| - 1] + [(code, Plus(t[|t| - 1].1, h))]
    else Bump(t[..|t| - 1], code, h) + [t[|t| - 1]]
  }

  /** `tally[code] += h`: a new code is filed last, a known one keeps its place. */
  function AddTo(t: Tally, code: string, h: Hours): (r: Tally)
    ensures code in Keys(t) ==> Keys(r) == Keys(t)
    ensures code !in Keys(t) ==> r == t + [(code, h)]
  {
    if code in Keys(t) then Bump(t, code, h) else t + [(code, h)]
  }

  /** The sum of all hours in a tally. */
  function Total(t: Tally): Hours {
    if t == [] then NoHours else Plus(Total(t[..|t| - 1]), t[|t| - 1].1)
  }

  /** A code that was never filed reads as no hours. */
  lemma {:induction false} LookupAbsent(t: Tally, code: string)
    requires code !in Keys(t)
    ensures Lookup(t, code) == NoHours
  {
    if t != [] {
      assert t[|t| - 1].0 == Keys(t)[|t| - 1];
      assert Keys(t[..|t| - 1]) == Keys(t)[..|t| - 1];
      LookupAbsent(t[..|t| - 1], code);
    }
  }

  lemma {:induction false} LookupBump(t: Tally, code: string, h: Hours, c: string)
    requires code in Keys(t)
    ensures Lookup(Bump(t, code, h), c) == if c == code then Plus(Lookup(t, code), h) else Lookup(t, c)
  {
    var init, last := t[..|t| - 1], t[|t| - 1];
    if last.0 == code {
      assert (init + [(code, Plus(last.1, h))])[..|t| - 1] == init;
    } else {
      assert code in Keys(init) by {
        var i :| 0 <= i < |t| && Keys(t)[i] == code;
        assert Keys(init)[i] == code;
      }
      var r := Bump(init, code, h) + [last];
      assert r[..|r| - 1] == Bump(init, code, h);
      LookupBump(init, code, h, c);
    }
  }

  /** Adding to a code changes its own lookup by h and no other code's. */
  lemma LookupAddTo(t: Tally, code: string, h: Hours, c: string)
    ensures Lookup(AddTo(t, code, h), c) == if c == code then Plus(Lookup(t, code), h) else Lookup(t, c)
  {
    if code in Keys(t) {
      LookupBump(t, code, h, c);
    } else {
      LookupAbsent(t, code);
      assert (t + [(code, h)])[..|t|] == t;
    }
  }

  lemma PlusAssoc(a: Hours, b: Hours, c: Hours)
    ensures Plus(a, Plus(b, c)) == Plus(Plus(a, b), c)
    ensures Plus(Plus(a, b), c) == Plus(Plus(a, c), b)
  {
  }

  lemma {:induction false} TotalBump(t: Tally, code: string, h: Hours)
    requires code in Keys(t)
    ensures Total(Bump(t, code, h)) == Plus(Total(t), h)
  {
    var init, last := t[..|t| - 1], t[|t| - 1];
    PlusAssoc(Total(init), last.1, h);
    if last.0 == code {
      var r := init + [(code, Plus(last.1, h))];
      assert r[..|t| - 1] == init;
      assert Total(r) == Plus(Total(init), Plus(last.1, h));
    } else {
      assert code in Keys(init) by {
        var i :| 0 <= i < |t| && Keys(t)[i] == code;
        assert Keys(init)[i] == code;
      }
      var r := Bump(init, code, h) + [last];
      assert r[..|r| - 1] == Bump(init, code, h);
      TotalBump(init, code, h);
      assert Total(r) == Plus(Total(Bump(init, code, h)), last.1);
    }
  }

  /** Adding to a code adds h to the total. */
  lemma TotalAddTo(t: Tally, code: string, h: Hours)
    ensures Total(AddTo(t, code, h)) == Plus(Total(t), h)
  {
    if code in Keys(t) {
      TotalBump(t, code, h);
    } else {
      assert (t + [(code, h)])[..|t|] == t;
    }
  }

  /** Adding never files a code twice. */
  lemma AddToKeepsKeysDistinct(t: Tally, code: string, h: Hours)
    requires DistinctKeys(t)
    ensures DistinctKeys(AddTo(t, code, h))
  {
    var r := AddTo(t, code, h);
    if code in Keys(t) {
      assert forall i :: 0 <= i < |r| ==> r[i].0 == Keys(r)[i] == Keys(t)[i] == t[i].0;
    } else {
      assert forall i :: 0 <= i < |t| ==> t[i].0 == Keys(t)[i] != code;
    }
  }

  /** Hours in a tally whose entries carry no S hours have no S hours. */
  lemma {:induction false} LookupNoS(t: Tally, code: string)
    requires forall i :: 0 <= i < |t| ==> t[i].1.s == 0
    ensures Lookup(t, code).s == 0
  {
    if t != [] {
      LookupNoS(t[..|t| - 1], code);
    }
  }

  lemma {:induction false} BumpNoS(t: Tally, code: string, h: Hours)
    requires forall i :: 0 <= i < |t| ==> t[i].1.s == 0
    requires h.s == 0
    ensures forall i :: 0 <= i < |Bump(t, code, h)| ==> Bump(t, code, h)[i].1.s == 0
  {
    if t != [] && t[|t| - 1].0 != code {
      BumpNoS(t[..|t| - 1], code, h);
    }
  }

  /** Adding S-free hours keeps every entry S-free. */
  lemma AddToNoS(t: Tally, code: string, h: Hours)
    requires forall i :: 0 <= i < |t| ==> t[i].1.s == 0
    requires h.s == 0
    ensures forall i :: 0 <= i < |AddTo(t, code, h)| ==> AddTo(t, code, h)[i].1.s == 0
  {
    if code in Keys(t) {
      BumpNoS(t, code, h);
    }
  }

  /** The (code, kind) the audit credits for one cell: the code and class type it reads, when the
      type names a kind. Empty and "BREAK" cells are skipped before reading. */
  function CellCredit(cell: string): Option<(string, Kind)> {
    if cell == "" || cell == BreakText then None
    else
      match ParseCell(cell)
      case None => None
      case Some(read) =>
        match KindOfName(read.1)
        case None => None
        case Some(k) => Some((read.0, k))
  }

  /** Reading a written grid cell credits exactly its anchor session, provided the code has no
      whitespace: break and empty cells credit nothing. */
  lemma RenderedCellCredit(g: Grid, day: nat, slot: nat)
    requires GridShaped(g) && day < NumDays && slot < NumSlots
    requires NoSpace(g[day][slot].code)
    ensures var c := g[day][slot];
      CellCredit(RenderedCell(g, day, slot)) ==
        if !IsBreak(slot) && c.kind.Some? && c.code != "" then Some((c.code, c.kind.value)) else None
  {
    var c := g[day][slot];
    if !IsBreak(slot) && c.kind.Some? && c.code != "" {
      var text := Render(c.code, c.kind.value, c.classroom);
      assert |text| > |BreakText|;
      ParseRender(c.code, c.kind.value, c.classroom);
    }
  }

  /** A session of a code written with spaces around its slash is read with "/" as its class type
      and credits nothing. */
  lemma SpacedCodeNeverCredited(k: Kind, classroom: string)
    ensures CellCredit(Render("HS204 / HS153", k, classroom)) == None
  {
    SpacedCodeMisread(k, classroom);
    assert |Render("HS204 / HS153", k, classroom)| > |BreakText|;
  }

  /** scheduled_hours after reading the cells in order. */
  function Scheduled(cells: seq<string>): Tally {
    if cells == [] then []
    else
      var t := Scheduled(cells[..|cells| - 1]);
      match CellCredit(cells[|cells| - 1])
      case None => t
      case Some(credit) => AddTo(t, credit.0, Credit(credit.1))
  }

  /** all_found_courses: every code read from a cell, whatever its class type. */
  function Found(cells: seq<string>): set<string> {
    if cells == [] then {}
    else
      var f := Found(cells[..|cells| - 1]);
      var cell := cells[|cells| - 1];
      if cell != "" && cell != BreakText && ParseCell(cell).Some? then f + {ParseCell(cell).value.0} else f
  }

  /** The hours of every credited cell, added up. */
  function CreditedTotal(cells: seq<string>): Hours {
    if cells == [] then NoHours
    else
      var h := CreditedTotal(cells[..|cells| - 1]);
      match CellCredit(cells[|cells| - 1])
      case None => h
      case Some(credit) => Plus(h, Credit(credit.1))
  }

  /** How reading one more cell changes the tally and the found codes. */
  lemma ReadOneMore(cells: seq<string>, i: nat)
    requires i < |cells|
    ensures var credit := CellCredit(cells[i]);
      Scheduled(cells[..i + 1]) ==
        if credit.Some? then AddTo(Scheduled(cells[..i]), credit.value.0, Credit(credit.value.1))
        else Scheduled(cells[..i])
    ensures var cell := cells[i];
      Found(cells[..i + 1]) ==
        if cell != "" && cell != BreakText && ParseCell(cell).Some? then Found(cells[..i]) + {ParseCell(cell).value.0}
        else Found(cells[..i])
  {
    assert cells[..i + 1][..i] == cells[..i];
  }

  /** Reads every cell and credits the recognised sessions. */
  method CollectScheduled(cells: seq<string>) returns (scheduled: Tally, found: set<string>)
    ensures scheduled == Scheduled(cells) && found == Found(cells)
  {
    scheduled, found := [], {};
    for i := 0 to |cells|
      invariant scheduled == Scheduled(cells[..i]) && found == Found(cells[..i])
    {
      ReadOneMore(cells, i);
      var cell := cells[i];
      if cell != "" && cell != BreakText {
        var read := ParseCell(cell);
        if read.Some? {
          found := found + {read.value.0};
          var kind := KindOfName(read.value.1);
          if kind.Some? {
            scheduled := AddTo(scheduled, read.value.0, Credit(kind.value));
          }
        }
      }
    }
    assert cells[..|cells|] == cells;
  }

  /** The tally holds exactly the hours of the credited cells, each code once, and no S hours. */
  lemma {:induction false} ScheduledAccounts(cells: seq<string>)
    ensures Total(Scheduled(cells)) == CreditedTotal(cells)
    ensures DistinctKeys(Scheduled(cells))
    ensures forall i :: 0 <= i < |Scheduled(cells)| ==> Scheduled(cells)[i].1.s == 0
  {
    if cells != [] {
      var init := cells[..|cells| - 1];
      ScheduledAccounts(init);
      match CellCredit(cells[|cells| - 1])
      case None =>
      case Some(credit) =>
        TotalAddTo(Scheduled(init), credit.0, Credit(credit.1));
        AddToKeepsKeysDistinct(Scheduled(init), credit.0, Credit(credit.1));
        AddToNoS(Scheduled(init), credit.0, Credit(credit.1));
    }
  }

  lemma PlusNoHours(h: Hours)
    ensures Plus(h, NoHours) == h
  {
  }

  /** The hours one cell credits to code c. */
  function CellCreditTo(cell: string, c: string): Hours {
    match CellCredit(cell)
    case Some(credit) => if credit.0 == c then Credit(credit.1) else NoHours
    case None => NoHours
  }

  /** The hours the cells credit to code c, read in order. */
  function CodeCredit(cells: seq<string>, c: string): Hours {
    if cells == [] then NoHours else Plus(CodeCredit(cells[..|cells| - 1], c), CellCreditTo(cells[|cells| - 1], c))
  }

  /** scheduled_hours[c] is the sum of the hours of the cells read as code c. */
  lemma {:induction false} ScheduledPerCode(cells: seq<string>, c: string)
    ensures Lookup(Scheduled(cells), c) == CodeCredit(cells, c)
  {
    if cells != [] {
      var init, cell := cells[..|cells| - 1], cells[|cells| - 1];
      ScheduledPerCode(init, c);
      var t, credit := Scheduled(init), CellCredit(cell);
      assert Scheduled(cells) == if credit.Some? then AddTo(t, credit.value.0, Credit(credit.value.1)) else t;
      assert CodeCredit(cells, c) == Plus(CodeCredit(init, c), CellCreditTo(cell, c));
      if credit.Some? {
        LookupAddTo(t, credit.value.0, Credit(credit.value.1), c);
      }
      assert CellCreditTo(cell, c) == if credit.Some? && credit.value.0 == c then Credit(credit.value.1) else NoHours;
      PlusNoHours(CodeCredit(init, c));
    }
  }

  /** Reading two runs of cells one after the other credits each code the sum of both runs. */
  lemma {:induction false} CodeCreditAppend(a: seq<string>, b: seq<string>, c: string)
    ensures CodeCredit(a + b, c) == Plus(CodeCredit(a, c), CodeCredit(b, c))
  {
    if b == [] {
      assert a + b == a;
    } else {
      var init := b[..|b| - 1];
      CodeCreditAppend(a, init, c);
      AppendInit(a, b);
    }
  }

  lemma AppendInit<T>(a: seq<T>, b: seq<T>)
    requires b != []
    ensures (a + b)[..|a + b| - 1] == a + b[..|b| - 1]
    ensures (a + b)[|a + b| - 1] == b[|b| - 1]
  {
  }

  /** merged_hours: every code's hours added under its primary code, in tally order. */
  function Merged(t: Tally, aliases: map<string, string>): Tally {
    if t == [] then []
    else AddTo(Merged(t[..|t| - 1], aliases), PrimaryOf(aliases, t[|t| - 1].0), t[|t| - 1].1)
  }

  lemma MergeOneMore(t: Tally, aliases: map<string, string>, i: nat)
    requires i < |t|
    ensures Merged(t[..i + 1], aliases) == AddTo(Merged(t[..i], aliases), PrimaryOf(aliases, t[i].0), t[i].1)
  {
    assert t[..i + 1][..i] == t[..i];
  }

  /** Merges the tally by primary code. */
  method MergeByPrimary(t: Tally, aliases: map<string, string>) returns (merged: Tally)
    ensures merged == Merged(t, aliases)
  {
    merged := [];
    for i := 0 to |t|
      invariant merged == Merged(t[..i], aliases)
    {
      MergeOneMore(t, aliases, i);
      merged := AddTo(merged, PrimaryOf(aliases, t[i].0), t[i].1);
    }
    assert t[..|t|] == t;
  }

  /** Merging moves hours between codes but neither adds nor loses any. */
  lemma {:induction false} MergePreservesTotal(t: Tally, aliases: map<string, string>)
    ensures Total(Merged(t, aliases)) == Total(t)
  {
    if t != [] {
      var init := t[..|t| - 1];
      MergePreservesTotal(init, aliases);
      TotalAddTo(Merged(init, aliases), PrimaryOf(aliases, t[|t| - 1].0), t[|t| - 1].1);
    }
  }

  /** Merging S-free hours gives S-free hours. */
  lemma {:induction false} MergedNoS(t: Tally, aliases: map<string, string>)
    requires forall i :: 0 <= i < |t| ==> t[i].1.s == 0
    ensures forall i :: 0 <= i < |Merged(t, aliases)| ==> Merged(t, aliases)[i].1.s == 0
  {
    if t != [] {
      var init := t[..|t| - 1];
      MergedNoS(init, aliases);
      AddToNoS(Merged(init, aliases), PrimaryOf(aliases, t[|t| - 1].0), t[|t| - 1].1);
    }
  }

  /** `max(0, required - scheduled)` */
  function Shortfall(required: int, scheduled: int): (m: nat)
    ensures m == 0 <==> scheduled >= required
    ensures m > 0 ==> scheduled + m == required
  {
    if scheduled >= required then 0 else required - scheduled
  }

  function Missing(required: Hours, scheduled: Hours): Hours {
    Hours(Shortfall(required.l, scheduled.l), Shortfall(required.t, scheduled.t),
          Shortfall(required.p, scheduled.p), Shortfall(required.s, scheduled.s))
  }

  /** A row is reported when any component is missing. */
  predicate Flagged(missing: Hours) {
    missing.l > 0 || missing.t > 0 || missing.p > 0 || missing.s > 0
  }

  /** A course row's required hours, in half-hours. */
  function Required(c: Course): Hours {
    Hours(2 * c.l, 2 * c.t, 2 * c.p, 2 * c.s)
  }

  /** Nothing is missing exactly when every component is covered. */
  lemma NotFlaggedIffCovered(required: Hours, scheduled: Hours)
    ensures !Flagged(Missing(required, scheduled)) <==>
      scheduled.l >= required.l && scheduled.t >= required.t && scheduled.p >= required.p && scheduled.s >= required.s
  {
  }

  /** A course all of whose computed sessions were credited is missing no L, T or P hours. */
  lemma FullyPlacedCoversLTP(c: Course, scheduled: Hours)
    requires scheduled.l >= CreditHalfHours(LEC) * LectureSessions(c.l)
    requires scheduled.t >= CreditHalfHours(TUT) * TutorialSessions(c.t)
    requires scheduled.p >= CreditHalfHours(LAB) * LabSessions(c.p)
    ensures Missing(Required(c), scheduled).l == 0
    ensures Missing(Required(c), scheduled).t == 0
    ensures Missing(Required(c), scheduled).p == 0
  {
    SessionCountsCoverRequirements(c.l, c.t, c.p);
  }

  /** Since S is never credited, a course with S hours is always reported. */
  lemma SelfStudyAlwaysReported(c: Course, scheduled: Hours)
    requires c.s > 0 && scheduled.s == 0
    ensures Flagged(Missing(Required(c), scheduled))
  {
  }

  /** Number of course rows taught by `faculty`. */
  function RowsOfFaculty(rows: seq<Course>, faculty: string): nat {
    if rows == [] then 0
    else
      var n := RowsOfFaculty(rows[..|rows| - 1], faculty);
      if rows[|rows| - 1].faculty == faculty then n + 1 else n
  }

  /** Number of course rows of a (department, semester) section. */
  function RowsOfSection(rows: seq<Course>, department: string, semester: string): nat {
    if rows == [] then 0
    else
      var n := RowsOfSection(rows[..|rows| - 1], department, semester);
      if rows[|rows| - 1].department == department && rows[|rows| - 1].semester == semester then n + 1 else n
  }

  /** The codes under which a course was seen: every found code filed under its primary when the
      primary is a value of the alias map, otherwise the primary itself if it was found. */
  function FoundAs(aliases: map<string, string>, primary: string, found: set<string>): (fs: set<string>)
    ensures forall c :: c in fs ==> c in found
    ensures primary in aliases.Values ==>
      forall c :: c in fs <==> c in found && c in aliases && aliases[c] == primary
    ensures primary !in aliases.Values ==> fs == (if primary in found then {primary} else {})
  {
    if primary in aliases.Values then set c | c in aliases && aliases[c] == primary && c in found
    else if primary in found then {primary}
    else {}
  }

  /** With an alias map whose primaries are fixed points, a course row is seen under exactly the
      found codes that share its primary code. */
  lemma FoundAsSamePrimary(aliases: map<string, string>, code: string, found: set<string>, c: string)
    requires PrimariesFixed(aliases)
    ensures c in FoundAs(aliases, PrimaryOf(aliases, code), found) <==>
      c in found && PrimaryOf(aliases, c) == PrimaryOf(aliases, code)
  {
    var p := PrimaryOf(aliases, code);
    if p in aliases.Values {
      var k :| k in aliases && aliases[k] == p;
      assert p in aliases && aliases[p] == p;
    } else {
      assert code !in aliases;
      assert c in aliases ==> aliases[c] in aliases.Values;
    }
  }

  /** One report row: the hours, where the course was seen, and the heuristic reasons as flags. */
  datatype AuditRow = AuditRow(code: string, name: string, faculty: string, department: string, semester: string,
                               required: Hours, scheduled: Hours, missing: Hours,
                               variantFound: bool, foundAs: set<string>,
                               facultyBusy: bool, noLectureRoom: bool, noLabRoom: bool, heavySemester: bool)

  /** The hours the audit compares a course row against. */
  function ScheduledFor(c: Course, merged: Tally, aliases: map<string, string>): Hours {
    Lookup(merged, PrimaryOf(aliases, Strip(c.code)))
  }

  function RowFor(c: Course, rows: seq<Course>, merged: Tally, aliases: map<string, string>, found: set<string>,
                  lectureRoomCount: nat, labRoomCount: nat): (r: AuditRow)
    ensures r.missing == Missing(Required(c), ScheduledFor(c, merged, aliases))
    ensures r.variantFound <==> r.foundAs != {}
  {
    var code := Strip(c.code);
    var primary := PrimaryOf(aliases, code);
    var scheduled := Lookup(merged, primary);
    var foundAs := FoundAs(aliases, primary, found);
    AuditRow(code, c.name, c.faculty, c.department, c.semester,
             Required(c), scheduled, Missing(Required(c), scheduled),
             foundAs != {}, foundAs,
             RowsOfFaculty(rows, c.faculty) > 1,
             lectureRoomCount < 1 && c.l > 0,
             labRoomCount < 1 && c.p > 0,
             RowsOfSection(rows, c.department, c.semester) > 6)
  }

  /** The report rows for `courses` (a prefix of the table `rows`), in table order. */
  function Report(courses: seq<Course>, rows: seq<Course>, merged: Tally, aliases: map<string, string>,
                  found: set<string>, lectureRoomCount: nat, labRoomCount: nat): seq<AuditRow> {
    if courses == [] then []
    else
      var earlier := Report(courses[..|courses| - 1], rows, merged, aliases, found, lectureRoomCount, labRoomCount);
      var r := RowFor(courses[|courses| - 1], rows, merged, aliases, found, lectureRoomCount, labRoomCount);
      if Flagged(r.missing) then earlier + [r] else earlier
  }

  /** Only rows with missing hours are reported, at most one per row. */
  lemma {:induction false} ReportedRowsFlagged(courses: seq<Course>, rows: seq<Course>, merged: Tally,
                                               aliases: map<string, string>, found: set<string>,
                                               lectureRoomCount: nat, labRoomCount: nat)
    ensures var report := Report(courses, rows, merged, aliases, found, lectureRoomCount, labRoomCount);
      |report| <= |courses| && forall r :: r in report ==> Flagged(r.missing)
  {
    if courses != [] {
      ReportedRowsFlagged(courses[..|courses| - 1], rows, merged, aliases, found, lectureRoomCount, labRoomCount);
    }
  }

  /** Every row with missing hours is reported, with its shortfall. */
  lemma {:induction false} FlaggedRowsReported(courses: seq<Course>, rows: seq<Course>, merged: Tally,
                                               aliases: map<string, string>, found: set<string>,
                                               lectureRoomCount: nat, labRoomCount: nat, c: Course)
    requires c in courses && Flagged(Missing(Required(c), ScheduledFor(c, merged, aliases)))
    ensures RowFor(c, rows, merged, aliases, found, lectureRoomCount, labRoomCount) in
      Report(courses, rows, merged, aliases, found, lectureRoomCount, labRoomCount)
  {
    var init := courses[..|courses| - 1];
    var earlier := Report(init, rows, merged, aliases, found, lectureRoomCount, labRoomCount);
    var last := courses[|courses| - 1];
    var r := RowFor(last, rows, merged, aliases, found, lectureRoomCount, labRoomCount);
    assert Report(courses, rows, merged, aliases, found, lectureRoomCount, labRoomCount) ==
      if Flagged(r.missing) then earlier + [r] else earlier;
    if c != last {
      InInit(courses, c);
      FlaggedRowsReported(init, rows, merged, aliases, found, lectureRoomCount, labRoomCount, c);
    }
  }

  lemma InInit<T>(xs: seq<T>, x: T)
    requires x in xs && x != xs[|xs| - 1]
    ensures x in xs[..|xs| - 1]
  {
    var i :| 0 <= i < |xs| && xs[i] == x;
    assert xs[..|xs| - 1][i] == x;
  }

  /** The loop over the course rows: one report row per row with missing hours. */
  method ReportRows(rows: seq<Course>, merged: Tally, aliases: map<string, string>, found: set<string>,
                    lectureRoomCount: nat, labRoomCount: nat) returns (report: seq<AuditRow>)
    ensures report == Report(rows, rows, merged, aliases, found, lectureRoomCount, labRoomCount)
  {
    report := [];
    for i := 0 to |rows|
      invariant report == Report(rows[..i], rows, merged, aliases, found, lectureRoomCount, labRoomCount)
    {
      assert rows[..i + 1][..i] == rows[..i];
      var row := RowFor(rows[i], rows, merged, aliases, found, lectureRoomCount, labRoomCount);
      if Flagged(row.missing) {
        report := report + [row];
      }
    }
    assert rows[..|rows|] == rows;
  }

  /** check_unscheduled_courses: read the cells, build the alias map from the table's codes, merge,
      and report every row with missing hours. */
  method CheckUnscheduledCourses(rows: seq<Course>, cells: seq<string>, lectureRoomCount: nat, labRoomCount: nat)
    returns (report: seq<AuditRow>)
    ensures var aliases := AliasMap(CodesOf(rows));
      report == Report(rows, rows, Merged(Scheduled(cells), aliases), aliases, Found(cells), lectureRoomCount, labRoomCount)
  {
    var scheduled, found := CollectScheduled(cells);
    var aliases := BuildAliasMap(CodesOf(rows));
    var merged := MergeByPrimary(scheduled, aliases);
    report := ReportRows(rows, merged, aliases, found, lectureRoomCount, labRoomCount);
  }

  /** The course-code column of the table. */
  function CodesOf(rows: seq<Course>): (codes: seq<string>)
    ensures |codes| == |rows| && forall i :: 0 <= i < |rows| ==> codes[i] == rows[i].code
  {
    seq(|rows|, i requires 0 <= i < |rows| => rows[i].code)
  }

  /** Every audited course with S hours appears in the report. */
  lemma SelfStudyRowsReported(rows: seq<Course>, cells: seq<string>, lectureRoomCount: nat, labRoomCount: nat, c: Course)
    requires c in rows && c.s > 0
    ensures var aliases := AliasMap(CodesOf(rows));
      var merged := Merged(Scheduled(cells), aliases);
      RowFor(c, rows, merged, aliases, Found(cells), lectureRoomCount, labRoomCount) in
        Report(rows, rows, merged, aliases, Found(cells), lectureRoomCount, labRoomCount)
  {
    var aliases := AliasMap(CodesOf(rows));
    var merged := Merged(Scheduled(cells), aliases);
    ScheduledAccounts(cells);
    MergedNoS(Scheduled(cells), aliases);
    LookupNoS(merged, PrimaryOf(aliases, Strip(c.code)));
    SelfStudyAlwaysReported(c, ScheduledFor(c, merged, aliases));
    FlaggedRowsReported(rows, rows, merged, aliases, Found(cells), lectureRoomCount, labRoomCount, c);
  }

  /** The text of every slot of every grid, sheet by sheet, day by day, slot by slot. */
  function SheetCells(grids: seq<Grid>): (cells: seq<string>)
    requires forall k :: 0 <= k < |grids| ==> GridShaped(grids[k])
    ensures |cells| == |grids| * NumDays * NumSlots
  {
    if grids == [] then []
    else SheetCells(grids[..|grids| - 1]) + GridCells(grids[|grids| - 1], NumDays)
  }

  /** The text of the slots of day d. */
  function RowText(g: Grid, d: nat): (cells: seq<string>)
    requires GridShaped(g) && d < NumDays
    ensures |cells| == NumSlots && forall s :: 0 <= s < NumSlots ==> cells[s] == RenderedCell(g, d, s)
  {
    seq(NumSlots, s requires 0 <= s < NumSlots => RenderedCell(g, d, s))
  }

  /** The text of the slots of the first n days of one grid. */
  function GridCells(g: Grid, n: nat): (cells: seq<string>)
    requires GridShaped(g) && n <= NumDays
    ensures |cells| == n * NumSlots
  {
    if n == 0 then [] else GridCells(g, n - 1) + RowText(g, n - 1)
  }

  /** The text of every slot of the first n days is among the cells read from the grid. */
  lemma {:induction false} GridCellsHold(g: Grid, n: nat, e: nat, s: nat)
    requires GridShaped(g) && e < n <= NumDays && s < NumSlots
    ensures RenderedCell(g, e, s) in GridCells(g, n)
  {
    var day := RowText(g, n - 1);
    assert GridCells(g, n) == GridCells(g, n - 1) + day;
    if e == n - 1 {
      assert day[s] in day;
    } else {
      GridCellsHold(g, n - 1, e, s);
    }
  }

  /** The text of every slot of every grid is among the cells the audit reads. */
  lemma {:induction false} SheetCellsHold(grids: seq<Grid>, k: nat, e: nat, s: nat)
    requires forall j :: 0 <= j < |grids| ==> GridShaped(grids[j])
    requires k < |grids| && e < NumDays && s < NumSlots
    ensures RenderedCell(grids[k], e, s) in SheetCells(grids)
  {
    var init := grids[..|grids| - 1];
    assert SheetCells(grids) == SheetCells(init) + GridCells(grids[|grids| - 1], NumDays);
    if k == |grids| - 1 {
      GridCellsHold(grids[k], NumDays, e, s);
    } else {
      assert init[k] == grids[k];
      SheetCellsHold(init, k, e, s);
    }
  }
}

=== FILE: calendar.dfy ===
/** The working-day calendar: fixed half-hour slots from 09:00 to 18:30 and the break windows.
    Times are minutes since midnight, so no clock arithmetic is needed. */
module Calendar {

  const NumDays: nat := 5          // Monday .. Friday
  const DayStart: int := 9 * 60    // 09:00
  const DayEnd: int := 18 * 60 + 30  // 18:30
  const SlotLength: int := 30
  const NumSlots: nat := 19        // (DayEnd - DayStart) / SlotLength

  /** A half-hour interval [start, end) in minutes since midnight. */
  datatype Slot = Slot(start: int, end: int)

  /** The interval of slot index i. */
  function SlotAt(i: int): Slot {
    Slot(DayStart + SlotLength * i, DayStart + SlotLength * (i + 1))
  }

  /** Enumerates the slots of a working day, half an hour at a time, while the current time
      is before the end of the day. */
  method GenerateTimeSlots() returns (slots: seq<Slot>)
    ensures |slots| == NumSlots
    ensures forall i :: 0 <= i < |slots| ==> slots[i] == SlotAt(i)
    ensures forall i :: 0 <= i < |slots| ==> DayStart <= slots[i].start && slots[i].end <= DayEnd
  {
    slots := [];
    var current := DayStart;
    while current < DayEnd
      invariant current == DayStart + SlotLength * |slots| <= DayEnd
      invariant forall i :: 0 <= i < |slots| ==> slots[i] == SlotAt(i)
      decreases DayEnd - current
    {
      var next := current + SlotLength;
      slots := slots + [Slot(current, next)];
      current := next;
    }
  }

  /** A slot is a break when its start lies in [10:30, 10:45) (morning break)
      or in [13:00, 13:45) (lunch break). */
  predicate IsBreakTime(slot: Slot) {
    (10 * 60 + 30 <= slot.start < 10 * 60 + 45) || (13 * 60 <= slot.start < 13 * 60 + 45)
  }

  /** The break flag of slot index i. */
  predicate IsBreak(i: int) {
    IsBreakTime(SlotAt(i))
  }

  /** Over the generated day, exactly the slots 10:30, 13:00 and 13:30 (indices 3, 8, 9) are breaks. */
  lemma BreakSlotsAreThreeEightNine(i: int)
    requires 0 <= i < NumSlots
    ensures IsBreak(i) <==> (i == 3 || i == 8 || i == 9)
  {
  }
}

=== FILE: celltext.dfy ===
/** The text of a rendered timetable cell and the way the hours audit reads it back: the anchor
    slot of a session is written as "<code> <kind>\n room no. :<room>", break slots as "BREAK",
    everything else is empty; the audit takes the text before the first "room no.", strips it,
    and, when it contains a space, reads its first two whitespace-separated words as the course
    code and the class type. */
module CellText {
  import opened Wrappers
  import opened Calendar
  import opened Sessions
  import opened Timetable

  /** Python's `str.isspace` for one character (the separators `str.split()` and `str.strip()` use). */
  predicate IsSpace(c: char) {
    c == ' ' || c == '\t' || c == '\n' || c == '\r' || c == '\U{0B}' || c == '\U{0C}' ||
    ('\U{1C}' <= c <= '\U{1F}') || c == '\U{85}' || c == '\U{A0}' || c == '\U{1680}' ||
    ('\U{2000}' <= c <= '\U{200A}') || c == '\U{2028}' || c == '\U{2029}' || c == '\U{202F}' ||
    c == '\U{205F}' || c == '\U{3000}'
  }

  predicate NoSpace(s: string) {
    forall i :: 0 <= i < |s| ==> !IsSpace(s[i])
  }

  function KindName(k: Kind): (name: string)
    ensures |name| == 3 && NoSpace(name)
  {
    match k
    case LEC => "LEC"
    case TUT => "TUT"
    case LAB => "LAB"
  }

  /** The class type a word names, if any; every other word is credited with nothing. */
  function KindOfName(word: string): (k: Option<Kind>)
    ensures k.Some? ==> KindName(k.value) == word
    ensures forall kind :: KindName(kind) == word ==> k == Some(kind)
  {
    if word == "LEC" then Some(LEC)
    else if word == "TUT" then Some(TUT)
    else if word == "LAB" then Some(LAB)
    else None
  }

  const Marker: string := "room no."
  const BreakText: string := "BREAK"

  /** The text written into the anchor cell of a session. */
  function Render(code: string, k: Kind, classroom: string): string {
    AnchorPrefix(code, k) + Marker + " :" + classroom
  }

  /** The text of an anchor cell before the room marker. */
  function AnchorPrefix(code: string, k: Kind): (p: string)
    ensures |p| == |code| + 6
  {
    code + " " + KindName(k) + "\n "
  }

  /** The text of grid slot (day, slot) in the written sheet: "BREAK" in a break slot whatever it
      holds, the session text in an anchor cell (a typed cell with a non-empty code), otherwise empty. */
  function RenderedCell(g: Grid, day: nat, slot: nat): (text: string)
    requires GridShaped(g) && day < NumDays && slot < NumSlots
    ensures IsBreak(slot) ==> text == BreakText
    ensures !IsBreak(slot) && g[day][slot].kind.Some? && g[day][slot].code != "" ==>
      text == Render(g[day][slot].code, g[day][slot].kind.value, g[day][slot].classroom)
    ensures !IsBreak(slot) && (g[day][slot].kind.None? || g[day][slot].code == "") ==> text == ""
  {
    var c := g[day][slot];
    if IsBreak(slot) then BreakText
    else if c.kind.Some? && c.code != "" then Render(c.code, c.kind.value, c.classroom)
    else ""
  }

  predicate MatchesAt(s: string, p: string, j: nat) {
    j + |p| <= |s| && s[j..j + |p|] == p
  }

  /** Index of the first occurrence of p in s at or after `from` (`str.split(p)[0]` ends there). */
  function IndexFrom(s: string, p: string, from: nat): (r: Option<nat>)
    ensures r.Some? ==> from <= r.value && MatchesAt(s, p, r.value)
    ensures r.Some? ==> forall j :: from <= j < r.value ==> !MatchesAt(s, p, j)
    ensures r.None? ==> forall j :: from <= j ==> !MatchesAt(s, p, j)
    decreases |s| - from
  {
    if from + |p| > |s| then None
    else if MatchesAt(s, p, from) then Some(from)
    else IndexFrom(s, p, from + 1)
  }

  function IndexOf(s: string, p: string): (r: Option<nat>)
    ensures r.Some? ==> MatchesAt(s, p, r.value) && forall j :: 0 <= j < r.value ==> !MatchesAt(s, p, j)
    ensures r.None? <==> forall j :: 0 <= j ==> !MatchesAt(s, p, j)
  {
    IndexFrom(s, p, 0)
  }

  /** `str.lstrip()` */
  function StripLeft(s: string): (r: string)
    ensures |r| <= |s| && r == s[|s| - |r|..]
    ensures r == [] || !IsSpace(r[0])
    ensures forall i :: 0 <= i < |s| - |r| ==> IsSpace(s[i])
  {
    if s != [] && IsSpace(s[0]) then StripLeft(s[1..]) else s
  }

  /** `str.rstrip()` */
  function StripRight(s: string): (r: string)
    ensures |r| <= |s| && r == s[..|r|]
    ensures r == [] || !IsSpace(r[|r| - 1])
    ensures forall i :: |r| <= i < |s| ==> IsSpace(s[i])
  {
    if s != [] && IsSpace(s[|s| - 1]) then StripRight(s[..|s| - 1]) else s
  }

  /** `str.strip()` */
  function Strip(s: string): string {
    StripRight(StripLeft(s))
  }

  /** Length of the leading run of non-space characters. */
  function TokenLen(s: string): (n: nat)
    ensures n <= |s| && NoSpace(s[..n])
    ensures n < |s| ==> IsSpace(s[n])
  {
    if s == [] || IsSpace(s[0]) then 0 else 1 + TokenLen(s[1..])
  }

  /** `str.split()`: the maximal runs of non-space characters, in order. */
  function Words(s: string): (ws: seq<string>)
    ensures forall i :: 0 <= i < |ws| ==> ws[i] != [] && NoSpace(ws[i])
    decreases |s|
  {
    if s == [] then []
    else if IsSpace(s[0]) then Words(s[1..])
    else
      var n := TokenLen(s);
      [s[..n]] + Words(s[n..])
  }

  /** What the audit reads from one cell: (course code, class type) when the cell has the room
      marker and the stripped text before it contains a space and splits into two or more words. */
  function ParseCell(cell: string): (r: Option<(string, string)>)
    ensures r.Some? ==> r.value.0 != [] && NoSpace(r.value.0) && r.value.1 != [] && NoSpace(r.value.1)
    ensures IndexOf(cell, Marker).None? ==> r.None?
  {
    match IndexOf(cell, Marker)
    case None => None
    case Some(i) =>
      var info := Strip(cell[..i]);
      if ' ' !in info then None
      else
        var ws := Words(info);
        if |ws| >= 2 then Some((ws[0], ws[1])) else None
  }

  /** A non-space word directly followed by a space (or the end) is one whole token. */
  lemma {:induction false} TokenLenOfWord(w: string, rest: string)
    requires NoSpace(w)
    requires rest == [] || IsSpace(rest[0])
    ensures TokenLen(w + rest) == |w|
  {
    if w != [] {
      assert (w + rest)[1..] == w[1..] + rest;
      TokenLenOfWord(w[1..], rest);
    } else {
      assert w + rest == rest;
    }
  }

  /** Splitting "w rest" yields w, then the words of rest. */
  lemma WordsCons(w: string, rest: string)
    requires w != [] && NoSpace(w)
    ensures Words(w + " " + rest) == [w] + Words(rest)
  {
    var s := w + " " + rest;
    TokenLenOfWord(w, " " + rest);
    assert s == w + (" " + rest);
    assert s[..|w|] == w;
    assert s[|w|..] == " " + rest;
    assert (" " + rest)[1..] == rest;
  }

  lemma WordsSingle(w: string)
    requires w != [] && NoSpace(w)
    ensures Words(w) == [w]
  {
    TokenLenOfWord(w, []);
    assert w + [] == w;
    assert w[..|w|] == w && w[|w|..] == [];
  }

  /** Stripping "w ... k\n " leaves "w ... k" when neither end of it is a space. */
  lemma StripAnchorText(info: string)
    requires info != [] && !IsSpace(info[0]) && !IsSpace(info[|info| - 1])
    ensures Strip(info + "\n ") == info
  {
    var s := info + "\n ";
    assert StripLeft(s) == s;
    assert s[..|s| - 1] == info + "\n";
    assert (info + "\n")[..|info|] == info;
  }

  /** The first "room no." of a rendered cell is the one Render wrote, when the code either has no
      space (so no "room no." can straddle it) or has no 'r' (so none can start in it). */
  lemma MarkerOfRender(code: string, k: Kind, classroom: string)
    requires NoSpace(code) || 'r' !in code
    ensures IndexOf(Render(code, k, classroom), Marker) == Some(|code| + 6)
  {
    var s := Render(code, k, classroom);
    var p := |code| + 6;
    assert s[..p] == AnchorPrefix(code, k) && s[p..p + 8] == Marker && s[p..p + 4] == "room" by {
      assert s == AnchorPrefix(code, k) + (Marker + " :" + classroom);
      assert s[p..p + 4] == s[p..p + 8][..4];
    }
    assert forall j :: 0 <= j < p ==> !MatchesAt(s, Marker, j) by {
      NoMarkerBefore(code, k, s);
    }
    assert MatchesAt(s, Marker, p);
  }

  /** No occurrence of "room no." starts before the end of the anchor prefix. */
  lemma NoMarkerBefore(code: string, k: Kind, s: string)
    requires NoSpace(code) || 'r' !in code
    requires |code| + 10 <= |s| && s[..|code| + 6] == AnchorPrefix(code, k) && s[|code| + 6..|code| + 10] == "room"
    ensures forall j :: 0 <= j < |code| + 6 ==> !MatchesAt(s, Marker, j)
  {
    forall j | 0 <= j < |code| + 6
      ensures !MatchesAt(s, Marker, j)
    {
      assert MatchesAt(s, Marker, j) ==> s[j] == 'r' && s[j + 4] == ' ' && s[j + 5] == 'n' by {
        if MatchesAt(s, Marker, j) {
          var w := s[j..j + 8];
          assert w[0] == s[j] && w[4] == s[j + 4] && w[5] == s[j + 5];
        }
      }
      NoMarkerStartIn(code, k, s, j);
    }
  }

  /** No "room no." starts inside the anchor prefix: no 'r' there is followed four characters on
      by a space and five on by an 'n'. */
  lemma NoMarkerStartIn(code: string, k: Kind, s: string, j: nat)
    requires NoSpace(code) || 'r' !in code
    requires |code| + 10 <= |s| && s[..|code| + 6] == AnchorPrefix(code, k) && s[|code| + 6..|code| + 10] == "room"
    requires j < |code| + 6
    ensures !(s[j] == 'r' && s[j + 4] == ' ' && s[j + 5] == 'n')
  {
    var pre := AnchorPrefix(code, k);
    var kn := KindName(k);
    var n := |code|;
    assert forall i :: 0 <= i < n ==> s[i] == pre[i] == code[i];
    assert s[n] == pre[n] == ' ';
    assert s[n + 1] == pre[n + 1] == kn[0] && s[n + 2] == pre[n + 2] == kn[1] && s[n + 3] == pre[n + 3] == kn[2];
    assert s[n + 4] == pre[n + 4] == '\n' && s[n + 5] == pre[n + 5] == ' ';
    var room := s[n + 6..n + 10];
    assert room == "room";
    assert room[0] == 'r' && room[1] == 'o' && room[2] == 'o' && room[3] == 'm';
    assert s[n + 6] == room[0] && s[n + 7] == room[1] && s[n + 8] == room[2] && s[n + 9] == room[3];
    if j < n && 'r' !in code {
      assert s[j] == code[j];
    } else if j + 4 < n {
      assert s[j + 4] == code[j + 4];
    }
  }

  /** What the audit reads from an anchor cell is the first two words of "<code> <kind>". */
  lemma ParseAnchor(code: string, k: Kind, classroom: string)
    requires code != [] && !IsSpace(code[0])
    requires NoSpace(code) || 'r' !in code
    ensures var ws := Words(code + " " + KindName(k));
      ParseCell(Render(code, k, classroom)) == if |ws| >= 2 then Some((ws[0], ws[1])) else None
  {
    AnchorInfo(code, k, classroom);
    ParseCellAt(Render(code, k, classroom), |code| + 6, code + " " + KindName(k));
  }

  /** The marker of an anchor cell is Render's, and the stripped text before it is "<code> <kind>". */
  lemma AnchorInfo(code: string, k: Kind, classroom: string)
    requires code != [] && !IsSpace(code[0])
    requires NoSpace(code) || 'r' !in code
    ensures var s := Render(code, k, classroom);
      IndexOf(s, Marker) == Some(|code| + 6) && |code| + 6 <= |s| &&
      Strip(s[..|code| + 6]) == code + " " + KindName(k) && ' ' in code + " " + KindName(k)
  {
    var s := Render(code, k, classroom);
    var info := code + " " + KindName(k);
    assert IndexOf(s, Marker) == Some(|code| + 6) by {
      MarkerOfRender(code, k, classroom);
    }
    assert Strip(s[..|code| + 6]) == info by {
      assert s[..|code| + 6] == AnchorPrefix(code, k) == info + "\n ";
      StripAnchorText(info);
    }
    assert info[|code|] == ' ';
  }

  /** ParseCell, once the marker is found and the text before it is known. */
  lemma ParseCellAt(cell: string, i: nat, info: string)
    requires IndexOf(cell, Marker) == Some(i) && i <= |cell| && Strip(cell[..i]) == info && ' ' in info
    ensures var ws := Words(info);
      ParseCell(cell) == if |ws| >= 2 then Some((ws[0], ws[1])) else None
  {
  }

  /** Round trip: the audit reads back the code and kind of a session whose code is non-empty and
      contains no whitespace. */
  lemma ParseRender(code: string, k: Kind, classroom: string)
    requires code != [] && NoSpace(code)
    ensures ParseCell(Render(code, k, classroom)) == Some((code, KindName(k)))
    ensures KindOfName(ParseCell(Render(code, k, classroom)).value.1) == Some(k)
  {
    ParseAnchor(code, k, classroom);
    WordsCons(code, KindName(k));
    WordsSingle(KindName(k));
  }

  /** A code with a space inside is misread: "HS204 / HS153" comes back as code "HS204" with class
      type "/", which names no kind, so the session is never credited. */
  lemma SpacedCodeMisread(k: Kind, classroom: string)
    ensures ParseCell(Render("HS204 / HS153", k, classroom)) == Some(("HS204", "/"))
    ensures KindOfName("/") == None
  {
    var code := "HS204 / HS153";
    assert 'r' !in code && !IsSpace(code[0]);
    ParseAnchor(code, k, classroom);
    SpacedCodeWords(KindName(k));
  }

  lemma SpacedCodeWords(kn: string)
    ensures var ws := Words("HS204 / HS153" + " " + kn);
      |ws| >= 2 && ws[0] == "HS204" && ws[1] == "/"
  {
    var rest := "HS153" + " " + kn;
    assert "HS204 / HS153" + " " + kn == "HS204" + " " + ("/" + " " + rest);
    WordsCons("HS204", "/" + " " + rest);
    WordsCons("/", rest);
  }

  /** Break and empty cells carry no marker, so the audit reads nothing from them. */
  lemma BreakAndEmptyParseToNothing()
    ensures ParseCell(BreakText) == None
    ensures ParseCell("") == None
  {
    assert !MatchesAt(BreakText, Marker, 0);
  }
}

=== FILE: courses.dfy ===
/** The course table as typed rows and the sections it defines. */
module Courses {
  import opened Rooms

  /** One row of the course table; L, T, P, S are whole hours (a missing value reads as 0). */
  datatype Course = Course(department: string, semester: string, code: string, name: string,
                           faculty: string, l: nat, t: nat, p: nat, s: nat)

  function SectionOf(c: Course): Section {
    Section(c.department, c.semester)
  }

  /** Index of the first occurrence of x in xs. */
  function FirstIndex<T(==)>(xs: seq<T>, x: T): (i: nat)
    requires x in xs
    ensures i < |xs| && xs[i] == x
    ensures forall k :: 0 <= k < i ==> xs[k] != x
  {
    if xs[0] == x then 0 else 1 + FirstIndex(xs[1..], x)
  }

  /** The first occurrence is the one with no earlier occurrence. */
  lemma {:induction false} FirstIndexIs<T>(xs: seq<T>, x: T, i: nat)
    requires i < |xs| && xs[i] == x && x !in xs[..i]
    ensures FirstIndex(xs, x) == i
  {
    if i > 0 {
      assert xs[0] == xs[..i][0];
      assert xs[1..][i - 1] == x;
      assert xs[1..][..i - 1] == xs[..i][1..];
      FirstIndexIs(xs[1..], x, i - 1);
    }
  }

  /** Appending an element leaves the first occurrences of the earlier elements where they were. */
  lemma FirstIndexAppend<T>(xs: seq<T>, y: T)
    ensures forall x :: x in xs ==> FirstIndex(xs + [y], x) == FirstIndex(xs, x)
    ensures y !in xs ==> FirstIndex(xs + [y], y) == |xs|
  {
    forall x | x in xs ensures FirstIndex(xs + [y], x) == FirstIndex(xs, x) {
      var i, j := FirstIndex(xs + [y], x), FirstIndex(xs, x);
      assert (xs + [y])[j] == x;
      assert i <= j;
      assert xs[i] == (xs + [y])[i];
    }
  }

  /** Order-preserving removal of repeats (pandas `unique`): each value once, in the order of
      its first appearance. */
  function Unique<T(==,!new)>(xs: seq<T>): (u: seq<T>)
    ensures forall x :: x in u <==> x in xs
    ensures forall i, j :: 0 <= i < j < |u| ==> u[i] != u[j]
    ensures forall i, j :: 0 <= i < j < |u| ==> FirstIndex(xs, u[i]) < FirstIndex(xs, u[j])
  {
    if xs == [] then []
    else
      var init := xs[..|xs| - 1];
      var rest := Unique(init);
      assert xs == init + [xs[|xs| - 1]];
      FirstIndexAppend(init, xs[|xs| - 1]);
      if xs[|xs| - 1] in rest then rest else rest + [xs[|xs| - 1]]
  }

  function Departments(rows: seq<Course>): seq<string> {
    if rows == [] then [] else Departments(rows[..|rows| - 1]) + [rows[|rows| - 1].department]
  }

  /** Semesters of the rows of one department, in row order. */
  function SemestersOf(rows: seq<Course>, department: string): seq<string> {
    if rows == [] then []
    else
      var rest := SemestersOf(rows[..|rows| - 1], department);
      if rows[|rows| - 1].department == department then rest + [rows[|rows| - 1].semester] else rest
  }

  /** Sections of one department, one per distinct semester. */
  function SectionsFor(department: string, semesters: seq<string>): (r: seq<Section>)
    ensures |r| == |semesters|
    ensures forall i :: 0 <= i < |r| ==> r[i] == Section(department, semesters[i])
  {
    if semesters == [] then [] else [Section(department, semesters[0])] + SectionsFor(department, semesters[1..])
  }

  /** For each department in first-appearance order, each of its semesters in first-appearance order. */
  function CombinationsFrom(rows: seq<Course>, departments: seq<string>): seq<Section> {
    if departments == [] then []
    else SectionsFor(departments[0], Unique(SemestersOf(rows, departments[0])))
         + CombinationsFrom(rows, departments[1..])
  }

  /** The distinct (department, semester) sections of the table. */
  function DeptSemCombinations(rows: seq<Course>): seq<Section> {
    CombinationsFrom(rows, Unique(Departments(rows)))
  }

  /** The rows of one section, in table order: every row of the section as often as the table
      has it, and no other row. */
  function CoursesOf(rows: seq<Course>, section: Section): (r: seq<Course>)
    ensures forall c :: c in r <==> c in rows && SectionOf(c) == section
    ensures forall c :: multiset(r)[c] == if SectionOf(c) == section then multiset(rows)[c] else 0
  {
    if rows == [] then []
    else
      var init := rows[..|rows| - 1];
      var rest := CoursesOf(init, section);
      assert rows == init + [rows[|rows| - 1]];
      if SectionOf(rows[|rows| - 1]) == section then rest + [rows[|rows| - 1]] else rest
  }

  /** Selecting the rows of a section keeps table order: the selection of a concatenation is the
      concatenation of the selections. */
  lemma {:induction false} CoursesOfConcat(xs: seq<Course>, ys: seq<Course>, section: Section)
    ensures CoursesOf(xs + ys, section) == CoursesOf(xs, section) + CoursesOf(ys, section)
    decreases |ys|
  {
    if ys == [] {
      assert xs + ys == xs;
    } else {
      var init := ys[..|ys| - 1];
      assert (xs + ys)[..|xs + ys| - 1] == xs + init;
      CoursesOfConcat(xs, init, section);
    }
  }

  /** A department is listed exactly when some row belongs to it. */
  lemma {:induction false} DepartmentsMembers(rows: seq<Course>, d: string)
    ensures d in Departments(rows) <==> exists c :: c in rows && c.department == d
  {
    if rows != [] {
      var init := rows[..|rows| - 1];
      DepartmentsMembers(init, d);
      assert rows == init + [rows[|rows| - 1]];
      assert forall c :: c in rows <==> c in init || c == rows[|rows| - 1];
    }
  }

  /** A semester is listed for a department exactly when some row of that department has it. */
  lemma {:induction false} SemestersMembers(rows: seq<Course>, d: string, sem: string)
    ensures sem in SemestersOf(rows, d) <==> exists c :: c in rows && c.department == d && c.semester == sem
  {
    if rows != [] {
      var init := rows[..|rows| - 1];
      SemestersMembers(init, d, sem);
      assert rows == init + [rows[|rows| - 1]];
      assert forall c :: c in rows <==> c in init || c == rows[|rows| - 1];
    }
  }

  /** Every section built from a list of departments belongs to one of them, with a semester
      some row of that department has. */
  lemma {:induction false} CombinationsFromMembers(rows: seq<Course>, departments: seq<string>, sec: Section)
    ensures sec in CombinationsFrom(rows, departments) <==>
      sec.department in departments && sec.semester in SemestersOf(rows, sec.department)
  {
    if departments != [] {
      CombinationsFromMembers(rows, departments[1..], sec);
      var first := SectionsFor(departments[0], Unique(SemestersOf(rows, departments[0])));
      assert sec in first <==> sec.department == departments[0] && sec.semester in SemestersOf(rows, departments[0]) by {
        if sec in first {
          var i :| 0 <= i < |first| && first[i] == sec;
        }
        if sec.department == departments[0] && sec.semester in SemestersOf(rows, departments[0]) {
          var u := Unique(SemestersOf(rows, departments[0]));
          var i :| 0 <= i < |u| && u[i] == sec.semester;
          assert first[i] == sec;
        }
      }
      assert forall x :: x in departments <==> x == departments[0] || x in departments[1..];
    }
  }

  /** The sections are exactly the (department, semester) pairs of the rows. */
  lemma CombinationsCoverRows(rows: seq<Course>, sec: Section)
    ensures sec in DeptSemCombinations(rows) <==> exists c :: c in rows && SectionOf(c) == sec
  {
    CombinationsFromMembers(rows, Unique(Departments(rows)), sec);
    DepartmentsMembers(rows, sec.department);
    SemestersMembers(rows, sec.department, sec.semester);
  }

  /** Sections built from distinct departments are listed once each. */
  lemma {:induction false} CombinationsFromDistinct(rows: seq<Course>, departments: seq<string>)
    requires forall i, j :: 0 <= i < j < |departments| ==> departments[i] != departments[j]
    ensures var r := CombinationsFrom(rows, departments);
      forall i, j :: 0 <= i < j < |r| ==> r[i] != r[j]
  {
    if departments != [] {
      var rest := departments[1..];
      CombinationsFromDistinct(rows, rest);
      var first := SectionsFor(departments[0], Unique(SemestersOf(rows, departments[0])));
      var tail := CombinationsFrom(rows, rest);
      forall j | 0 <= j < |tail|
        ensures tail[j].department != departments[0]
      {
        CombinationsFromMembers(rows, rest, tail[j]);
        assert tail[j] in tail;
      }
      var r := first + tail;
      forall i, j | 0 <= i < j < |r|
        ensures r[i] != r[j]
      {
        if j < |first| {
          assert r[i].semester == Unique(SemestersOf(rows, departments[0]))[i];
        } else if i >= |first| {
          assert r[i] == tail[i - |first|] && r[j] == tail[j - |first|];
        } else {
          assert r[j] == tail[j - |first|];
        }
      }
    }
  }

  /** Each section is listed once. */
  lemma CombinationsDistinct(rows: seq<Course>)
    ensures var r := DeptSemCombinations(rows);
      forall i, j :: 0 <= i < j < |r| ==> r[i] != r[j]
  {
    CombinationsFromDistinct(rows, Unique(Departments(rows)));
    assert DeptSemCombinations(rows) == CombinationsFrom(rows, Unique(Departments(rows)));
  }

  /** Every section has at least one course row, so no section is skipped as empty. */
  lemma SectionsHaveCourses(rows: seq<Course>, sec: Section)
    requires sec in DeptSemCombinations(rows)
    ensures |CoursesOf(rows, sec)| > 0
  {
    CombinationsCoverRows(rows, sec);
    var c :| c in rows && SectionOf(c) == sec;
    assert c in CoursesOf(rows, sec);
  }
}

=== FILE: gap.dfy ===
/** The faculty gap rule: a new session must start at least three hours (six slots) away from
    every session the faculty member already has that day, must not touch one back to back, and
    may follow a lecture or tutorial directly only when it is a lab. Slot kinds are looked up in
    the grid of the section being scheduled, so slots the faculty member holds in other sections
    (untyped in this grid) are skipped. */
module Gap {
  import opened Wrappers
  import opened Calendar
  import opened Sessions
  import opened Timetable

  const MinGapSlots: int := 6  // three hours

  function Abs(x: int): nat {
    if x < 0 then -x else x
  }

  /** Slot index where the run that starts at s ends: the first slot from s on that is not both
      held by the faculty member and typed in the grid row. */
  function RunEnd(occupied: set<int>, row: seq<Cell>, s: nat): (e: nat)
    requires s <= |row|
    ensures s <= e <= |row|
    ensures forall i :: s <= i < e ==> i in occupied && row[i].kind.Some?
    ensures e < |row| ==> !(e in occupied && row[e].kind.Some?)
    decreases |row| - s
  {
    if s < |row| && s in occupied && row[s].kind.Some? then RunEnd(occupied, row, s + 1) else s
  }

  /** Every occupied slot is a slot of the row. */
  predicate InRow(occupied: set<int>, row: seq<Cell>) {
    forall s :: s in occupied ==> 0 <= s < |row|
  }

  /** A placement [start, start + dur) is fine with respect to the occupied slot s. */
  predicate SlotAdmits(occupied: set<int>, row: seq<Cell>, start: nat, dur: nat, s: int)
    requires 0 <= s < |row| && start < |row|
  {
    match row[s].kind
    case None => true
    case Some(t) =>
      var e := RunEnd(occupied, row, s);
      if start == e && (t == LEC || t == TUT) && dur == LabDuration then
        true  // a lab may start right where a lecture or tutorial ends
      else if s == start + dur && row[start].kind == Some(LAB) && (t == LEC || t == TUT) then
        true  // the symmetric case, keyed on the kind already in the new start slot
      else
        start != e && s != start + dur && Abs(start - s) >= MinGapSlots
  }

  /** check_professor_constraint: admitted when the faculty member is free all day, or when every
      occupied slot admits the placement. */
  predicate GapAdmits(occupied: set<int>, row: seq<Cell>, start: nat, dur: nat)
    requires InRow(occupied, row) && start < |row|
  {
    occupied == {} || forall s :: s in occupied ==> SlotAdmits(occupied, row, start, dur, s)
  }

  /** Walks the faculty member's occupied slots of the day, finding the end of each typed run,
      and rejects at the first slot that breaks the rule. */
  method CheckProfessorConstraint(professors: map<string, Week>, faculty: string, day: int,
                                  start: nat, dur: nat, grid: Grid)
    returns (ok: bool)
    requires faculty in professors && WeekShaped(professors[faculty]) && GridShaped(grid)
    requires 0 <= day < NumDays && 1 <= dur && start + dur <= NumSlots
    ensures InRow(professors[faculty][day], grid[day])
    ensures ok == GapAdmits(professors[faculty][day], grid[day], start, dur)
  {
    var occupied: set<int> := professors[faculty][day];
    var row := grid[day];
    if occupied == {} {
      return true;
    }
    // The held slots all lie in the row, so visiting them in ascending order visits each once;
    // the verdict does not depend on the order.
    for s := 0 to |row|
      invariant forall x :: x in occupied && x < s ==> SlotAdmits(occupied, row, start, dur, x)
    {
      if s !in occupied {
        continue;
      }
      if row[s].kind.None? {
        continue;
      }
      var t := row[s].kind.value;
      var e := s;
      while e < |row| && e in occupied && row[e].kind.Some?
        invariant s <= e <= |row|
        invariant RunEnd(occupied, row, s) == RunEnd(occupied, row, e)
        decreases |row| - e
      {
        e := e + 1;
      }
      if start == e && (t == LEC || t == TUT) && dur == LabDuration {
        continue;
      }
      if s == start + dur && row[start].kind == Some(LAB) && (t == LEC || t == TUT) {
        continue;
      }
      if start == e || s == start + dur || Abs(start - s) < MinGapSlots {
        return false;
      }
    }
    return true;
  }

  /** The symmetric exception never fires in the allocator: the new start slot has just been
      checked to be empty, so it holds no LAB. What remains is the lab-after-lecture exception
      and, otherwise, the six-slot distance with no back-to-back contact. */
  lemma SymmetricExceptionNeverFires(occupied: set<int>, row: seq<Cell>, start: nat, dur: nat, s: int)
    requires 0 <= s < |row| && start < |row|
    requires row[start].kind.None?
    requires row[s].kind.Some?
    ensures SlotAdmits(occupied, row, start, dur, s) <==>
      (start == RunEnd(occupied, row, s) && row[s].kind.value != LAB && dur == LabDuration) ||
      (start != RunEnd(occupied, row, s) && s != start + dur && Abs(start - s) >= MinGapSlots)
  {
  }

  /** A run of typed, held slots [a, a + d) reaches at least a + d. */
  lemma RunCoversBlock(occupied: set<int>, row: seq<Cell>, a: nat, d: nat)
    requires a + d <= |row|
    requires forall i :: a <= i < a + d ==> i in occupied && row[i].kind.Some?
    ensures RunEnd(occupied, row, a) >= a + d
  {
  }

  /** Gap guarantee for a committed pair: if a session of kind t held by the faculty member
      occupies [a, a + d) in this grid and a new session starting at an empty slot is admitted,
      then the two starts are at least six slots apart, or the new one is a lab placed after the
      lecture or tutorial. */
  lemma AdmittedSessionKeepsGap(occupied: set<int>, row: seq<Cell>, start: nat, dur: nat,
                                a: nat, d: nat, t: Kind)
    requires InRow(occupied, row) && start < |row|
    requires row[start].kind.None?
    requires GapAdmits(occupied, row, start, dur)
    requires 1 <= d && a + d <= |row|
    requires forall i :: a <= i < a + d ==> i in occupied && row[i].kind == Some(t)
    ensures Abs(start - a) >= MinGapSlots || (dur == LabDuration && t != LAB && start >= a + d)
  {
    assert a in occupied;
    assert SlotAdmits(occupied, row, start, dur, a);
    RunCoversBlock(occupied, row, a, d);
  }

  /** Two courses of one faculty member: a second non-lab session whose start is less than six
      slots from a slot the first one holds in this grid is rejected. */
  lemma CloseStartRejected(occupied: set<int>, row: seq<Cell>, start: nat, dur: nat, s: int)
    requires InRow(occupied, row) && start < |row|
    requires row[start].kind.None?
    requires s in occupied && row[s].kind.Some?
    requires dur != LabDuration && Abs(start - s) < MinGapSlots
    ensures !GapAdmits(occupied, row, start, dur)
  {
    assert !SlotAdmits(occupied, row, start, dur, s);
  }

  /** A faculty member with nothing that day is always admitted. */
  lemma FreeDayAdmits(row: seq<Cell>, start: nat, dur: nat)
    requires start < |row|
    ensures GapAdmits({}, row, start, dur)
  {
  }
}

=== FILE: placement.dfy ===
/** Placement of one session instance: a bounded number of randomized attempts, each checking
    the faculty ledger, the room ledger, the section grid, the break windows and the gap rule, and
    committing the session into all three structures when every check passes. A ghost log of the
    committed sessions carries what the commits guarantee: no faculty member, room or section grid
    is double-booked, and the gap rule holds between the sessions of one faculty member in one grid. */
module Placement {
  import opened Wrappers
  import opened Calendar
  import opened Sessions
  import opened Timetable
  import opened Gap

  const MaxAttempts: nat := 1000
  const PreferredAttempts: nat := 500  // attempts that draw the day from the preferred days

  /** One committed session: which section's grid it is in, its payload, room(s), day and start slot. */
  datatype Session = Session(section: nat, code: string, name: string, faculty: string,
                             rooms: seq<string>, classroom: string, kind: Kind, day: int, start: int)

  /** What one instance asks for: the anchor payload and the room(s) it must hold. */
  datatype Request = Request(kind: Kind, code: string, name: string, faculty: string,
                             rooms: seq<string>, classroom: string)

  /** Outcome of one instance. MissingRoom is the lookup of a room that is not a key of the room
      ledger, which raises KeyError and ends the run. */
  datatype Outcome = Placed(day: int, start: int) | Exhausted | MissingRoom(room: string)

  /** Outcome of checking a slot or a span. */
  datatype Probe = Free | Busy | Unknown(room: string)

  function SessionOf(req: Request, section: nat, day: int, start: int): Session {
    Session(section, req.code, req.name, req.faculty, req.rooms, req.classroom, req.kind, day, start)
  }

  function End(x: Session): int {
    x.start + Duration(x.kind)
  }

  /** Labs hold the section's two lab rooms; lectures and tutorials its lecture room. */
  function RoomCount(k: Kind): nat {
    if k == LAB then 2 else 1
  }

  /** The cell a session writes at slot s: the anchor at its start, continuations after. */
  function CellAt(x: Session, s: int): Cell {
    if s == x.start then Cell(Some(x.kind), x.code, x.name, x.faculty, x.classroom)
    else Cell(Some(x.kind), "", "", "", "")
  }

  predicate Overlap(a: Session, b: Session) {
    a.day == b.day && a.start < End(b) && b.start < End(a)
  }

  predicate SharesRoom(a: Session, b: Session) {
    exists r :: r in a.rooms && r in b.rooms
  }

  /** Overlapping sessions share no faculty member, no room and no grid. */
  predicate NoClash(a: Session, b: Session) {
    Overlap(a, b) ==> a.faculty != b.faculty && !SharesRoom(a, b) && a.section != b.section
  }

  /** Gap rule between an earlier session a and a later session b of one faculty member on one
      day of one grid: starts at least six slots apart, or b is a lab after lecture/tutorial a. */
  predicate GapKept(a: Session, b: Session) {
    (a.section == b.section && a.faculty == b.faculty && a.day == b.day) ==>
      Abs(b.start - a.start) >= MinGapSlots || (b.kind == LAB && a.kind != LAB && b.start >= End(a))
  }

  /** Lectures and labs avoid break slots entirely; a tutorial only starts outside one. */
  predicate BreakChecked(x: Session) {
    if x.kind == TUT then !IsBreak(x.start) else forall i :: x.start <= i < End(x) ==> !IsBreak(i)
  }

  predicate WellPlaced(x: Session) {
    0 <= x.day < NumDays && 0 <= x.start && End(x) <= NumSlots && |x.rooms| == RoomCount(x.kind)
  }

  /** Every slot of x is in its faculty member's and its rooms' ledger entries. */
  predicate Recorded(l: Ledger, x: Session) {
    x.faculty in l.professors && 0 <= x.day < |l.professors[x.faculty]| &&
    (forall i :: x.start <= i < End(x) ==> i in l.professors[x.faculty][x.day]) &&
    forall r :: r in x.rooms ==>
      r in l.rooms && x.day < |l.rooms[r]| && forall i :: x.start <= i < End(x) ==> i in l.rooms[r][x.day]
  }

  /** Every slot of x shows x's cell in the grid. */
  predicate Shown(g: Grid, x: Session) {
    0 <= x.day < |g| && 0 <= x.start && End(x) <= |g[x.day]| &&
    forall i :: x.start <= i < End(x) ==> g[x.day][i] == CellAt(x, i)
  }

  /** Week w with the slots of `span` added on day d. */
  function AddOnDay(w: Week, d: int, span: set<int>): (w': Week)
    ensures |w'| == |w|
  {
    seq(|w|, e requires 0 <= e < |w| => if e == d then w[e] + span else w[e])
  }

  /** The ledger entries of `keys` with `span` added on `day`; other entries as they were. */
  function StampWeeks(m: map<string, Week>, keys: seq<string>, day: int, span: set<int>): map<string, Week> {
    map k | k in m :: if k in keys then AddOnDay(m[k], day, span) else m[k]
  }

  /** The ledger after committing x: its span added for its faculty member and each of its rooms. */
  function StampLedger(l: Ledger, x: Session): Ledger {
    var span := SpanSet(x.start, Duration(x.kind));
    Ledger(StampWeeks(l.professors, [x.faculty], x.day, span), StampWeeks(l.rooms, x.rooms, x.day, span))
  }

  /** The grid after committing x: its anchor and continuation cells written over its span. */
  function StampGrid(g: Grid, x: Session): (g': Grid)
    ensures |g'| == |g| && forall d :: 0 <= d < |g| ==> |g'[d]| == |g[d]|
  {
    seq(|g|, d requires 0 <= d < |g| =>
      seq(|g[d]|, s requires 0 <= s < |g[d]| =>
        if d == x.day && x.start <= s < End(x) then CellAt(x, s) else g[d][s]))
  }

  /** The ledger l after committing the sessions of `log` in order. */
  function LedgerAfter(l: Ledger, log: seq<Session>): Ledger {
    if log == [] then l else StampLedger(LedgerAfter(l, log[..|log| - 1]), log[|log| - 1])
  }

  /** Grid g of section `section` after committing the sessions of `log` that belong to it. */
  function GridAfter(g: Grid, log: seq<Session>, section: nat): Grid {
    if log == [] then g
    else
      var before := GridAfter(g, log[..|log| - 1], section);
      if log[|log| - 1].section == section then StampGrid(before, log[|log| - 1]) else before
  }

  /** The same faculty members and rooms as l, every one free all week. */
  function Blank(l: Ledger): Ledger {
    Ledger(map f | f in l.professors :: EmptyWeek(), map r | r in l.rooms :: EmptyWeek())
  }

  /** The ledger is exactly what committing the logged sessions made of it, every one of them is
      recorded, and no two of them clash or break the gap rule. */
  ghost predicate LedgerInv(l: Ledger, log: seq<Session>) {
    LedgerShaped(l) &&
    (forall k :: 0 <= k < |log| ==> WellPlaced(log[k]) && BreakChecked(log[k]) && Recorded(l, log[k])) &&
    (forall j, k :: 0 <= j < k < |log| ==> NoClash(log[j], log[k]) && GapKept(log[j], log[k])) &&
    l == LedgerAfter(Blank(l), log)
  }

  /** The grid of section `section` is exactly what committing its logged sessions made of an
      empty grid, and shows every one of them. */
  ghost predicate GridInv(g: Grid, log: seq<Session>, section: nat) {
    GridShaped(g) && (forall k :: 0 <= k < |log| && log[k].section == section ==> Shown(g, log[k])) &&
    g == GridAfter(EmptyGrid(), log, section)
  }

  /** Committing one more session stamps it onto the replayed ledger and, in its own section, grid. */
  lemma ReplayOneMore(l: Ledger, g: Grid, log: seq<Session>, x: Session, section: nat)
    ensures LedgerAfter(l, log + [x]) == StampLedger(LedgerAfter(l, log), x)
    ensures GridAfter(g, log + [x], section) ==
      if x.section == section then StampGrid(GridAfter(g, log, section), x) else GridAfter(g, log, section)
  {
    assert (log + [x])[..|log|] == log;
  }

  /** x holds slot s of day d. */
  predicate Covers(x: Session, d: int, s: int) {
    x.day == d && x.start <= s < End(x)
  }

  /** A slot of a faculty member's replayed entry is held only if it was held before the replay
      or some logged session of theirs covers it. */
  lemma {:induction false} ProfessorSlotExplained(l: Ledger, log: seq<Session>, f: string, d: int, s: int)
    requires f in l.professors && 0 <= d < |l.professors[f]|
    ensures f in LedgerAfter(l, log).professors && |LedgerAfter(l, log).professors[f]| == |l.professors[f]|
    ensures s in LedgerAfter(l, log).professors[f][d] ==>
      s in l.professors[f][d] || exists k :: 0 <= k < |log| && log[k].faculty == f && Covers(log[k], d, s)
  {
    if log != [] {
      var init, x := log[..|log| - 1], log[|log| - 1];
      ProfessorSlotExplained(l, init, f, d, s);
      var before := LedgerAfter(l, init).professors[f];
      if s in LedgerAfter(l, log).professors[f][d] && s !in l.professors[f][d] {
        if s in before[d] {
          var k :| 0 <= k < |init| && init[k].faculty == f && Covers(init[k], d, s);
          assert log[k] == init[k];
        } else {
          assert log[|log| - 1].faculty == f && Covers(log[|log| - 1], d, s);
        }
      }
    }
  }

  /** The same for a room's replayed entry. */
  lemma {:induction false} RoomSlotExplained(l: Ledger, log: seq<Session>, r: string, d: int, s: int)
    requires r in l.rooms && 0 <= d < |l.rooms[r]|
    ensures r in LedgerAfter(l, log).rooms && |LedgerAfter(l, log).rooms[r]| == |l.rooms[r]|
    ensures s in LedgerAfter(l, log).rooms[r][d] ==>
      s in l.rooms[r][d] || exists k :: 0 <= k < |log| && r in log[k].rooms && Covers(log[k], d, s)
  {
    if log != [] {
      var init, x := log[..|log| - 1], log[|log| - 1];
      RoomSlotExplained(l, init, r, d, s);
      var before := LedgerAfter(l, init).rooms[r];
      if s in LedgerAfter(l, log).rooms[r][d] && s !in l.rooms[r][d] {
        if s in before[d] {
          var k :| 0 <= k < |init| && r in init[k].rooms && Covers(init[k], d, s);
          assert log[k] == init[k];
        } else {
          assert r in log[|log| - 1].rooms && Covers(log[|log| - 1], d, s);
        }
      }
    }
  }

  /** A cell of a replayed grid differs from the grid it started as only where some logged session
      of that section covers it; the replay keeps the grid's shape. */
  lemma {:induction false} CellExplained(g: Grid, log: seq<Session>, section: nat, d: int, s: int)
    requires GridShaped(g) && 0 <= d < NumDays && 0 <= s < NumSlots
    ensures GridShaped(GridAfter(g, log, section))
    ensures GridAfter(g, log, section)[d][s] != g[d][s] ==>
      exists k :: 0 <= k < |log| && log[k].section == section && Covers(log[k], d, s)
  {
    if log != [] {
      var init := log[..|log| - 1];
      CellExplained(g, init, section, d, s);
      if GridAfter(g, log, section)[d][s] != g[d][s] {
        if GridAfter(g, init, section)[d][s] != g[d][s] {
          var k :| 0 <= k < |init| && init[k].section == section && Covers(init[k], d, s);
          assert log[k] == init[k];
        } else {
          assert log[|log| - 1].section == section && Covers(log[|log| - 1], d, s);
        }
      }
    }
  }

  /** A faculty member holds a slot exactly when a logged session of theirs covers it. */
  lemma ProfessorHoldsIffLogged(l: Ledger, log: seq<Session>, f: string, d: int, s: int)
    requires LedgerInv(l, log) && f in l.professors && 0 <= d < NumDays
    ensures s in l.professors[f][d] <==> exists k :: 0 <= k < |log| && log[k].faculty == f && Covers(log[k], d, s)
  {
    ProfessorSlotExplained(Blank(l), log, f, d, s);
    if exists k :: 0 <= k < |log| && log[k].faculty == f && Covers(log[k], d, s) {
      var k :| 0 <= k < |log| && log[k].faculty == f && Covers(log[k], d, s);
      assert Recorded(l, log[k]);
    }
  }

  /** A room is held in a slot exactly when a logged session in that room covers it. */
  lemma RoomHeldIffLogged(l: Ledger, log: seq<Session>, r: string, d: int, s: int)
    requires LedgerInv(l, log) && r in l.rooms && 0 <= d < NumDays
    ensures s in l.rooms[r][d] <==> exists k :: 0 <= k < |log| && r in log[k].rooms && Covers(log[k], d, s)
  {
    RoomSlotExplained(Blank(l), log, r, d, s);
    if exists k :: 0 <= k < |log| && r in log[k].rooms && Covers(log[k], d, s) {
      var k :| 0 <= k < |log| && r in log[k].rooms && Covers(log[k], d, s);
      assert Recorded(l, log[k]);
    }
  }

  /** A cell of a section's grid is written exactly when a logged session of that section covers
      it, and then it is that session's cell. */
  lemma CellWrittenIffLogged(g: Grid, log: seq<Session>, section: nat, d: int, s: int)
    requires GridInv(g, log, section) && 0 <= d < NumDays && 0 <= s < NumSlots
    ensures g[d][s] != EmptyCell <==> exists k :: 0 <= k < |log| && log[k].section == section && Covers(log[k], d, s)
    ensures forall k :: 0 <= k < |log| && log[k].section == section && Covers(log[k], d, s) ==> g[d][s] == CellAt(log[k], s)
  {
    CellExplained(EmptyGrid(), log, section, d, s);
    forall k | 0 <= k < |log| && log[k].section == section && Covers(log[k], d, s)
      ensures g[d][s] == CellAt(log[k], s)
    {
      assert Shown(g, log[k]);
    }
  }

  /** A ledger stamped with all of x's span is StampLedger of it. */
  lemma LedgerStampedExactly(l: Ledger, l': Ledger, x: Session)
    requires LedgerStamped(l, l', x, Duration(x.kind))
    ensures l' == StampLedger(l, x)
  {
    var span := SpanSet(x.start, Duration(x.kind));
    WeeksStampedExactly(l.professors, l'.professors, [x.faculty], x.day, span);
    WeeksStampedExactly(l.rooms, l'.rooms, x.rooms, x.day, span);
  }

  lemma WeeksStampedExactly(m: map<string, Week>, m': map<string, Week>, keys: seq<string>, day: int, span: set<int>)
    requires WeeksStamped(m, m', keys, day, span)
    ensures m' == StampWeeks(m, keys, day, span)
  {
    var r := StampWeeks(m, keys, day, span);
    forall k | k in m
      ensures m'[k] == r[k]
    {
      assert |m'[k]| == |r[k]|;
      forall d | 0 <= d < |m[k]|
        ensures m'[k][d] == r[k][d]
      {
      }
    }
  }

  /** A grid stamped with all of x's cells is StampGrid of it. */
  lemma GridStampedExactly(g: Grid, g': Grid, x: Session)
    requires GridStamped(g, g', x, Duration(x.kind))
    ensures g' == StampGrid(g, x)
  {
    var r := StampGrid(g, x);
    forall d | 0 <= d < |g|
      ensures g'[d] == r[d]
    {
    }
  }

  /** One slot is free for the request: not held by the faculty member, not held in any of its
      rooms (each a ledger key), empty in the grid, and, unless a tutorial, not a break. */
  predicate SlotClear(l: Ledger, g: Grid, kind: Kind, faculty: string, rooms: seq<string>, day: int, x: int)
    requires LedgerShaped(l) && GridShaped(g) && faculty in l.professors
    requires 0 <= day < NumDays && 0 <= x < NumSlots
  {
    x !in l.professors[faculty][day] &&
    (kind != TUT ==> !IsBreak(x)) &&
    (forall r :: r in rooms ==> r in l.rooms && x !in l.rooms[r][day]) &&
    g[day][x].kind.None?
  }

  /** The per-slot test, in the source's order: for a lab the faculty ledger and the break flag,
      then each lab room, then the grid; for a lecture or tutorial the faculty ledger, the lecture
      room, the grid and (lecture only) the break flag. A room that is not a ledger key is looked
      up only when the tests before it pass. */
  function ProbeSlot(l: Ledger, g: Grid, kind: Kind, faculty: string, rooms: seq<string>, day: int, x: int): (p: Probe)
    requires LedgerShaped(l) && GridShaped(g) && faculty in l.professors && |rooms| == RoomCount(kind)
    requires 0 <= day < NumDays && 0 <= x < NumSlots
    ensures p.Free? <==> SlotClear(l, g, kind, faculty, rooms, day, x)
    ensures p.Unknown? ==> p.room in rooms && p.room !in l.rooms
  {
    var held := l.professors[faculty][day];
    if kind == LAB then
      if x in held || IsBreak(x) then Busy
      else if rooms[0] !in l.rooms then Unknown(rooms[0])
      else if x in l.rooms[rooms[0]][day] then Busy
      else if rooms[1] !in l.rooms then Unknown(rooms[1])
      else if x in l.rooms[rooms[1]][day] || g[day][x].kind.Some? then Busy
      else Free
    else
      if x in held then Busy
      else if rooms[0] !in l.rooms then Unknown(rooms[0])
      else if x in l.rooms[rooms[0]][day] || g[day][x].kind.Some? || (kind == LEC && IsBreak(x)) then Busy
      else Free
  }

  /** The span test: the first slot from start + i on that is not free decides. */
  function ProbeSpan(l: Ledger, g: Grid, kind: Kind, faculty: string, rooms: seq<string>,
                     day: int, start: int, i: nat): (p: Probe)
    requires LedgerShaped(l) && GridShaped(g) && faculty in l.professors && |rooms| == RoomCount(kind)
    requires 0 <= day < NumDays && 0 <= start && start + Duration(kind) <= NumSlots && i <= Duration(kind)
    ensures p.Unknown? ==> p.room in rooms && p.room !in l.rooms
    decreases Duration(kind) - i
  {
    if i == Duration(kind) then Free
    else
      var p := ProbeSlot(l, g, kind, faculty, rooms, day, start + i);
      if !p.Free? then p else ProbeSpan(l, g, kind, faculty, rooms, day, start, i + 1)
  }

  /** The span test passes exactly when every remaining slot of the span is clear. */
  lemma {:induction false} ProbeSpanFreeIffClear(l: Ledger, g: Grid, kind: Kind, faculty: string,
                                                 rooms: seq<string>, day: int, start: int, i: nat)
    requires LedgerShaped(l) && GridShaped(g) && faculty in l.professors && |rooms| == RoomCount(kind)
    requires 0 <= day < NumDays && 0 <= start && start + Duration(kind) <= NumSlots && i <= Duration(kind)
    ensures ProbeSpan(l, g, kind, faculty, rooms, day, start, i).Free? <==>
      forall x :: start + i <= x < start + Duration(kind) ==> SlotClear(l, g, kind, faculty, rooms, day, x)
    decreases Duration(kind) - i
  {
    if i < Duration(kind) {
      ProbeSpanFreeIffClear(l, g, kind, faculty, rooms, day, start, i + 1);
    }
  }

  /** `for i in range(duration)`: tests the slots of the span in order and stops at the first
      that is not free. */
  method SlotsFree(l: Ledger, g: Grid, kind: Kind, faculty: string, rooms: seq<string>, day: int, start: int)
    returns (p: Probe)
    requires LedgerShaped(l) && GridShaped(g) && faculty in l.professors && |rooms| == RoomCount(kind)
    requires 0 <= day < NumDays && 0 <= start && start + Duration(kind) <= NumSlots
    ensures p == ProbeSpan(l, g, kind, faculty, rooms, day, start, 0)
    ensures p.Free? <==> forall x :: start <= x < start + Duration(kind) ==> SlotClear(l, g, kind, faculty, rooms, day, x)
  {
    ProbeSpanFreeIffClear(l, g, kind, faculty, rooms, day, start, 0);
    var i := 0;
    while i < Duration(kind)
      invariant 0 <= i <= Duration(kind)
      invariant ProbeSpan(l, g, kind, faculty, rooms, day, start, 0) == ProbeSpan(l, g, kind, faculty, rooms, day, start, i)
    {
      p := ProbeSlot(l, g, kind, faculty, rooms, day, start + i);
      if !p.Free? {
        return;
      }
      i := i + 1;
    }
    p := Free;
  }

  /** `schedule[key][day].add(slot)`, for the faculty ledger and the room ledger alike. */
  function MarkIn(m: map<string, Week>, key: string, day: int, slot: int): (m': map<string, Week>)
    requires key in m && 0 <= day < |m[key]|
    ensures m'.Keys == m.Keys
    ensures forall k :: k in m ==> |m'[k]| == |m[k]|
    ensures forall k, d :: k in m && 0 <= d < |m[k]| ==>
      m'[k][d] == if k == key && d == day then m[k][d] + {slot} else m[k][d]
  {
    m[key := m[key][day := m[key][day] + {slot}]]
  }

  /** m' is m with `span` added on `day` for every key in `keys`. */
  ghost predicate WeeksStamped(m: map<string, Week>, m': map<string, Week>, keys: seq<string>, day: int, span: set<int>) {
    m'.Keys == m.Keys &&
    (forall k :: k in m ==> |m'[k]| == |m[k]|) &&
    forall k, d :: k in m && 0 <= d < |m[k]| ==>
      m'[k][d] == (if k in keys && d == day then m[k][d] + span else m[k][d])
  }

  /** l' is l with the first n slots of x added for its faculty member and each of its rooms. */
  ghost predicate LedgerStamped(l: Ledger, l': Ledger, x: Session, n: nat) {
    WeeksStamped(l.professors, l'.professors, [x.faculty], x.day, SpanSet(x.start, n)) &&
    WeeksStamped(l.rooms, l'.rooms, x.rooms, x.day, SpanSet(x.start, n))
  }

  /** g' is g with the first n cells of x written. */
  ghost predicate GridStamped(g: Grid, g': Grid, x: Session, n: nat) {
    |g'| == |g| &&
    forall d :: 0 <= d < |g| ==> (|g'[d]| == |g[d]| &&
      forall s :: 0 <= s < |g[d]| ==> g'[d][s] == (if d == x.day && x.start <= s < x.start + n then CellAt(x, s) else g[d][s]))
  }

  /** The commit loop: for every slot of the span, mark the faculty member and the room(s) busy
      and write the anchor or continuation cell. */
  method Commit(l: Ledger, g: Grid, x: Session) returns (l': Ledger, g': Grid)
    requires WellPlaced(x) && |g| == NumDays && |g[x.day]| == NumSlots
    requires x.faculty in l.professors && |l.professors[x.faculty]| == NumDays
    requires forall r :: r in x.rooms ==> r in l.rooms && |l.rooms[r]| == NumDays
    ensures LedgerStamped(l, l', x, Duration(x.kind))
    ensures GridStamped(g, g', x, Duration(x.kind))
  {
    l', g' := l, g;
    var i := 0;
    while i < Duration(x.kind)
      invariant 0 <= i <= Duration(x.kind)
      invariant LedgerStamped(l, l', x, i)
      invariant GridStamped(g, g', x, i)
    {
      l', g' := MarkSlot(l, g, l', g', x, i);
      i := i + 1;
    }
  }

  /** One iteration of the commit loop, on slot start + i: the faculty member, then the room
      (for a lab, both lab rooms) are marked busy and the cell is written. */
  method MarkSlot(ghost l0: Ledger, ghost g0: Grid, l: Ledger, g: Grid, x: Session, i: nat)
    returns (l': Ledger, g': Grid)
    requires WellPlaced(x) && |g0| == NumDays && |g0[x.day]| == NumSlots && i < Duration(x.kind)
    requires x.faculty in l0.professors && |l0.professors[x.faculty]| == NumDays
    requires forall r :: r in x.rooms ==> r in l0.rooms && |l0.rooms[r]| == NumDays
    requires LedgerStamped(l0, l, x, i) && GridStamped(g0, g, x, i)
    ensures LedgerStamped(l0, l', x, i + 1) && GridStamped(g0, g', x, i + 1)
  {
    var slot := x.start + i;
    var professors := MarkIn(l.professors, x.faculty, x.day, slot);
    var rooms := MarkIn(l.rooms, x.rooms[0], x.day, slot);
    if x.kind == LAB {
      rooms := MarkIn(rooms, x.rooms[1], x.day, slot);
    }
    l' := Ledger(professors, rooms);
    g' := g[x.day := g[x.day][slot := CellAt(x, slot)]];
    CommitStep(l0, g0, x, i, l, g, l', g');
  }

  /** One iteration of the commit loop extends the stamp from i slots to i + 1. */
  lemma CommitStep(l: Ledger, g: Grid, x: Session, i: nat, l1: Ledger, g1: Grid, l2: Ledger, g2: Grid)
    requires WellPlaced(x) && |g| == NumDays && |g[x.day]| == NumSlots && i < Duration(x.kind)
    requires x.faculty in l.professors && |l.professors[x.faculty]| == NumDays
    requires forall r :: r in x.rooms ==> r in l.rooms && |l.rooms[r]| == NumDays
    requires LedgerStamped(l, l1, x, i) && GridStamped(g, g1, x, i)
    requires l2.professors == MarkIn(l1.professors, x.faculty, x.day, x.start + i)
    requires l2.rooms == if x.kind == LAB then MarkIn(MarkIn(l1.rooms, x.rooms[0], x.day, x.start + i), x.rooms[1], x.day, x.start + i)
                         else MarkIn(l1.rooms, x.rooms[0], x.day, x.start + i)
    requires g2 == g1[x.day := g1[x.day][x.start + i := CellAt(x, x.start + i)]]
    ensures LedgerStamped(l, l2, x, i + 1) && GridStamped(g, g2, x, i + 1)
  {
    var slot := x.start + i;
    SpanSetStep(x.start, i);
    MarkOneKey(l.professors, l1.professors, x.faculty, x.day, SpanSet(x.start, i), slot, SpanSet(x.start, i + 1));
    if x.kind == LAB {
      assert x.rooms == [x.rooms[0], x.rooms[1]];
      MarkTwoKeys(l.rooms, l1.rooms, x.rooms[0], x.rooms[1], x.day, SpanSet(x.start, i), slot, SpanSet(x.start, i + 1));
    } else {
      assert x.rooms == [x.rooms[0]];
      MarkOneKey(l.rooms, l1.rooms, x.rooms[0], x.day, SpanSet(x.start, i), slot, SpanSet(x.start, i + 1));
    }
    GridStampStep(g, g1, x, i);
  }

  lemma SpanSetStep(start: int, n: nat)
    ensures SpanSet(start, n + 1) == SpanSet(start, n) + {start + n}
  {
  }

  /** Marking one slot for one key extends its stamped span by that slot. */
  lemma MarkOneKey(m: map<string, Week>, m1: map<string, Week>, k0: string, day: int,
                   span: set<int>, slot: int, span': set<int>)
    requires WeeksStamped(m, m1, [k0], day, span) && k0 in m && 0 <= day < |m[k0]|
    requires span' == span + {slot}
    ensures WeeksStamped(m, MarkIn(m1, k0, day, slot), [k0], day, span')
  {
  }

  /** Marking one slot for each of two keys (possibly the same) extends their stamped span. */
  lemma MarkTwoKeys(m: map<string, Week>, m1: map<string, Week>, k0: string, k1: string, day: int,
                    span: set<int>, slot: int, span': set<int>)
    requires WeeksStamped(m, m1, [k0, k1], day, span)
    requires k0 in m && 0 <= day < |m[k0]| && k1 in m && 0 <= day < |m[k1]|
    requires span' == span + {slot}
    ensures WeeksStamped(m, MarkIn(MarkIn(m1, k0, day, slot), k1, day, slot), [k0, k1], day, span')
  {
  }

  /** Writing the cell of slot start + n extends a stamp of n cells to n + 1. */
  lemma GridStampStep(g: Grid, g': Grid, x: Session, n: nat)
    requires GridStamped(g, g', x, n) && 0 <= x.day < |g| && 0 <= x.start + n < |g[x.day]|
    ensures GridStamped(g, g'[x.day := g'[x.day][x.start + n := CellAt(x, x.start + n)]], x, n + 1)
  {
  }

  /** A clear span of a lecture or lab holds no break slot; a tutorial's start was checked
      separately. */
  lemma ClearSpanAvoidsBreaks(l: Ledger, g: Grid, x: Session)
    requires LedgerShaped(l) && GridShaped(g) && x.faculty in l.professors && WellPlaced(x)
    requires forall s :: x.start <= s < End(x) ==> SlotClear(l, g, x.kind, x.faculty, x.rooms, x.day, s)
    requires x.kind == TUT ==> !IsBreak(x.start)
    ensures BreakChecked(x)
  {
    if x.kind != TUT {
      forall i | x.start <= i < End(x)
        ensures !IsBreak(i)
      {
        assert SlotClear(l, g, x.kind, x.faculty, x.rooms, x.day, i);
      }
    }
  }

  /** Only a tutorial's start slot is checked against the breaks, so a tutorial that passes the
      test still covers a break slot exactly when it starts at slot 2 or 7. */
  lemma TutorialCoversBreak(x: Session)
    requires WellPlaced(x) && x.kind == TUT && BreakChecked(x)
    ensures (exists i :: x.start <= i < End(x) && IsBreak(i)) <==> (x.start == 2 || x.start == 7)
  {
    BreakSlotsAreThreeEightNine(x.start);
    BreakSlotsAreThreeEightNine(x.start + 1);
    if x.start == 2 || x.start == 7 {
      assert IsBreak(x.start + 1);
    }
  }

  /** A ledger that only grew still records what it recorded. */
  lemma RecordedKept(l: Ledger, l': Ledger, y: Session, x: Session, n: nat)
    requires LedgerStamped(l, l', x, n) && Recorded(l, y)
    ensures Recorded(l', y)
  {
  }

  /** Stamping a well-placed session keeps every ledger slot inside the day. */
  lemma StampKeepsShape(l: Ledger, l': Ledger, x: Session)
    requires LedgerShaped(l) && WellPlaced(x) && LedgerStamped(l, l', x, Duration(x.kind))
    ensures LedgerShaped(l')
  {
  }

  /** A session whose span was clear cannot overlap a recorded, shown session on a shared
      faculty member, room or grid. */
  lemma ClearSpanNoClash(l: Ledger, g: Grid, a: Session, x: Session)
    requires LedgerShaped(l) && GridShaped(g) && WellPlaced(a) && WellPlaced(x)
    requires x.faculty in l.professors && Recorded(l, a)
    requires a.section == x.section ==> Shown(g, a)
    requires forall s :: x.start <= s < End(x) ==> SlotClear(l, g, x.kind, x.faculty, x.rooms, x.day, s)
    ensures NoClash(a, x)
  {
    if Overlap(a, x) {
      // m is a slot both sessions hold
      var m := if a.start < x.start then x.start else a.start;
      assert SlotClear(l, g, x.kind, x.faculty, x.rooms, x.day, m);
      assert forall r :: r in a.rooms ==> m in l.rooms[r][a.day];
    }
  }

  /** The gap rule admitted x against a, a session of the same faculty member in this grid. */
  lemma AdmittedGapKept(l: Ledger, g: Grid, a: Session, x: Session)
    requires LedgerShaped(l) && GridShaped(g) && WellPlaced(a) && WellPlaced(x)
    requires x.faculty in l.professors && Recorded(l, a)
    requires a.section == x.section ==> Shown(g, a)
    requires SlotClear(l, g, x.kind, x.faculty, x.rooms, x.day, x.start)
    requires InRow(l.professors[x.faculty][x.day], g[x.day])
    requires GapAdmits(l.professors[x.faculty][x.day], g[x.day], x.start, Duration(x.kind))
    ensures GapKept(a, x)
  {
    if a.section == x.section && a.faculty == x.faculty && a.day == x.day {
      var occupied, row := l.professors[x.faculty][x.day], g[x.day];
      forall i | a.start <= i < a.start + Duration(a.kind)
        ensures i in occupied && row[i].kind == Some(a.kind)
      {
        assert g[a.day][i] == CellAt(a, i);
      }
      AdmittedSessionKeepsGap(occupied, row, x.start, Duration(x.kind), a.start, Duration(a.kind), a.kind);
      OnlyLabsLastFourSlots(x.kind);
    }
  }

  /** Committing a session that passed every check keeps the ledger invariant. */
  lemma CommitKeepsLedgerInv(l: Ledger, g: Grid, log: seq<Session>, section: nat, x: Session, l': Ledger)
    requires LedgerInv(l, log) && GridInv(g, log, section)
    requires WellPlaced(x) && BreakChecked(x) && x.section == section && x.faculty in l.professors
    requires forall s :: x.start <= s < End(x) ==> SlotClear(l, g, x.kind, x.faculty, x.rooms, x.day, s)
    requires InRow(l.professors[x.faculty][x.day], g[x.day])
    requires GapAdmits(l.professors[x.faculty][x.day], g[x.day], x.start, Duration(x.kind))
    requires LedgerStamped(l, l', x, Duration(x.kind))
    ensures LedgerInv(l', log + [x])
  {
    assert SlotClear(l, g, x.kind, x.faculty, x.rooms, x.day, x.start);
    StampKeepsShape(l, l', x);
    forall k | 0 <= k < |log|
      ensures Recorded(l', log[k]) && NoClash(log[k], x) && GapKept(log[k], x)
    {
      RecordedKept(l, l', log[k], x, Duration(x.kind));
      ClearSpanNoClash(l, g, log[k], x);
      AdmittedGapKept(l, g, log[k], x);
    }
    assert Recorded(l', x);
    CommitKeepsLedgerExact(l, log, x, l');
    LedgerInvAppend(l, l', log, x);
  }

  /** The ledger invariant of log + [x], gathered from its parts: the old log's pairwise facts,
      each old session and x recorded in l', and x clashing with none of them. */
  lemma LedgerInvAppend(l: Ledger, l': Ledger, log: seq<Session>, x: Session)
    requires LedgerInv(l, log) && LedgerShaped(l')
    requires forall k :: 0 <= k < |log| ==> Recorded(l', log[k]) && NoClash(log[k], x) && GapKept(log[k], x)
    requires WellPlaced(x) && BreakChecked(x) && Recorded(l', x)
    requires l' == LedgerAfter(Blank(l'), log + [x])
    ensures LedgerInv(l', log + [x])
  {
    var log' := log + [x];
    forall k | 0 <= k < |log'|
      ensures WellPlaced(log'[k]) && BreakChecked(log'[k]) && Recorded(l', log'[k])
    {
      if k < |log| {
        assert log'[k] == log[k];
      }
    }
    forall j, k | 0 <= j < k < |log'|
      ensures NoClash(log'[j], log'[k]) && GapKept(log'[j], log'[k])
    {
      assert log'[j] == log[j];
      if k < |log| {
        assert log'[k] == log[k];
      } else {
        assert k == |log|;
      }
    }
  }

  /** Stamping x onto the replay of the log is the replay of the log with x appended. */
  lemma CommitKeepsLedgerExact(l: Ledger, log: seq<Session>, x: Session, l': Ledger)
    requires l == LedgerAfter(Blank(l), log)
    requires LedgerStamped(l, l', x, Duration(x.kind))
    ensures l' == LedgerAfter(Blank(l'), log + [x])
  {
    LedgerStampedExactly(l, l', x);
    BlankOfSameKeys(l, l');
    ReplayOneMore(Blank(l), EmptyGrid(), log, x, 0);
  }

  lemma BlankOfSameKeys(l: Ledger, l': Ledger)
    requires l'.professors.Keys == l.professors.Keys && l'.rooms.Keys == l.rooms.Keys
    ensures Blank(l') == Blank(l)
  {
  }

  /** Writing a session over empty cells keeps every shown session shown. */
  lemma CommitKeepsGridInv(g: Grid, log: seq<Session>, section: nat, x: Session, g': Grid)
    requires GridInv(g, log, section)
    requires WellPlaced(x) && x.section == section
    requires forall s :: x.start <= s < End(x) ==> g[x.day][s].kind.None?
    requires GridStamped(g, g', x, Duration(x.kind))
    ensures GridInv(g', log + [x], section)
  {
    forall k | 0 <= k < |log| && log[k].section == section
      ensures Shown(g', log[k])
    {
      StampKeepsShown(g, g', log[k], x);
    }
    GridStampedExactly(g, g', x);
    ReplayOneMore(Blank(Ledger(map[], map[])), EmptyGrid(), log, x, section);
    GridInvAppend(g', log, x, section);
  }

  /** A shown session stays shown when x is written over empty cells. */
  lemma StampKeepsShown(g: Grid, g': Grid, a: Session, x: Session)
    requires Shown(g, a) && GridShaped(g)
    requires forall s :: x.start <= s < End(x) ==> 0 <= x.day < |g| && 0 <= s < |g[x.day]| && g[x.day][s].kind.None?
    requires GridStamped(g, g', x, Duration(x.kind))
    ensures Shown(g', a)
  {
    assert |g'[a.day]| == |g[a.day]|;
    forall i | a.start <= i < End(a)
      ensures g'[a.day][i] == CellAt(a, i)
    {
      assert g[a.day][i] == CellAt(a, i);
    }
  }

  /** The grid invariant of log + [x], gathered from its parts. */
  lemma GridInvAppend(g': Grid, log: seq<Session>, x: Session, section: nat)
    requires GridShaped(g') && x.section == section && Shown(g', x)
    requires forall k :: 0 <= k < |log| && log[k].section == section ==> Shown(g', log[k])
    requires g' == GridAfter(EmptyGrid(), log + [x], section)
    ensures GridInv(g', log + [x], section)
  {
    var log' := log + [x];
    forall k | 0 <= k < |log'| && log'[k].section == section
      ensures Shown(g', log'[k])
    {
      if k < |log| {
        assert log'[k] == log[k];
      } else {
        assert k == |log|;
      }
    }
  }

  /** Committing a session that passed every check keeps both invariants. */
  lemma CommitKeepsInvariants(l: Ledger, g: Grid, log: seq<Session>, section: nat,
                              x: Session, l': Ledger, g': Grid)
    requires LedgerInv(l, log) && GridInv(g, log, section)
    requires WellPlaced(x) && BreakChecked(x) && x.section == section && x.faculty in l.professors
    requires forall s :: x.start <= s < End(x) ==> SlotClear(l, g, x.kind, x.faculty, x.rooms, x.day, s)
    requires InRow(l.professors[x.faculty][x.day], g[x.day])
    requires GapAdmits(l.professors[x.faculty][x.day], g[x.day], x.start, Duration(x.kind))
    requires LedgerStamped(l, l', x, Duration(x.kind)) && GridStamped(g, g', x, Duration(x.kind))
    ensures LedgerInv(l', log + [x]) && GridInv(g', log + [x], section)
  {
    CommitKeepsLedgerInv(l, g, log, section, x, l');
    forall s | x.start <= s < End(x)
      ensures g[x.day][s].kind.None?
    {
      assert SlotClear(l, g, x.kind, x.faculty, x.rooms, x.day, s);
    }
    CommitKeepsGridInv(g, log, section, x, g');
  }

  /** A draw v reduced into 0 .. n - 1 by repeated subtraction of n. */
  function Reduce(v: nat, n: nat): (r: nat)
    requires n > 0
    ensures r < n
    decreases v
  {
    if v < n then v else Reduce(v - n, n)
  }

  /** random.choice(xs) and random.randint(0, n - 1): the next draw of the generator, reduced
      into range. */
  function Choose(draws: nat -> nat, cursor: nat, n: nat): (v: nat)
    requires n > 0
    ensures v < n
  {
    Reduce(draws(cursor), n)
  }

  /** Any in-range choice arises from some stream of draws: one that draws v itself. */
  lemma ChooseAnyInRange(draws: nat -> nat, cursor: nat, n: nat, v: nat)
    requires v < n && draws(cursor) == v
    ensures Choose(draws, cursor, n) == v
  {
  }

  /** Everything a committed session x has passed, and how it was written into the ledger and grid. */
  ghost predicate Admitted(l: Ledger, g: Grid, l': Ledger, g': Grid, x: Session)
    requires LedgerShaped(l) && GridShaped(g) && WellPlaced(x) && x.faculty in l.professors
  {
    && BreakChecked(x)
    && (forall s :: x.start <= s < End(x) ==> SlotClear(l, g, x.kind, x.faculty, x.rooms, x.day, s))
    && InRow(l.professors[x.faculty][x.day], g[x.day])
    && GapAdmits(l.professors[x.faculty][x.day], g[x.day], x.start, Duration(x.kind))
    && LedgerStamped(l, l', x, Duration(x.kind)) && GridStamped(g, g', x, Duration(x.kind))
  }

  /** What one attempt at (day, start) comes to: a tutorial drawn onto a break slot is rejected
      at once; otherwise the span test decides, a missing room key ending the run, and a clear
      span is placed exactly when the gap rule admits it. Exhausted stands for a rejection. */
  function Verdict(l: Ledger, g: Grid, req: Request, day: int, start: int): (o: Outcome)
    requires LedgerShaped(l) && GridShaped(g) && req.faculty in l.professors && |req.rooms| == RoomCount(req.kind)
    requires 0 <= day < NumDays && 0 <= start <= NumSlots - Duration(req.kind)
    ensures o.Placed? ==> o == Placed(day, start)
    ensures o.MissingRoom? ==> o.room in req.rooms && o.room !in l.rooms
  {
    if req.kind == TUT && IsBreak(start) then Exhausted
    else
      match ProbeSpan(l, g, req.kind, req.faculty, req.rooms, day, start, 0)
      case Unknown(room) => MissingRoom(room)
      case Busy => Exhausted
      case Free =>
        if GapAdmits(l.professors[req.faculty][day], g[day], start, Duration(req.kind)) then Placed(day, start)
        else Exhausted
  }

  /** An attempt places its candidate exactly when a tutorial is not drawn onto a break slot,
      every slot of the span is clear, and the gap rule admits it. */
  lemma VerdictPlacedIff(l: Ledger, g: Grid, req: Request, day: int, start: int)
    requires LedgerShaped(l) && GridShaped(g) && req.faculty in l.professors && |req.rooms| == RoomCount(req.kind)
    requires 0 <= day < NumDays && 0 <= start <= NumSlots - Duration(req.kind)
    ensures Verdict(l, g, req, day, start).Placed? <==>
      && !(req.kind == TUT && IsBreak(start))
      && (forall s :: start <= s < start + Duration(req.kind) ==> SlotClear(l, g, req.kind, req.faculty, req.rooms, day, s))
      && GapAdmits(l.professors[req.faculty][day], g[day], start, Duration(req.kind))
  {
    ProbeSpanFreeIffClear(l, g, req.kind, req.faculty, req.rooms, day, start, 0);
  }

  /** The (day, start) drawn in attempt a, whose draws start at position `at` of the stream: the
      day from the preferred days in the first 500 attempts of a lab or lecture and from the whole
      week otherwise, then a start slot that fits before the end of the day. */
  function Candidate(draws: nat -> nat, at: nat, a: nat, preferred: seq<int>, kind: Kind): (c: (int, int))
    requires |preferred| > 0 && forall d :: d in preferred ==> 0 <= d < NumDays
    ensures 0 <= c.0 < NumDays && 0 <= c.1 <= NumSlots - Duration(kind)
    ensures kind != TUT && a < PreferredAttempts ==> c.0 in preferred
  {
    var i := Choose(draws, at, |preferred|);
    assert preferred[i] in preferred;
    var day := if kind != TUT && a < PreferredAttempts then preferred[i] else Choose(draws, at, NumDays);
    (day, Choose(draws, at + 1, NumSlots - Duration(kind) + 1))
  }

  /** The verdict on attempt a of an instance whose draws start at `cursor`: two draws per attempt. */
  function AttemptVerdict(l: Ledger, g: Grid, req: Request, draws: nat -> nat, cursor: nat,
                          preferred: seq<int>, a: nat): Outcome
    requires LedgerShaped(l) && GridShaped(g) && req.faculty in l.professors && |req.rooms| == RoomCount(req.kind)
    requires |preferred| > 0 && forall d :: d in preferred ==> 0 <= d < NumDays
  {
    var c := Candidate(draws, cursor + 2 * a, a, preferred, req.kind);
    Verdict(l, g, req, c.0, c.1)
  }

  /** A search over the verdicts v(a), v(a + 1), ...: how many attempts it makes and what the
      last one comes to. The first verdict that is not a rejection ends it, and after 1000
      rejections it is exhausted. */
  function FirstOf(v: nat -> Outcome, a: nat): (r: (nat, Outcome))
    requires a <= MaxAttempts
    ensures a <= r.0 <= MaxAttempts && (a < MaxAttempts ==> a < r.0)
    decreases MaxAttempts - a
  {
    if a == MaxAttempts then (MaxAttempts, Exhausted)
    else if !v(a).Exhausted? then (a + 1, v(a))
    else FirstOf(v, a + 1)
  }

  /** The search stops at the first verdict that is not a rejection: every verdict before its last
      attempt is a rejection, its outcome is the verdict on its last attempt, and it is exhausted
      only after all 1000 attempts. */
  lemma {:induction false} FirstOfIsFirst(v: nat -> Outcome, a: nat)
    requires a < MaxAttempts
    ensures var r := FirstOf(v, a);
      && (forall b :: a <= b < r.0 - 1 ==> v(b).Exhausted?)
      && r.1 == v(r.0 - 1)
      && (r.1.Exhausted? ==> r.0 == MaxAttempts)
    decreases MaxAttempts - a
  {
    if v(a).Exhausted? && a + 1 < MaxAttempts {
      FirstOfIsFirst(v, a + 1);
    }
  }

  /** The verdicts on the successive attempts of an instance whose draws start at `cursor`. */
  function Verdicts(l: Ledger, g: Grid, req: Request, draws: nat -> nat, cursor: nat, preferred: seq<int>): nat -> Outcome
    requires LedgerShaped(l) && GridShaped(g) && req.faculty in l.professors && |req.rooms| == RoomCount(req.kind)
    requires |preferred| > 0 && forall d :: d in preferred ==> 0 <= d < NumDays
  {
    (a: nat) => AttemptVerdict(l, g, req, draws, cursor, preferred, a)
  }

  /** The attempts an instance makes and what the last one comes to, counting from attempt a. */
  function FirstAdmitted(l: Ledger, g: Grid, req: Request, draws: nat -> nat, cursor: nat,
                         preferred: seq<int>, a: nat): (r: (nat, Outcome))
    requires LedgerShaped(l) && GridShaped(g) && req.faculty in l.professors && |req.rooms| == RoomCount(req.kind)
    requires |preferred| > 0 && forall d :: d in preferred ==> 0 <= d < NumDays
    requires a <= MaxAttempts
    ensures a <= r.0 <= MaxAttempts && (a < MaxAttempts ==> a < r.0)
  {
    FirstOf(Verdicts(l, g, req, draws, cursor, preferred), a)
  }

  /** The search of an instance stops at its first attempt that is not rejected: every attempt
      before its last one is rejected, its outcome is the verdict on its last attempt, and it is
      exhausted only after all 1000 attempts. */
  lemma FirstAdmittedIsFirst(l: Ledger, g: Grid, req: Request, draws: nat -> nat, cursor: nat,
                             preferred: seq<int>, a: nat)
    requires LedgerShaped(l) && GridShaped(g) && req.faculty in l.professors && |req.rooms| == RoomCount(req.kind)
    requires |preferred| > 0 && forall d :: d in preferred ==> 0 <= d < NumDays
    requires a < MaxAttempts
    ensures var r := FirstAdmitted(l, g, req, draws, cursor, preferred, a);
      var v := Verdicts(l, g, req, draws, cursor, preferred);
      && (forall b :: a <= b < r.0 - 1 ==> v(b).Exhausted?)
      && r.1 == v(r.0 - 1)
      && (r.1.Exhausted? ==> r.0 == MaxAttempts)
  {
    FirstOfIsFirst(Verdicts(l, g, req, draws, cursor, preferred), a);
  }

  /** One instance: up to 1000 attempts, each drawing a day (from the preferred days in the first
      500 attempts for labs and lectures) and a start slot that fits before the end of the day;
      a tutorial drawn onto a break slot is rejected at once; the first admitted candidate is
      committed and ends the attempts, as does a missing room key. */
  method PlaceInstance(l: Ledger, g: Grid, ghost log: seq<Session>, section: nat,
                       draws: nat -> nat, cursor: nat, req: Request, preferred: seq<int>)
    returns (l': Ledger, g': Grid, ghost log': seq<Session>, cursor': nat, outcome: Outcome, attempts: nat)
    requires LedgerInv(l, log) && GridInv(g, log, section)
    requires req.faculty in l.professors && |req.rooms| == RoomCount(req.kind)
    requires |preferred| > 0 && forall d :: d in preferred ==> 0 <= d < NumDays
    ensures (attempts, outcome) == FirstAdmitted(l, g, req, draws, cursor, preferred, 0)
    ensures 1 <= attempts && cursor' == cursor + 2 * attempts
    ensures LedgerInv(l', log') && GridInv(g', log', section)
    ensures l'.professors.Keys == l.professors.Keys && l'.rooms.Keys == l.rooms.Keys
    ensures outcome.Placed? ==>
      var x := SessionOf(req, section, outcome.day, outcome.start);
      && log' == log + [x] && WellPlaced(x) && Admitted(l, g, l', g', x)
      && (req.kind != TUT && attempts <= PreferredAttempts ==> outcome.day in preferred)
    ensures !outcome.Placed? ==> l' == l && g' == g && log' == log
    ensures outcome.MissingRoom? ==> outcome.room in req.rooms && outcome.room !in l.rooms
  {
    var day, start;
    cursor', attempts, outcome, day, start := Search(l, g, draws, cursor, req, preferred);
    l', g', log' := l, g, log;
    if outcome.Placed? {
      l', g', log' := Place(l, g, log, section, req, day, start);
    }
  }

  /** The attempt loop of PlaceInstance: attempts until one is not rejected or 1000 are made,
      two draws each; the candidate of the last attempt is returned with its verdict. */
  method Search(l: Ledger, g: Grid, draws: nat -> nat, cursor: nat, req: Request, preferred: seq<int>)
    returns (cursor': nat, attempts: nat, outcome: Outcome, day: int, start: int)
    requires LedgerShaped(l) && GridShaped(g) && req.faculty in l.professors && |req.rooms| == RoomCount(req.kind)
    requires |preferred| > 0 && forall d :: d in preferred ==> 0 <= d < NumDays
    ensures (attempts, outcome) == FirstAdmitted(l, g, req, draws, cursor, preferred, 0)
    ensures cursor' == cursor + 2 * attempts
    ensures 0 <= day < NumDays && 0 <= start <= NumSlots - Duration(req.kind)
    ensures !outcome.Exhausted? ==> outcome == Verdict(l, g, req, day, start)
    ensures !outcome.Exhausted? && req.kind != TUT && attempts <= PreferredAttempts ==> day in preferred
  {
    cursor', attempts, outcome := cursor, 0, Exhausted;
    day, start := 0, 0;
    while attempts < MaxAttempts && outcome.Exhausted?
      invariant attempts <= MaxAttempts && cursor' == cursor + 2 * attempts
      invariant FirstAdmitted(l, g, req, draws, cursor, preferred, 0) ==
        if outcome.Exhausted? then FirstAdmitted(l, g, req, draws, cursor, preferred, attempts) else (attempts, outcome)
      invariant 0 <= day < NumDays && 0 <= start <= NumSlots - Duration(req.kind)
      invariant !outcome.Exhausted? ==> outcome == Verdict(l, g, req, day, start)
      invariant !outcome.Exhausted? && req.kind != TUT && attempts <= PreferredAttempts ==> day in preferred
    {
      outcome, day, start := Attempt(l, g, draws, cursor, cursor', attempts, req, preferred);
      cursor', attempts := cursor' + 2, attempts + 1;
    }
  }

  /** One pass of the attempt loop: draw the day, then the start slot, from position `at` of the
      stream; reject a tutorial on a break slot at once, otherwise try the candidate. Nothing is
      written. */
  method Attempt(l: Ledger, g: Grid, draws: nat -> nat, ghost cursor: nat, at: nat, a: nat,
                 req: Request, preferred: seq<int>)
    returns (outcome: Outcome, day: int, start: int)
    requires LedgerShaped(l) && GridShaped(g) && req.faculty in l.professors && |req.rooms| == RoomCount(req.kind)
    requires |preferred| > 0 && forall d :: d in preferred ==> 0 <= d < NumDays
    requires at == cursor + 2 * a
    ensures (day, start) == Candidate(draws, at, a, preferred, req.kind)
    ensures outcome == AttemptVerdict(l, g, req, draws, cursor, preferred, a) == Verdict(l, g, req, day, start)
  {
    var dur := Duration(req.kind);
    if req.kind != TUT && a < PreferredAttempts {
      var i := Choose(draws, at, |preferred|);
      day := preferred[i];
    } else {
      day := Choose(draws, at, NumDays);
    }
    start := Choose(draws, at + 1, NumSlots - dur + 1);
    assert (day, start) == Candidate(draws, at, a, preferred, req.kind);
    if req.kind == TUT && IsBreak(start) {
      outcome := Exhausted;
    } else {
      outcome := TryAt(l, g, req, day, start);
    }
  }

  /** One attempt at (day, start): the span test over the faculty, room and grid, then the gap
      rule. Exhausted here stands for a rejected attempt. */
  method TryAt(l: Ledger, g: Grid, req: Request, day: int, start: int) returns (outcome: Outcome)
    requires LedgerShaped(l) && GridShaped(g) && req.faculty in l.professors && |req.rooms| == RoomCount(req.kind)
    requires 0 <= day < NumDays && 0 <= start <= NumSlots - Duration(req.kind)
    requires req.kind == TUT ==> !IsBreak(start)
    ensures outcome == Verdict(l, g, req, day, start)
  {
    var probe := SlotsFree(l, g, req.kind, req.faculty, req.rooms, day, start);
    if probe.Unknown? {
      outcome := MissingRoom(probe.room);
    } else if probe.Free? {
      var ok := CheckProfessorConstraint(l.professors, req.faculty, day, start, Duration(req.kind), g);
      outcome := if ok then Placed(day, start) else Exhausted;
    } else {
      outcome := Exhausted;
    }
  }

  /** Commits the admitted candidate (day, start): its session is written into the ledger and the
      grid and joins the log, and both invariants hold over the longer log. */
  method Place(l: Ledger, g: Grid, ghost log: seq<Session>, section: nat, req: Request, day: int, start: int)
    returns (l': Ledger, g': Grid, ghost log': seq<Session>)
    requires LedgerInv(l, log) && GridInv(g, log, section)
    requires req.faculty in l.professors && |req.rooms| == RoomCount(req.kind)
    requires 0 <= day < NumDays && 0 <= start <= NumSlots - Duration(req.kind)
    requires Verdict(l, g, req, day, start).Placed?
    ensures LedgerInv(l', log') && GridInv(g', log', section)
    ensures l'.professors.Keys == l.professors.Keys && l'.rooms.Keys == l.rooms.Keys
    ensures var x := SessionOf(req, section, day, start);
      log' == log + [x] && WellPlaced(x) && Admitted(l, g, l', g', x)
  {
    var x := SessionOf(req, section, day, start);
    PlacedIsClear(l, g, req, section, day, start);
    l', g' := Commit(l, g, x);
    CommitKeepsInvariants(l, g, log, section, x, l', g');
    log' := log + [x];
  }

  /** A candidate whose verdict is Placed passed every check Commit and the invariants need. */
  lemma PlacedIsClear(l: Ledger, g: Grid, req: Request, section: nat, day: int, start: int)
    requires LedgerShaped(l) && GridShaped(g) && req.faculty in l.professors && |req.rooms| == RoomCount(req.kind)
    requires 0 <= day < NumDays && 0 <= start <= NumSlots - Duration(req.kind)
    requires Verdict(l, g, req, day, start).Placed?
    ensures var x := SessionOf(req, section, day, start);
      && WellPlaced(x) && BreakChecked(x) && x.section == section && x.faculty in l.professors
      && |g| == NumDays && |g[x.day]| == NumSlots && |l.professors[x.faculty]| == NumDays
      && (forall r :: r in x.rooms ==> r in l.rooms && |l.rooms[r]| == NumDays)
      && (forall s :: x.start <= s < End(x) ==> SlotClear(l, g, x.kind, x.faculty, x.rooms, x.day, s))
      && InRow(l.professors[x.faculty][x.day], g[x.day])
      && GapAdmits(l.professors[x.faculty][x.day], g[x.day], x.start, Duration(x.kind))
  {
    VerdictPlacedIff(l, g, req, day, start);
    var x := SessionOf(req, section, day, start);
    assert SlotClear(l, g, req.kind, req.faculty, req.rooms, day, start);
    ClearSpanAvoidsBreaks(l, g, x);
  }

  /** The gap rule is kept per section grid: one faculty member may teach two lectures back to back
      on one day when they are in different sections. Lecture a (section 0, slots 0-2) leaves the
      member's day-0 ledger entry at {0, 1, 2}; section 1's grid is still empty, so the check
      admits lecture b at slot 3, the slot where a ends. */
  lemma CrossSectionBackToBack(f: string)
    ensures var a := Session(0, "A", "Course A", f, ["R1"], "R1", LEC, 0, 0);
            var b := Session(1, "B", "Course B", f, ["R2"], "R2", LEC, 0, 3);
            && NoClash(a, b) && GapKept(a, b) && WellPlaced(a) && WellPlaced(b)
            && End(a) == b.start && Abs(b.start - a.start) < MinGapSlots
            && SpanSet(a.start, Duration(a.kind)) == {0, 1, 2}
            && InRow(SpanSet(0, 3), EmptyGrid()[0])
            && GapAdmits(SpanSet(0, 3), EmptyGrid()[0], 3, 3)
  {
    var a := Session(0, "A", "Course A", f, ["R1"], "R1", LEC, 0, 0);
    var b := Session(1, "B", "Course B", f, ["R2"], "R2", LEC, 0, 3);
    assert !SharesRoom(a, b) by {
      forall r | r in a.rooms ensures r !in b.rooms {
        assert r == "R1";
      }
    }
    var row := EmptyGrid()[0];
    forall s | s in SpanSet(0, 3) ensures SlotAdmits(SpanSet(0, 3), row, 3, 3, s) {
      assert row[s].kind.None?;
    }
  }
}

=== FILE: readback.dfy ===
/** What the audit reads back from the grids the allocator wrote: every committed session whose
    code is a single word is credited, under its code, exactly once with the hours of its kind,
    and nothing else is credited. */
module Readback {
  import opened Wrappers
  import opened Calendar
  import opened Sessions
  import opened Timetable
  import opened CellText
  import opened Placement
  import opened Audit
  import opened HourSums

  /** The cells credit code c the hours hs, cell by cell. */
  predicate CreditsAre(cells: seq<string>, hs: seq<Hours>, c: string) {
    |cells| == |hs| && forall i :: 0 <= i < |cells| ==> CellCreditTo(cells[i], c) == hs[i]
  }

  lemma {:induction false} CreditsAreSum(cells: seq<string>, hs: seq<Hours>, c: string)
    requires CreditsAre(cells, hs, c)
    ensures CodeCredit(cells, c) == Sum(hs)
  {
    if cells != [] {
      CreditsAreSum(cells[..|cells| - 1], hs[..|hs| - 1], c);
    }
  }

  /** Every code written in the grid is a single word (or empty). */
  predicate CodesOneWord(g: Grid)
    requires GridShaped(g)
  {
    forall d, s :: 0 <= d < NumDays && 0 <= s < NumSlots ==> NoSpace(g[d][s].code)
  }

  /** What the audit credits code c for slot (d, s): the hours of the session anchored there when
      it is c's, and the slot is not a break. */
  function SlotCredit(g: Grid, d: nat, s: nat, c: string): Hours
    requires GridShaped(g) && d < NumDays && s < NumSlots
  {
    var cell := g[d][s];
    if !IsBreak(s) && cell.kind.Some? && cell.code != "" && cell.code == c then Credit(cell.kind.value) else NoHours
  }

  /** The slot credits of the first n slots of day d. */
  function RowCredits(g: Grid, d: nat, c: string, n: nat): (hs: seq<Hours>)
    requires GridShaped(g) && d < NumDays && n <= NumSlots
    ensures |hs| == n && forall s :: 0 <= s < n ==> hs[s] == SlotCredit(g, d, s, c)
  {
    if n == 0 then [] else RowCredits(g, d, c, n - 1) + [SlotCredit(g, d, n - 1, c)]
  }

  /** What the audit credits code c for each of the first n days of grid g. */
  function DayTotals(g: Grid, c: string, n: nat): (ts: seq<Hours>)
    requires GridShaped(g) && n <= NumDays
    ensures |ts| == n && forall d :: 0 <= d < n ==> ts[d] == Sum(RowCredits(g, d, c, NumSlots))
  {
    if n == 0 then [] else DayTotals(g, c, n - 1) + [Sum(RowCredits(g, n - 1, c, NumSlots))]
  }

  /** What the audit credits code c for each grid. */
  function GridTotals(grids: seq<Grid>, c: string): (ts: seq<Hours>)
    requires forall k :: 0 <= k < |grids| ==> GridShaped(grids[k])
    ensures |ts| == |grids| && forall k :: 0 <= k < |grids| ==> ts[k] == Sum(DayTotals(grids[k], c, NumDays))
  {
    if grids == [] then [] else GridTotals(grids[..|grids| - 1], c) + [Sum(DayTotals(grids[|grids| - 1], c, NumDays))]
  }

  /** The text of a grid slot credits c exactly SlotCredit, when codes are single words. */
  lemma RowCreditsRead(g: Grid, d: nat, c: string)
    requires GridShaped(g) && CodesOneWord(g) && d < NumDays
    ensures CreditsAre(RowText(g, d), RowCredits(g, d, c, NumSlots), c)
  {
    forall s | 0 <= s < NumSlots
      ensures CellCreditTo(RenderedCell(g, d, s), c) == SlotCredit(g, d, s, c)
    {
      RenderedCellCredit(g, d, s);
    }
  }

  /** Reading the text of the first n days credits each code the sum of its day totals. */
  lemma {:induction false} GridTotalRead(g: Grid, n: nat, c: string)
    requires GridShaped(g) && CodesOneWord(g) && n <= NumDays
    ensures CodeCredit(GridCells(g, n), c) == Sum(DayTotals(g, c, n))
  {
    if n > 0 {
      var row := RowText(g, n - 1);
      assert GridCells(g, n) == GridCells(g, n - 1) + row;
      assert DayTotals(g, c, n)[..n - 1] == DayTotals(g, c, n - 1);
      GridTotalRead(g, n - 1, c);
      RowCreditsRead(g, n - 1, c);
      CreditsAreSum(row, RowCredits(g, n - 1, c, NumSlots), c);
      CodeCreditAppend(GridCells(g, n - 1), row, c);
    }
  }

  /** Reading the text of all the sheets credits each code the sum of the grid totals. */
  lemma {:induction false} SheetTotalRead(grids: seq<Grid>, c: string)
    requires forall k :: 0 <= k < |grids| ==> GridShaped(grids[k]) && CodesOneWord(grids[k])
    ensures CodeCredit(SheetCells(grids), c) == Sum(GridTotals(grids, c))
  {
    if grids != [] {
      var init, last := grids[..|grids| - 1], grids[|grids| - 1];
      assert SheetCells(grids) == SheetCells(init) + GridCells(last, NumDays);
      assert GridTotals(grids, c)[..|grids| - 1] == GridTotals(init, c);
      SheetTotalRead(init, c);
      GridTotalRead(last, NumDays, c);
      CodeCreditAppend(SheetCells(init), GridCells(last, NumDays), c);
    }
  }

  /** What a committed session must be for the audit to read it back: placed inside the day,
      starting outside a break, under a code that is one non-empty word. */
  predicate Readable(x: Session) {
    WellPlaced(x) && BreakChecked(x) && x.code != "" && NoSpace(x.code)
  }

  /** The hours x credits to code c. */
  function SessionCreditTo(x: Session, c: string): Hours {
    if x.code == c then Credit(x.kind) else NoHours
  }

  /** The hours the sessions of `log` credit to code c. */
  function SessionCredit(log: seq<Session>, c: string): Hours {
    if log == [] then NoHours else Plus(SessionCredit(log[..|log| - 1], c), SessionCreditTo(log[|log| - 1], c))
  }

  /** Writing x over empty cells changes the slot credits of x's day only at x's start slot, where
      x's hours are added for x's code. */
  lemma StampRowCredits(g: Grid, x: Session, c: string)
    requires GridShaped(g) && Readable(x)
    requires forall i :: x.start <= i < End(x) ==> g[x.day][i] == EmptyCell
    ensures GridShaped(StampGrid(g, x))
    ensures Sum(RowCredits(StampGrid(g, x), x.day, c, NumSlots)) == Plus(Sum(RowCredits(g, x.day, c, NumSlots)), SessionCreditTo(x, c))
  {
    var g' := StampGrid(g, x);
    var a, b := RowCredits(g, x.day, c, NumSlots), RowCredits(g', x.day, c, NumSlots);
    forall s | 0 <= s < NumSlots && s != x.start
      ensures b[s] == a[s]
    {
      if x.start < s < End(x) {
        assert g'[x.day][s] == CellAt(x, s);
      }
    }
    assert g'[x.day][x.start] == CellAt(x, x.start);
    assert !IsBreak(x.start);
    assert a[x.start] == NoHours;
    assert b[x.start] == SessionCreditTo(x, c);
    NoHoursPlus(SessionCreditTo(x, c));
    SumOneChanged(a, b, x.start, SessionCreditTo(x, c));
  }

  /** Writing x over empty cells adds x's hours for x's code to day d's credits when d is x's day,
      and leaves them as they were otherwise. */
  lemma StampDayCredits(g: Grid, x: Session, d: nat, c: string)
    requires GridShaped(g) && Readable(x) && d < NumDays
    requires forall i :: x.start <= i < End(x) ==> g[x.day][i] == EmptyCell
    ensures GridShaped(StampGrid(g, x))
    ensures Sum(RowCredits(StampGrid(g, x), d, c, NumSlots)) ==
      Plus(Sum(RowCredits(g, d, c, NumSlots)), if d == x.day then SessionCreditTo(x, c) else NoHours)
  {
    if d == x.day {
      StampRowCredits(g, x, c);
    } else {
      var g' := StampGrid(g, x);
      assert g'[d] == g[d];
      assert RowCredits(g', d, c, NumSlots) == RowCredits(g, d, c, NumSlots);
      PlusNoHours(Sum(RowCredits(g, d, c, NumSlots)));
    }
  }

  /** Writing x over empty cells (g' is g with x written) adds x's hours for x's code to the
      grid's credits. */
  lemma StampGridCredits(g: Grid, g': Grid, x: Session, c: string)
    requires GridShaped(g) && Readable(x)
    requires forall i :: x.start <= i < End(x) ==> g[x.day][i] == EmptyCell
    requires g' == StampGrid(g, x)
    ensures GridShaped(g')
    ensures Sum(DayTotals(g', c, NumDays)) == Plus(Sum(DayTotals(g, c, NumDays)), SessionCreditTo(x, c))
  {
    StampDayCredits(g, x, x.day, c);
    var a, b := DayTotals(g, c, NumDays), DayTotals(g', c, NumDays);
    forall d | 0 <= d < NumDays && d != x.day
      ensures b[d] == a[d]
    {
      StampDayCredits(g, x, d, c);
      PlusNoHours(a[d]);
    }
    SumOneChanged(a, b, x.day, SessionCreditTo(x, c));
  }

  /** A day with no typed cell credits nothing. */
  lemma UntypedRowCredits(g: Grid, d: nat, c: string)
    requires GridShaped(g) && d < NumDays
    requires forall s :: 0 <= s < NumSlots ==> g[d][s].kind.None?
    ensures Sum(RowCredits(g, d, c, NumSlots)) == NoHours
  {
    SumOfNothing(RowCredits(g, d, c, NumSlots));
  }

  /** A grid with no typed cell credits nothing. */
  lemma UntypedGridCredits(g: Grid, c: string)
    requires GridShaped(g)
    requires forall e, s :: 0 <= e < NumDays && 0 <= s < NumSlots ==> g[e][s].kind.None?
    ensures Sum(DayTotals(g, c, NumDays)) == NoHours
  {
    forall d | 0 <= d < NumDays
      ensures DayTotals(g, c, NumDays)[d] == NoHours
    {
      UntypedRowCredits(g, d, c);
    }
    SumOfNothing(DayTotals(g, c, NumDays));
  }

  /** Empty grids credit nothing. */
  lemma EmptySheetCredits(grids: seq<Grid>, c: string)
    requires forall j :: 0 <= j < |grids| ==> grids[j] == EmptyGrid() && GridShaped(grids[j])
    ensures Sum(GridTotals(grids, c)) == NoHours
  {
    UntypedGridCredits(EmptyGrid(), c);
    SumOfNothing(GridTotals(grids, c));
  }

  /** The n section grids that replaying `log` from empty grids produces. */
  function Sheets(log: seq<Session>, n: nat): (grids: seq<Grid>)
    ensures |grids| == n && forall k :: 0 <= k < n ==> grids[k] == GridAfter(EmptyGrid(), log, k)
  {
    seq(n, k requires 0 <= k < n => GridAfter(EmptyGrid(), log, k))
  }

  /** Every grid has the shape of a timetable. */
  predicate AllShaped(grids: seq<Grid>) {
    forall k :: 0 <= k < |grids| ==> GridShaped(grids[k])
  }

  /** A replayed grid holds only single-word codes when the sessions have them. */
  lemma {:induction false} ReplayedGridOneWord(log: seq<Session>, section: nat)
    requires forall k :: 0 <= k < |log| ==> NoSpace(log[k].code)
    ensures GridShaped(GridAfter(EmptyGrid(), log, section))
    ensures CodesOneWord(GridAfter(EmptyGrid(), log, section))
  {
    CellExplained(EmptyGrid(), log, section, 0, 0);
    if log != [] {
      var init, x := log[..|log| - 1], log[|log| - 1];
      ReplayedGridOneWord(init, section);
      var before := GridAfter(EmptyGrid(), init, section);
      if x.section == section {
        forall d, s | 0 <= d < NumDays && 0 <= s < NumSlots
          ensures NoSpace(StampGrid(before, x)[d][s].code)
        {
          assert StampGrid(before, x)[d][s].code in {x.code, "", before[d][s].code};
        }
      }
    }
  }

  /** The cells of x's span are still empty in its grid when x is committed: an earlier session
      covering one of them would overlap x in x's own grid. */
  lemma SpanEmptyBeforeCommit(log: seq<Session>, x: Session)
    requires forall j :: 0 <= j < |log| ==> NoClash(log[j], x)
    requires WellPlaced(x)
    ensures GridShaped(GridAfter(EmptyGrid(), log, x.section))
    ensures forall i :: x.start <= i < End(x) ==> GridAfter(EmptyGrid(), log, x.section)[x.day][i] == EmptyCell
  {
    CellExplained(EmptyGrid(), log, x.section, 0, 0);
    forall i | x.start <= i < End(x)
      ensures GridAfter(EmptyGrid(), log, x.section)[x.day][i] == EmptyCell
    {
      CellExplained(EmptyGrid(), log, x.section, x.day, i);
    }
  }

  /** The cells x would be written over in g are all empty. */
  predicate SpanEmpty(g: Grid, x: Session) {
    GridShaped(g) && WellPlaced(x) && forall i :: x.start <= i < End(x) ==> g[x.day][i] == EmptyCell
  }

  /** Committing the last session of `log` changes the replayed grids only in its section, where
      it is written. */
  lemma SheetsAfterLast(log: seq<Session>, n: nat)
    requires log != []
    ensures forall k :: 0 <= k < n ==>
      Sheets(log, n)[k] ==
        (if k == log[|log| - 1].section then StampGrid(Sheets(log[..|log| - 1], n)[k], log[|log| - 1])
         else Sheets(log[..|log| - 1], n)[k])
  {
    var init, x := log[..|log| - 1], log[|log| - 1];
    assert init + [x] == log;
    forall k | 0 <= k < n
      ensures Sheets(log, n)[k] == if k == x.section then StampGrid(Sheets(init, n)[k], x) else Sheets(init, n)[k]
    {
      ReplayOneMore(Blank(Ledger(map[], map[])), EmptyGrid(), init, x, k);
    }
  }

  /** Committing a readable last session onto cells that are still empty adds its hours for its
      code to the credits of the replayed grids. */
  lemma SheetCreditsAfterLast(log: seq<Session>, n: nat, c: string)
    requires log != [] && Readable(log[|log| - 1]) && log[|log| - 1].section < n
    requires AllShaped(Sheets(log[..|log| - 1], n))
    requires SpanEmpty(Sheets(log[..|log| - 1], n)[log[|log| - 1].section], log[|log| - 1])
    ensures AllShaped(Sheets(log, n))
    ensures Sum(GridTotals(Sheets(log, n), c)) ==
      Plus(Sum(GridTotals(Sheets(log[..|log| - 1], n), c)), SessionCreditTo(log[|log| - 1], c))
  {
    var x := log[|log| - 1];
    var sheets, sheets' := Sheets(log[..|log| - 1], n), Sheets(log, n);
    SheetsAfterLast(log, n);
    StampGridCredits(sheets[x.section], sheets'[x.section], x, c);
    SumOneChanged(GridTotals(sheets, c), GridTotals(sheets', c), x.section, SessionCreditTo(x, c));
  }

  /** Replaying no session leaves every grid empty, crediting nothing. */
  lemma NothingLogged(n: nat, c: string)
    ensures AllShaped(Sheets([], n))
    ensures Sum(GridTotals(Sheets([], n), c)) == NoHours
  {
    EmptySheetCredits(Sheets([], n), c);
  }

  /** The last session of a clash-free log is committed onto cells that are still empty. */
  lemma LastOntoEmpty(log: seq<Session>, n: nat)
    requires log != [] && log[|log| - 1].section < n && WellPlaced(log[|log| - 1])
    requires forall j, k :: 0 <= j < k < |log| ==> NoClash(log[j], log[k])
    ensures SpanEmpty(Sheets(log[..|log| - 1], n)[log[|log| - 1].section], log[|log| - 1])
  {
    var init, x := log[..|log| - 1], log[|log| - 1];
    forall j | 0 <= j < |init|
      ensures NoClash(init[j], x)
    {
      assert init[j] == log[j];
    }
    SpanEmptyBeforeCommit(init, x);
  }

  /** The slot credits of the replayed grids add up to the hours of the logged sessions, code by code. */
  lemma {:induction false} SheetsCreditLoggedHours(log: seq<Session>, n: nat, c: string)
    requires forall k :: 0 <= k < |log| ==> log[k].section < n && Readable(log[k])
    requires forall j, k :: 0 <= j < k < |log| ==> NoClash(log[j], log[k])
    ensures AllShaped(Sheets(log, n))
    ensures Sum(GridTotals(Sheets(log, n), c)) == SessionCredit(log, c)
  {
    if log == [] {
      NothingLogged(n, c);
    } else {
      SheetsCreditLoggedHours(log[..|log| - 1], n, c);
      LastOntoEmpty(log, n);
      SheetCreditsAfterLast(log, n, c);
    }
  }

  /** The audit of the written sheets: for grids and a ledger that satisfy the allocator's
      invariants, scheduled_hours[c] is the sum of the hours of the committed sessions of code c,
      provided every code is one non-empty word. */
  lemma AuditReadsLoggedHours(l: Ledger, log: seq<Session>, grids: seq<Grid>, c: string)
    requires LedgerInv(l, log)
    requires forall k :: 0 <= k < |grids| ==> GridInv(grids[k], log, k)
    requires forall k :: 0 <= k < |log| ==> log[k].section < |grids| && log[k].code != "" && NoSpace(log[k].code)
    ensures forall k :: 0 <= k < |grids| ==> GridShaped(grids[k])
    ensures Lookup(Scheduled(SheetCells(grids)), c) == SessionCredit(log, c)
  {
    assert grids == Sheets(log, |grids|);
    SheetsCreditLoggedHours(log, |grids|, c);
    forall k | 0 <= k < |grids|
      ensures CodesOneWord(grids[k])
    {
      ReplayedGridOneWord(log, k);
    }
    SheetTotalRead(grids, c);
    ScheduledPerCode(SheetCells(grids), c);
  }
}

=== FILE: rooms.dfy ===
/** Per-section room assignment: one lecture room handed out round robin (pop the front of the
    pool, append it at the back) and one lab-room pair, which is the same pair for every section. */
module Rooms {

  const NoLectureRoom: string := "No Lecture Room"
  const NoLabRoom: string := "No Lab Room"

  /** A (department, semester) section. */
  datatype Section = Section(department: string, semester: string)

  /** The pool after m pops from the front, each followed by an append at the back. */
  function Rotated(pool: seq<string>, m: nat): (r: seq<string>)
    requires m <= |pool|
    ensures |r| == |pool|
  {
    pool[m..] + pool[..m]
  }

  /** The rotation is a permutation of the pool that starts at pool[m] and wraps around to pool[0]. */
  lemma RotatedAt(pool: seq<string>, m: nat, i: nat)
    requires m <= |pool| && i < |pool|
    ensures multiset(Rotated(pool, m)) == multiset(pool)
    ensures i < |pool| - m ==> Rotated(pool, m)[i] == pool[m + i]
    ensures |pool| - m <= i ==> Rotated(pool, m)[i] == pool[i - (|pool| - m)]
  {
    assert pool == pool[..m] + pool[m..];
  }

  /** Popping the front of a rotation and appending it at the back advances the rotation by one. */
  lemma RotateStep(pool: seq<string>, m: nat)
    requires m < |pool|
    ensures Rotated(pool, m)[0] == pool[m]
    ensures Rotated(pool, m)[1..] + [Rotated(pool, m)[0]] == Rotated(pool, if m + 1 == |pool| then 0 else m + 1)
  {
    var r := Rotated(pool, m);
    if m + 1 == |pool| {
      assert r[1..] + [r[0]] == pool;
    } else {
      assert r[1..] + [r[0]] == pool[m + 1..] + pool[..m + 1];
    }
  }

  /** The lab pair every section receives: the first two labs, the only lab twice, or the sentinel pair. */
  function LabPair(labRooms: seq<string>): (pair: (string, string))
    ensures |labRooms| >= 1 ==> pair.0 == labRooms[0] && pair.1 in labRooms
    ensures |labRooms| >= 2 ==> pair.1 == labRooms[1]
    ensures |labRooms| == 1 ==> pair.1 == labRooms[0]
    ensures |labRooms| == 0 ==> pair == (NoLabRoom, NoLabRoom)
  {
    if |labRooms| >= 2 then (labRooms[0], labRooms[1])
    else if |labRooms| == 1 then (labRooms[0], labRooms[0])
    else (NoLabRoom, NoLabRoom)
  }

  /** The lecture room the k-th section is given. */
  function LectureRoomFor(lectureRooms: seq<string>, k: nat): string {
    if |lectureRooms| == 0 then NoLectureRoom else lectureRooms[k % |lectureRooms|]
  }

  /** True when no later section repeats sections[k] (the last assignment of a key is the one kept). */
  predicate LastOccurrence(sections: seq<Section>, k: nat)
    requires k < |sections|
  {
    forall j :: k < j < |sections| ==> sections[j] != sections[k]
  }

  /** Assigns rooms section by section, rotating a copy of the lecture-room pool. */
  method AssignRooms(sections: seq<Section>, lectureRooms: seq<string>, labRooms: seq<string>)
    returns (lectureOf: map<Section, string>, labsOf: map<Section, (string, string)>)
    ensures lectureOf.Keys == labsOf.Keys == set k | 0 <= k < |sections| :: sections[k]
    ensures forall k :: 0 <= k < |sections| && LastOccurrence(sections, k) ==>
      lectureOf[sections[k]] == LectureRoomFor(lectureRooms, k)
    ensures forall sec :: sec in labsOf ==> labsOf[sec] == LabPair(labRooms)
  {
    var available := lectureRooms;
    lectureOf, labsOf := map[], map[];
    var k := 0;
    ghost var m := 0;  // position of the next room in the pool
    while k < |sections|
      invariant 0 <= k <= |sections|
      invariant |lectureRooms| == 0 ==> available == [] && m == 0
      invariant |lectureRooms| > 0 ==> m == k % |lectureRooms| && available == Rotated(lectureRooms, m)
      invariant lectureOf.Keys == labsOf.Keys == set j | 0 <= j < k :: sections[j]
      invariant forall j :: 0 <= j < k && LastOccurrence(sections[..k], j) ==>
        lectureOf[sections[j]] == LectureRoomFor(lectureRooms, j)
      invariant forall sec :: sec in labsOf ==> labsOf[sec] == LabPair(labRooms)
    {
      var key := sections[k];
      ghost var before := lectureOf;
      if |available| > 0 {
        var room := available[0];
        RotateStep(lectureRooms, m);
        ModSucc(k, |lectureRooms|);
        available := available[1..] + [room];
        m := if m + 1 == |lectureRooms| then 0 else m + 1;
        lectureOf := lectureOf[key := room];
      } else {
        // The rotating copy is empty only when the pool itself is empty.
        lectureOf := lectureOf[key := NoLectureRoom];
      }
      assert lectureOf[key] == LectureRoomFor(lectureRooms, k);
      labsOf := labsOf[key := LabPair(labRooms)];
      KeepLaterAssignments(sections, k, before, lectureOf, lectureRooms);
      k := k + 1;
    }
    assert sections[..k] == sections;
  }

  /** Re-assigning the k-th section's key keeps the assignments whose key does not come back. */
  lemma KeepLaterAssignments(sections: seq<Section>, k: nat, before: map<Section, string>,
                             after: map<Section, string>, lectureRooms: seq<string>)
    requires k < |sections|
    requires forall j :: 0 <= j < k && LastOccurrence(sections[..k], j) ==>
      sections[j] in before && before[sections[j]] == LectureRoomFor(lectureRooms, j)
    requires after == before[sections[k] := LectureRoomFor(lectureRooms, k)]
    ensures forall j :: 0 <= j < k + 1 && LastOccurrence(sections[..k + 1], j) ==>
      sections[j] in after && after[sections[j]] == LectureRoomFor(lectureRooms, j)
  {
    forall j | 0 <= j < k + 1 && LastOccurrence(sections[..k + 1], j)
      ensures sections[j] in after && after[sections[j]] == LectureRoomFor(lectureRooms, j)
    {
      if j < k {
        assert sections[..k + 1][k] == sections[k];
        assert LastOccurrence(sections[..k], j);
      }
    }
  }

  /** After n sections the round robin is back at the first room: section k and section k + n share a room. */
  lemma RoundRobinPeriod(lectureRooms: seq<string>, k: nat)
    requires |lectureRooms| >= 1
    ensures LectureRoomFor(lectureRooms, k + |lectureRooms|) == LectureRoomFor(lectureRooms, k)
  {
    var n := |lectureRooms|;
    DivModUnique(k + n, n, k / n + 1, k % n);
  }

  lemma MulAtLeast(x: int, n: int)
    requires x >= 1 && n > 0
    ensures x * n >= n
  {
    if x > 1 {
      MulAtLeast(x - 1, n);
      assert x * n == (x - 1) * n + n;
    }
  }

  /** Euclidean division is unique: k = q*n + r with 0 <= r < n fixes k % n. */
  lemma DivModUnique(k: int, n: int, q: int, r: int)
    requires n > 0 && 0 <= r < n && k == q * n + r
    ensures k % n == r
  {
    var q', r' := k / n, k % n;
    assert q' * n + r' == q * n + r;
    if q > q' {
      assert (q - q') * n == r' - r;
      MulAtLeast(q - q', n);
    }
    if q' > q {
      assert (q' - q) * n == r - r';
      MulAtLeast(q' - q, n);
    }
  }

  /** The position in the pool advances by one and wraps to 0 after the last room. */
  lemma ModSucc(k: nat, n: nat)
    requires n > 0
    ensures (k + 1) % n == if k % n + 1 == n then 0 else k % n + 1
  {
    var q, r := k / n, k % n;
    if r + 1 == n {
      DivModUnique(k + 1, n, q + 1, 0);
    } else {
      DivModUnique(k + 1, n, q, r + 1);
    }
  }

  /** Every room of the three pools is a key of the room ledger; nothing else is. */
  function InitialRoomKeys(lectureRooms: seq<string>, labRooms: seq<string>, largeRooms: seq<string>): (keys: set<string>)
    ensures forall r :: r in keys <==> r in lectureRooms || r in labRooms || r in largeRooms
  {
    set r | r in lectureRooms + labRooms + largeRooms
  }

  /** With an empty lecture pool the sentinel is handed out, and unless some real room carries the
      sentinel's name it is not a key of the room ledger. */
  lemma LectureSentinelIsNoKey(lectureRooms: seq<string>, labRooms: seq<string>, largeRooms: seq<string>, k: nat)
    requires lectureRooms == []
    requires NoLectureRoom !in labRooms && NoLectureRoom !in largeRooms
    ensures LectureRoomFor(lectureRooms, k) == NoLectureRoom
    ensures LectureRoomFor(lectureRooms, k) !in InitialRoomKeys(lectureRooms, labRooms, largeRooms)
  {
  }
}

=== FILE: sessions.dfy ===
/** Session kinds, their fixed lengths, the hours each one is credited with, and how many
    sessions of each kind a course's L-T-P requirement asks for. Hours are counted in half-hours. */
module Sessions {

  /** Lecture, tutorial, lab (practical). */
  datatype Kind = LEC | TUT | LAB

  const LectureDuration: nat := 3   // 1.5 hours
  const LabDuration: nat := 4       // 2 hours
  const TutorialDuration: nat := 2  // 1 hour

  /** Number of consecutive slots a session of kind k occupies. */
  function Duration(k: Kind): (n: nat)
    ensures 2 <= n <= 4
  {
    match k
    case LEC => LectureDuration
    case TUT => TutorialDuration
    case LAB => LabDuration
  }

  /** Only labs last four slots; the lab-after-lecture exception keys on that length. */
  lemma OnlyLabsLastFourSlots(k: Kind)
    ensures Duration(k) == LabDuration <==> k == LAB
  {
  }

  /** Hours (in half-hours) the audit credits to one session: 1.5 h, 1 h, 2 h. */
  function CreditHalfHours(k: Kind): (h: nat)
    ensures h == Duration(k)
  {
    match k
    case LEC => 3
    case TUT => 2
    case LAB => 4
  }

  /** Lecture sessions for L hours: `l // 1.5`, plus one when `l % 1.5 > 0`.
      For an integer l, `l // 1.5` is (2l) div 3 and the remainder is positive exactly when 3 does not divide 2l. */
  function LectureSessions(l: nat): (n: nat)
    ensures LectureDuration * n >= 2 * l
    ensures n > 0 ==> LectureDuration * (n - 1) < 2 * l
  {
    (2 * l) / 3 + (if (2 * l) % 3 > 0 then 1 else 0)
  }

  /** Tutorial sessions for T hours: one per hour. */
  function TutorialSessions(t: nat): (n: nat)
    ensures TutorialDuration * n == 2 * t
  {
    t
  }

  /** Lab sessions for P hours: `p // 2`, plus one when `p % 2 > 0`. */
  function LabSessions(p: nat): (n: nat)
    ensures LabDuration * n >= 2 * p
    ensures n > 0 ==> LabDuration * (n - 1) < 2 * p
  {
    p / 2 + (if p % 2 > 0 then 1 else 0)
  }

  /** Placing every computed session credits at least the required hours of each component. */
  lemma SessionCountsCoverRequirements(l: nat, t: nat, p: nat)
    ensures CreditHalfHours(LEC) * LectureSessions(l) >= 2 * l
    ensures CreditHalfHours(TUT) * TutorialSessions(t) >= 2 * t
    ensures CreditHalfHours(LAB) * LabSessions(p) >= 2 * p
  {
  }

  /** A course with L=3, T=1, P=2 needs two 3-slot lectures, one 2-slot tutorial and one 4-slot lab. */
  lemma ScenarioThreeOneTwo()
    ensures LectureSessions(3) == 2 && Duration(LEC) == 3
    ensures TutorialSessions(1) == 1 && Duration(TUT) == 2
    ensures LabSessions(2) == 1 && Duration(LAB) == 4
  {
  }
}

=== FILE: sums.dfy ===
/** Sums of hours. */
module HourSums {
  import opened Audit

  /** The sum of a sequence of hours. */
  function Sum(hs: seq<Hours>): Hours {
    if hs == [] then NoHours else Plus(Sum(hs[..|hs| - 1]), hs[|hs| - 1])
  }

  /** Two sequences of hours that differ at one position by delta differ in sum by delta. */
  lemma {:induction false} SumOneChanged(a: seq<Hours>, b: seq<Hours>, pos: nat, delta: Hours)
    requires |a| == |b| && pos < |a|
    requires forall i :: 0 <= i < |a| && i != pos ==> b[i] == a[i]
    requires b[pos] == Plus(a[pos], delta)
    ensures Sum(b) == Plus(Sum(a), delta)
  {
    var n := |a|;
    if pos == n - 1 {
      assert b[..n - 1] == a[..n - 1];
    } else {
      SumOneChanged(a[..n - 1], b[..n - 1], pos, delta);
    }
  }

  lemma SumOfNone()
    ensures Sum([]) == NoHours
  {
  }

  /** Appending h to a sequence adds h to its sum. */
  lemma SumLast(init: seq<Hours>, h: Hours)
    ensures Sum(init + [h]) == Plus(Sum(init), h)
  {
    assert (init + [h])[..|init|] == init;
  }

  lemma SumOfNothingStep(init: seq<Hours>)
    requires Sum(init) == NoHours
    ensures Sum(init + [NoHours]) == NoHours
  {
    SumLast(init, NoHours);
  }

  predicate AllNothing(a: seq<Hours>) {
    forall i :: 0 <= i < |a| ==> a[i] == NoHours
  }

  /** A sequence of zero hours is its front followed by zero hours. */
  lemma NothingSplit(a: seq<Hours>)
    requires a != [] && AllNothing(a)
    ensures a[..|a| - 1] + [NoHours] == a
    ensures AllNothing(a[..|a| - 1])
  {
  }

  /** Hours that are all zero sum to zero. */
  lemma {:induction false} SumOfNothing(a: seq<Hours>)
    requires forall i :: 0 <= i < |a| ==> a[i] == NoHours
    ensures Sum(a) == NoHours
  {
    if a == [] {
      SumOfNone();
    } else {
      var init := a[..|a| - 1];
      NothingSplit(a);
      SumOfNothing(init);
      SumOfNothingStep(init);
    }
  }

  lemma NoHoursPlus(h: Hours)
    ensures Plus(NoHours, h) == h
  {
  }
}

=== FILE: timetable.dfy ===
/** The allocator's shared state: a per-section grid of cells (day x slot) and the availability
    ledger, which maps each faculty member and each room to the set of occupied slots per day. */
module Timetable {
  import opened Wrappers
  import opened Calendar
  import opened Sessions

  /** One grid cell. The anchor (first) slot of a session carries its code, name, faculty and
      room text; continuation slots carry only the kind. An empty cell has no kind. */
  datatype Cell = Cell(kind: Option<Kind>, code: string, name: string, faculty: string, classroom: string)

  const EmptyCell: Cell := Cell(None, "", "", "", "")

  /** grid[day][slot] */
  type Grid = seq<seq<Cell>>

  /** Occupied slot indices, one set per day. */
  type Week = seq<set<int>>

  /** professor_schedule and classroom_schedule. */
  datatype Ledger = Ledger(professors: map<string, Week>, rooms: map<string, Week>)

  predicate GridShaped(g: Grid) {
    |g| == NumDays && forall d :: 0 <= d < NumDays ==> |g[d]| == NumSlots
  }

  predicate WeekShaped(w: Week) {
    |w| == NumDays && forall d, x :: 0 <= d < NumDays && x in w[d] ==> 0 <= x < NumSlots
  }

  predicate LedgerShaped(l: Ledger) {
    (forall f :: f in l.professors ==> WeekShaped(l.professors[f])) &&
    (forall r :: r in l.rooms ==> WeekShaped(l.rooms[r]))
  }

  /** A fresh section grid: every cell empty. */
  function EmptyGrid(): (g: Grid)
    ensures GridShaped(g)
    ensures forall d, s :: 0 <= d < NumDays && 0 <= s < NumSlots ==> g[d][s].kind.None?
  {
    seq(NumDays, _ => seq(NumSlots, _ => EmptyCell))
  }

  /** `{day: set() for day in range(len(DAYS))}` */
  function EmptyWeek(): (w: Week)
    ensures WeekShaped(w)
    ensures forall d :: 0 <= d < NumDays ==> w[d] == {}
  {
    seq(NumDays, _ => {})
  }

  /** The slot indices [start, start + n). */
  function SpanSet(start: int, n: nat): (s: set<int>)
    ensures forall x :: x in s <==> start <= x < start + n
  {
    if n == 0 then {} else SpanSet(start, n - 1) + {start + n - 1}
  }

  /** The ledger whose room keys are the given rooms, every one free all week, and no faculty yet. */
  function InitialLedger(roomKeys: set<string>): (l: Ledger)
    ensures LedgerShaped(l)
    ensures l.rooms.Keys == roomKeys && l.professors == map[]
    ensures forall r, d :: r in l.rooms && 0 <= d < NumDays ==> l.rooms[r][d] == {}
  {
    Ledger(map[], map r | r in roomKeys :: EmptyWeek())
  }
}

=== FILE: wrappers.dfy ===
/** The optional value shared by the other modules. */
module Wrappers {

  /** A value that may be absent (Python's None). */
  datatype Option<+T> = None | Some(value: T)
}
